=== FILE: README.md ===
# Heatmapper core in Dafny

A model of the server core of heatmapper, a Strava heat-map viewer. The
browser asks over a websocket for the activities in some time ranges, for the
athlete's routes and for activity polylines. The server pages through the
Strava API and streams the records back in batches. It keeps each emitted
record's polyline in a per-connection cache, so a later map request needs no
upstream call.

The model covers these parts:

- **Range algebra** (`shared/interfaces/TimeRange.ts`).
  - `TimeRanges`: `sort`, `pairs`, `merge`, `invert` and `cap` over half-open
    ranges `[start, end)` with optional ends.
  - `TimeRangeLaws` and `ComplementLaws`: their laws.
    - Coverage is preserved.
    - The output is in normal form.
    - `invert` complements its input, and `invert ∘ invert` is `merge`.
    - `cap` is intersection with the window: it inverts twice, so it keeps
      the part of the window the ranges cover, and `cap([{end: 5}], 0, 100)`
      is `[{start: 0, end: 5}]`.
- **Upstream client** (`server/strava.ts`), in `StravaClient`:
  - the query string, its filter of falsy values and its round trip;
  - placeholder interpolation of endpoints;
  - the single login-and-retry on a 401;
  - page-by-page pagination;
  - the token cache.
- **Older client** (`server/strava.js`), in `StravaLegacy`:
  - the unfiltered query string;
  - the retry after a 401;
  - the pagination that stops on `length === 0`.
- **Record conversions** (`Summaries`): the conversions of `api.ts`,
  `index.ts` and `index.js`, and the stripping of `map` from outgoing records.
- **Chunking** (`Chunks`): `chunkAsync` / `chunkArray` as chunking into
  fixed-size pieces.
- **Batch iterators** (`IteratorRuns`, `Iterators`): what a run yields and
  which `finding.length` values it reports.
  - They stop when the connection closes or a conversion throws.
  - The `index.ts` activities iterator also has a cached branch.
- **Connection and map cache** (`Session`, `PolylineCache`):
  - the `live` gate;
  - the emitting of batches;
  - the consume-once `fetchedMaps` cache;
  - `sendMaps`;
  - the `/token` status.
- **Earliest server** (`EarlyServer`): the REST `/activities` route of
  `server/index.js`, with `filterActivities` and the reuse of
  `cachedActivities`.
- **Memoisation** (`Memo`): `memoize` (with `??`) and `memoise` (with
  truthiness), and the difference between them.

There are also three helper modules: `Wrappers` (Option, Result), `JsValues`
(JavaScript values, truthiness, decimal text) and `Seqs` (flatten, filter,
split, join).

I/O is not modelled. Each call into it becomes a parameter instead:

- every HTTP response;
- the token file;
- the browser login;
- the clock (`Date.now()` is `cap`'s `end` argument; its other default, `start = 0`, is a parameter too, and the call sites at `server/api.ts:204` and `server/index.ts:249` pass 0);
- `encodeURIComponent`;
- the memoised function;
- the number of pages during which a connection stays open.

## Model

| member | source | states |
|---|---|---|
| TimeRanges.Sort | shared/interfaces/TimeRange.ts:6-10 | the sorted ranges are a permutation of the input with start-less ranges first and present starts ascending |
| TimeRanges.JsComparator | shared/interfaces/TimeRange.ts:9 | the comparator as written yields minus infinity whenever either range lacks a start, and the difference of the starts otherwise |
| TimeRangeLaws.SortIsOrderedPermutation | shared/interfaces/TimeRange.ts:6-10 | sort returns a permutation of its input, of the same length, in start order |
| TimeRangeLaws.SortOfSorted | shared/interfaces/TimeRange.ts:7-9 | input already in start order comes back unchanged |
| TimeRangeLaws.SortKeepsValidity | shared/interfaces/TimeRange.ts:6-10 | sorting keeps every range non-reversed (and non-empty) when the input ranges are |
| TimeRangeLaws.FoldShape | shared/interfaces/TimeRange.ts:19-32 | the merge loop emits at least the running range, keeps its start first, and emits separated ranges in start order |
| TimeRangeLaws.FoldCoverage | shared/interfaces/TimeRange.ts:22-32 | the merge loop covers exactly what the running range and the ranges still to visit cover |
| TimeRangeLaws.FoldKeepsValidity | shared/interfaces/TimeRange.ts:25-30 | extending the running end never reverses or empties a range |
| TimeRangeLaws.FoldOfSeparated | shared/interfaces/TimeRange.ts:25-27 | on separated input the loop only pushes and never combines |
| TimeRangeLaws.MergeCoverage | shared/interfaces/TimeRange.ts:18-34 | an instant lies in some merged range iff it lies in some input range |
| TimeRangeLaws.MergeShape | shared/interfaces/TimeRange.ts:18-34 | merge's output is separated and sorted, empty iff the input is, and never longer than the input |
| TimeRangeLaws.MergeKeepsValidity | shared/interfaces/TimeRange.ts:22-32 | merging valid ranges gives valid ranges, and merging proper ranges gives the normal form |
| TimeRangeLaws.MergeOfNormalForm | shared/interfaces/TimeRange.ts:18-34 | separated ranges in start order are their own merge |
| TimeRangeLaws.MergeIdempotent | shared/interfaces/TimeRange.ts:18-34 | merging twice is merging once |
| TimeRangeLaws.ComparatorInconsistent | shared/interfaces/TimeRange.ts:9 | a start-less range and a range with a start each compare smaller than the other |
| TimeRangeLaws.MisorderedMergeLosesCoverage | shared/interfaces/TimeRange.ts:6-34 | an order the comparator accepts makes the merge loop drop a start-less range and lose covered instants |
| ComplementLaws.NormalUnique | shared/interfaces/TimeRange.ts:18-34 | two normal forms that cover the same instants are equal |
| ComplementLaws.PairAt | shared/interfaces/TimeRange.ts:11-15 | `pairs` yields at position k the previous and the current range, with undefined outside the sequence |
| ComplementLaws.GapsMembers | shared/interfaces/TimeRange.ts:38-42 | invert's loop emits exactly the gaps of the pairs it visits |
| ComplementLaws.GapsProper | shared/interfaces/TimeRange.ts:38-42 | every gap between separated ranges is non-empty |
| ComplementLaws.GapExcludes | shared/interfaces/TimeRange.ts:41 | no instant of a gap lies in any range of the collection |
| ComplementLaws.GapIncludes | shared/interfaces/TimeRange.ts:38-42 | every instant the collection misses lies in one of the gaps |
| ComplementLaws.GapsComplement | shared/interfaces/TimeRange.ts:38-42 | the gaps of separated valid ranges cover exactly the instants the ranges do not |
| ComplementLaws.GapsSeparated | shared/interfaces/TimeRange.ts:38-43 | gaps emitted in order are themselves separated |
| ComplementLaws.InvertComplement | shared/interfaces/TimeRange.ts:36-44 | invert covers an instant iff its input does not |
| ComplementLaws.InvertShape | shared/interfaces/TimeRange.ts:36-44 | invert's output holds no empty or reversed range, and is a normal form for proper input |
| ComplementLaws.InvertInvert | shared/interfaces/TimeRange.ts:36-44 | inverting twice gives the merge of the input |
| ComplementLaws.CapWindow | shared/interfaces/TimeRange.ts:46-54 | for any input, cap covers an instant iff the input's gaps miss it and it lies in [start, end) |
| ComplementLaws.CapCoverage | shared/interfaces/TimeRange.ts:46-54 | cap covers exactly the instants of the input inside [start, end) |
| ComplementLaws.CapShape | shared/interfaces/TimeRange.ts:46-54 | cap's output is a normal form whose ranges all lie within [start, end], and it is empty for an empty window |
| ComplementLaws.CapIdempotent | shared/interfaces/TimeRange.ts:51-53 | capping twice to the same window changes nothing |
| ComplementLaws.CapCompletesWindow | shared/interfaces/TimeRange.ts:46-54 | capping what is covered together with the capped gaps gives exactly the window |
| ComplementLaws.MergeTouching | shared/interfaces/TimeRange.ts:25-29 | ranges that touch at an instant coalesce |
| ComplementLaws.InvertExample | shared/interfaces/TimeRange.ts:36-44 | the gaps around an unbounded-past range and a bounded range |
| ComplementLaws.MergeExample | shared/interfaces/TimeRange.ts:22-32 | a start-less range and a later range stay apart |
| ComplementLaws.InvertExtremes | shared/interfaces/TimeRange.ts:38-42 | nothing inverts to everything and everything to nothing |
| ComplementLaws.CapOfPast | shared/interfaces/TimeRange.ts:46-54 | capping the past before x leaves the part of the window before x |
| ComplementLaws.ZeroLengthVanishes | shared/interfaces/TimeRange.ts:36-44 | a zero-length range survives merge but not a double invert |
| ComplementLaws.ReversedRangeBreaksComplement | shared/interfaces/TimeRange.ts:36-44 | with a reversed input range, the input and its inversion share an instant |
| StravaClient.QueryString | server/strava.ts:80-83 | the query string is empty iff no entry has a truthy value |
| StravaClient.QueryStringRoundTrip | server/strava.ts:80-84 | parsing the query string gives back exactly the truthy entries, in order, keys and texts intact |
| StravaClient.FalsyEntryDropped | server/strava.ts:81 | an entry with a falsy value leaves the query string as if it were absent |
| StravaClient.RequestUrlParts | server/strava.ts:84 | the URL splits at its only `?` into base plus endpoint and the query string |
| StravaClient.ActivitiesPageSends | server/strava.ts:164-171 | an activities page sends per_page=200, a non-zero page, and before/after only for present non-zero bounds |
| StravaClient.RoutesPageSends | server/strava.ts:205-210 | a routes page for page i ≥ 1 sends per_page and page and nothing else |
| StravaClient.ActivityUrl | server/strava.ts:237-239 | the single-activity URL is the base, `/activities/`, the decimal id and a bare `?` |
| StravaClient.MatchPlaceholder | server/strava.ts:130 | a placeholder match captures a non-empty word key and ends at a `}` |
| StravaClient.Replacement | server/strava.ts:131-140 | only `athlete` is replaced; a falsy cached athlete asks for a login and any other key is an unknown-interpolation error |
| StravaClient.Interpolate | server/strava.ts:129-142 | an interpolation error names a non-athlete key, or is a login request made only when the athlete is falsy |
| StravaClient.InterpolateLiteral | server/strava.ts:129-142 | literal text is copied through in front of the rest of the result |
| StravaClient.InterpolateWithoutBrace | server/strava.ts:129-142 | text without `{` interpolates to itself |
| StravaClient.MatchHole | server/strava.ts:130 | a placeholder written without white space matches exactly itself |
| StravaClient.InterpolateHole | server/strava.ts:130-141 | a placeholder is replaced (or its error returned), and the scan continues after it |
| StravaClient.InterpolateRender | server/strava.ts:129-142 | interpolating a rendered template gives the segment-by-segment filling |
| StravaClient.FillLeavesNoBrace | server/strava.ts:132-133 | filling a template with a numeric athlete id leaves no `{` |
| StravaClient.ReinterpolationIsNoOp | server/strava.ts:154-157 | the second interpolation on the retry path changes nothing, whatever the cache then holds |
| StravaClient.InterpolateAround | server/strava.ts:129-142 | one placeholder between literal texts is replaced in place |
| StravaClient.RoutesEndpointInterpolation | server/strava.ts:205-206 | the routes endpoint becomes the cached athlete id, or asks for a login when none is cached |
| StravaClient.UnknownKeyRejected | server/strava.ts:139-140 | a key other than `athlete` is an error naming the key |
| StravaClient.StravaApi | server/strava.ts:144-162 | there is at most one login and at most two requests; a login happens iff interpolation needs it, or the first token is obtained and the first response is a 401; a token that cannot be obtained before the first request is rethrown with no request and no login; the second body is returned only after a 401 |
| StravaClient.MissingCredentialsThrowWithoutLogin | server/strava.ts:44-53 | with no credentials in memory or on disk, the token read before the first request throws (the cache is `null`), so an endpoint without placeholders fails with no request and no login |
| StravaClient.RetryIsFinal | server/strava.ts:154-161 | on an endpoint without placeholders, a 401 leads to one login and a second request to the same URL, whose body is returned whatever its status |
| StravaClient.NoRetryWithoutUnauthorized | server/strava.ts:147-153 | a non-401 first response is returned after exactly one request, error statuses included |
| StravaClient.LoginBeforeFirstRequest | server/strava.ts:150-157 | when interpolation needs a login, no request is made before it |
| StravaClient.Paginate | server/strava.ts:176-190 | pages 1, 2, … are requested in turn and yielded up to (not including) the first page with a falsy length |
| StravaClient.ActivitiesAreConcatenatedPages | server/strava.ts:195-203 | the activities are the items of the yielded pages, in order |
| StravaClient.AllListedPagesYielded | server/strava.ts:176-190 | when every listed page is a non-empty array, all of them are yielded |
| StravaClient.GetStravaToken | server/strava.ts:37-76 | a cached token is used without a code; the process exits iff a code is rejected; a renewal stores the new tokens and the athlete id when the answer has one |
| StravaClient.RenewedTokenIsReused | server/strava.ts:41-64 | after a renewal with a usable token, the next call without a code is served from the cache |
| StravaClient.FailedRefreshDoesNotExit | server/strava.ts:57-64 | a rejected refresh (no code) does not exit the process |
| StravaLegacy.LegacyQueryString | server/strava.js:68-70 | the older query string is empty iff the query is, falsy values included |
| StravaLegacy.LegacyQueryStringRoundTrip | server/strava.js:66-71 | parsing the older query string gives back every entry in order |
| StravaLegacy.LegacyAgreesOnTruthyQueries | server/strava.js:68-70 | the two query builders agree when every value is truthy |
| StravaLegacy.LegacySendsZero | server/strava.js:68-70 | a zero value is sent by the older client and dropped by the newer one |
| StravaLegacy.GetPageQueryText | server/strava.js:125-130 | `getPage(i)` sends `per_page=200&page=i` |
| StravaLegacy.LegacyStravaApi | server/strava.js:114-123 | a first token fetch that throws rejects the call with no request and no login; otherwise one request, plus one login and one more request to the same URL iff the first is a 401, and the last body is returned |
| StravaLegacy.LegacyMissingRefreshTokenThrows | server/strava.js:30-40 | with no access token and no refresh token, the call rejects before any request and without a login |
| StravaLegacy.LegacyRetryMatchesNewer | server/strava.js:114-123 | on an endpoint without placeholders, when both clients' first token fetches succeed or both throw, the clients log in, request and return alike |
| StravaLegacy.ErrorBodyHandling | server/strava.js:136-159 | the older loop yields an error body and the activity stream then fails, where the newer loop stops at it |
| StravaLegacy.StopRulesAgreeOnArrays | server/strava.js:136-147 | on array pages the two stop rules yield the same pages |
| Chunks.Chunk | server/api.ts:21-25 | the chunks concatenate to the input, are non-empty and of size n, except that the last may be shorter |
| Chunks.ChunkWithDefault | server/index.ts:63-67 | without a size, the chunks have size 10 |
| Chunks.HeadChunk | server/index.js:35-39 | the first chunk is the first n elements (or all of a shorter input), and the rest chunk the remainder |
| Chunks.ChunkingIsUnique | server/index.ts:69-73 | a sequence has only one chunking for a size, so the contract determines the result |
| Chunks.ChunkCount | server/api.ts:22 | the number of chunks is the length divided by n, rounded up |
| Summaries.RouteTypeTable | server/api.ts:69 | the type table is a bijection between codes 1-3 and Ride/Run/Walk |
| Summaries.SubTypeTable | server/api.ts:70 | the sub-type table is a bijection between codes 1-5 and its five names |
| Summaries.TupleTablesAgree | server/index.ts:116-117 | the tuple tables agree with the object tables, except that code 3 (Walk) is missing |
| Summaries.ConvertActivitySummary | server/api.ts:45-57 | conversion succeeds iff the record has a map, and copies id, name, date, type and the summary polyline |
| Summaries.ConvertRouteSummary | server/api.ts:59-73 | conversion succeeds iff the route has a map; the id is `id_str`, `route` is set, and the name, creation date, summary polyline and the route and sub-type names from the object tables are copied |
| Summaries.TupleConvertRouteSummary | server/index.ts:107-120 | conversion succeeds iff the route has a map; the id is the number, there is no `route` flag, and the name, creation date, summary polyline and the route and sub-type names from the array tables are copied |
| Summaries.RouteConversionsAgree | server/index.ts:107-120 | the two route conversions succeed together and differ only in the id, the flag and the type of a Walk route |
| Summaries.ConvertActivity | server/api.ts:75-85 | the polyline is the detailed or summary one by `highDetail`, and `''` when there is no map |
| Summaries.ConvertActivityMatchesSummary | server/index.ts:122-131 | a low-detail map is the polyline the summary carried, and falsy without a map |
| Summaries.StripActivityRoundTrip | server/api.ts:214 | a stripped activity joined with its polyline is the activity again |
| Summaries.StripRouteRoundTrip | server/api.ts:236 | a stripped route joined with its polyline is the route again |
| Summaries.StripActivityForgetsOnlyPolyline | server/index.ts:260 | two activities strip alike iff they differ at most in their polylines |
| IteratorRuns.ConvertPage | server/api.ts:145-146 | a page converts iff every record does, element by element |
| IteratorRuns.NonEmptyBatch | server/api.ts:148-150 | an empty batch is not yielded, and the kept records are unchanged |
| IteratorRuns.YieldedRecordsPassKeep | server/index.ts:183-187 | every yielded record passed the filter |
| Iterators.AccumulatingIterator | server/api.ts:137-154 | pages are taken in order while live; every raw length is added to the carried counter; the batches are, in order, the non-empty filtered pages; finished iff every page was taken |
| Iterators.CountingIterator | server/api.ts:159-175 | pages are taken in order while live; batch k is the filtered page k, empty or not; each report is the records kept before that page plus its raw length |
| IteratorRuns.CountedReportsAreKeptCounts | server/api.ts:166-168 | each report of a counting run is determined by the pages: the records kept from the earlier pages plus the page's raw length |
| IteratorRuns.CountedBatchesArePages | server/api.ts:169-171 | batch k of a counting run is the kept records of page k, which converted |
| Iterators.AccumulatePage | server/api.ts:142-150 | one loop turn: the run fails exactly when the page's conversion throws; otherwise the counter grows by the raw page length and the loop state is kept |
| Iterators.CountPage | server/api.ts:166-171 | one loop turn: the run fails exactly when the page's conversion throws; otherwise the counter is set from the kept records and the loop state is kept |
| Iterators.CachedActivitiesIterator | server/index.ts:172-196 | a non-empty cache is reported and yielded as one batch; an empty one fetches as a counting run; the cache is never filled |
| Iterators.YieldedHaveMaps | server/index.ts:183-185 | every yielded activity has a truthy polyline |
| Iterators.YieldedRoutesHaveMaps | server/index.ts:211-213 | every yielded route has a truthy polyline |
| Iterators.ApiActivitiesIterator | server/api.ts:139-151 | the api.ts activities iterator is an accumulating run over its pages and yields only records with maps |
| Iterators.ApiRoutesIterator | server/api.ts:163-172 | the api.ts routes iterator is a counting run over its pages and yields only routes with maps |
| Iterators.IndexRoutesIterator | server/index.ts:201-219 | the index.ts routes iterator is a counting run over its pages and yields only routes with maps |
| Session.Send | server/api.ts:107-109 | a message is transmitted, after all earlier ones, iff the connection is live |
| Session.Close | server/api.ts:129-131 | closing clears `live` and keeps what was sent |
| Session.SilentAfterClose | server/index.ts:161-167 | after close nothing more is transmitted |
| Session.OpenTransmitsAll | server/api.ts:105-108 | while live, everything sent is transmitted in order |
| Session.EmitActivities | server/api.ts:207-216 | a closed connection is left as it was; otherwise the polylines are cached and the summaries and stats sent |
| Session.EmitRoutes | server/api.ts:229-238 | a closed connection is left as it was; otherwise the route polylines are cached and the summaries and stats sent |
| Session.TextKeysDistinct | server/api.ts:210 | distinct ids give distinct `toString()` keys |
| Session.EmittedActivitiesRecoverable | server/index.ts:252-262 | each sent summary, joined with the polyline cached under its key, is the emitted activity |
| Session.EmittedRoutesRecoverable | server/index.ts:276-286 | each sent route summary, joined with its cached polyline, is the emitted route |
| Session.EmitThenMapsFromCache | server/api.ts:177-187 | a maps request for exactly the emitted records is answered from the cache with no upstream call and leaves the cache as before |
| Session.SendMaps | server/api.ts:177-196 | every id is answered from the cache or upstream; the pairs go out in chunks of 50, each as an object, then the stats, only while live; the cache is consumed either way |
| Session.FromEntriesLastWins | server/api.ts:192 | a `maps` message holds exactly the ids of its chunk, each with the polyline of its last pair |
| Session.TokenPage | server/api.ts:251-257 | the token callback always answers 200 with the success page |
| PolylineCache.RecordLookup | server/api.ts:209-211 | after recording, a key holds its last entry's polyline, and keys without entries are unchanged |
| PolylineCache.Take | server/api.ts:182-183 | a truthy cached polyline is a hit and is deleted; a miss leaves the cache untouched |
| PolylineCache.TakeConsumesOnce | server/index.ts:226-227 | right after a hit, the same id misses |
| PolylineCache.TakeMissKeepsCache | server/index.ts:227 | a miss leaves the cache exactly as it was |
| PolylineCache.MapFor | server/api.ts:179-186 | without highDetail a hit answers from the cache; otherwise upstream is asked; a hit is deleted in both cases |
| PolylineCache.MapsFor | server/index.ts:222-232 | one pair per requested id, in request order, with at most one upstream call per id |
| PolylineCache.EmittedMapsServedFromCache | server/index.ts:223-231 | recorded entries requested back are all served from the cache, and the cache returns to its state before recording |
| PolylineCache.RepeatedIdFetchedAgain | server/api.ts:182-185 | an id requested twice is served from the cache the first time and fetched the second |
| EarlyServer.FilterActivities | server/index.js:140-144 | an activity is kept iff it has a map and its type is listed (or no type is given), in order |
| EarlyServer.FilterActivitiesIdempotent | server/index.js:141-143 | filtering twice is filtering once |
| EarlyServer.NoTypeKeepsAllMapped | server/index.js:142 | a missing or empty type keeps every activity with a map |
| EarlyServer.TypeListSelectsListed | server/index.js:142 | a comma-joined type list selects exactly the listed sports |
| EarlyServer.TypeTokensNotTrimmed | server/index.js:142 | type tokens are not trimmed |
| EarlyServer.RestActivities | server/index.js:148-165 | upstream is asked iff the cache is empty; the cache is replaced only after a complete successful listing |
| EarlyServer.CachedActivitiesCopyListing | server/index.js:121-133 | each cached activity is its raw record with `map` replaced by the summary polyline |
| EarlyServer.CachedAnswerIgnoresUpstream | server/index.js:152-159 | with a non-empty cache the answer does not depend on upstream |
| EarlyServer.SecondRequestReusesCache | server/index.js:150-164 | after a successful non-empty fetch the next request is served from the cache |
| EarlyServer.EmptyOrFailedFetchRefetches | server/index.js:152-158 | an empty or failed fetch leaves the cache empty, so the next request fetches again |
| Memo.Memoize | server/stateful-functions.ts:10-13 | `fn` is called iff the key is absent or nullish; the memo then holds the result and other keys are untouched |
| Memo.FreshMemoizeMisses | server/stateful-functions.ts:11 | a prototype-less memo misses on every key, `constructor` included |
| Memo.MemoizeIsTransparent | server/stateful-functions.ts:12 | from a faithful memo the result is what `fn` gives, and the memo stays faithful |
| Memo.MemoizeServesRepeat | server/stateful-functions.ts:2-12 | a repeated call is served iff the first result was not nullish |
| Memo.MemoizeRecomputesNullish | server/stateful-functions.ts:12 | a nullish result is recomputed on every call |
| Memo.MemoizeKeysIndependent | server/stateful-functions.ts:10-13 | a call does not change how any other key is answered |
| Memo.StoredSurvivesRun | server/stateful-functions.ts:11-12 | a stored non-nullish value serves every later call for its key |
| Memo.MemoizeCallsOncePerKey | server/stateful-functions.ts:1-13 | when `fn` is never nullish, it is called at most once per distinct argument |
| Memo.PlainLookup | server/index.js:52-55 | a lookup in a plain object finds own values, else a truthy value exactly for inherited names |
| Memo.MemoiseAsWritten | server/stateful-functions.js:13-24 | as written, `fn` is skipped iff the plain-object lookup is truthy, inherited names included |
| Memo.MemoiseAsWrittenServesPrototype | server/stateful-functions.js:14-18 | on a fresh memo, `constructor` returns the inherited function without calling `fn` |
| Memo.Memoise | server/stateful-functions.js:14-18 | corrected version of the Findings row: `fn` is called iff the key holds no truthy own value; the memo then holds the result and other keys are untouched |
| Memo.MemoiseAsWrittenAgreesOffPrototype | server/stateful-functions.js:16-18 | away from inherited names, the code as written and the corrected version agree |
| Memo.MemoiseIsTransparent | server/index.js:54-61 | the corrected version returns what `fn` gives and keeps the memo faithful |
| Memo.FreshMemoiseMisses | server/stateful-functions.js:14-18 | corrected version of the Findings row: a fresh memo misses on every key |
| Memo.FreshMemoiseAsWrittenMisses | server/index.js:52-56 | as written, a fresh memo misses on a key iff it is not a name inherited from `Object.prototype` |
| Memo.MemoiseServesRepeat | server/index.js:55-56 | a repeated call is served iff the first result was truthy |
| Memo.MemoiseRecomputesFalsy | server/index.js:56-59 | falsy results are recomputed on every call |
| Memo.MemoiseKeysIndependent | server/index.js:59 | a call does not change how any other key is answered |
| Memo.HitTestsDiffer | server/stateful-functions.ts:12 | `??` and truthiness disagree exactly on stored values that are falsy but not nullish |

## Left out

- The eager iterator (`server/eager-iterator.ts`), `sortPromises` and `inOrder` are not modelled.
  - Upstream pages are a parameter, taken in order.
  - The `maps` pairs are in request order, not in completion order.
  - Concurrent `sendMaps` calls are not modelled.
- Liveness is sampled once per page or per request. The iterators take the number of pages during which the connection is open (`liveFor`), and `Session.SendMaps` takes the state at the start.
- Session.SendMaps: does not model a connection that closes part-way through the chunks, because liveness is a single input.
- All I/O is left out: `fetch`, the token file, the browser login server, the one-hour refresh timer, `process.exit` (a result value instead), and websocket and Express wiring.
- Dates are left out: `+new Date(date)`, moment, `formatDateWithLineBreak` and `splitDateFormat`. Dates stay as the upstream text.
- Floating point is left out, including `Math.floor`, NaN and infinities. Timestamps and ids are integers; the comparator's infinities are an explicit extended type.
- `encodeURIComponent` is a function parameter, assumed to escape `&`, `=` and `?` and to be inverted by a decoder. `decodeURIComponent` and URL parsing are not modelled.
- StravaClient.QueryStringRoundTrip: holds only for an encoder that escapes the delimiters and has an inverse, because the real encoder is not modelled.
- StravaLegacy.LegacyQueryStringRoundTrip: the same assumption about the encoder.
- Query keys that look like integers, which `Object.entries` lists before the others, are not modelled: a query is its string keys in insertion order, and every query the client builds has word keys.
- The `type` query parameter as an array (`?type=a&type=b`) is left out; `filterActivities` sees a string or nothing.
- The `Strava` class that `server/api.ts` imports is not part of this model. Its methods are modelled by the functions of `server/strava.ts` that it wraps. Its login messages to the browser are left out.
- The websocket side of `server/index.js` (its iterators and `sendMaps`) is left out; it repeats the `index.ts` logic modelled here.
- The memoised function is a pure parameter: side effects and exceptions of `fn` are not modelled.
- Chunks.Chunk: requires a positive size, because with `n <= 0` the source loop never ends on a non-empty array.
- ComplementLaws.InvertComplement: requires non-reversed ranges, because with a reversed range the property fails (see `ComplementLaws.ReversedRangeBreaksComplement`).
- ComplementLaws.InvertInvert: requires ranges of positive length, because a zero-length range vanishes (see `ComplementLaws.ZeroLengthVanishes`).
- ComplementLaws.CapCoverage: requires non-reversed ranges; `ComplementLaws.CapWindow` states what `cap` does for any input.
- ComplementLaws.CapCompletesWindow: requires non-reversed ranges, for the same reason.
- StravaClient.ReinterpolationIsNoOp: holds for well-formed templates and a numeric athlete id, the only kind the token endpoint stores.
- Session.EmittedActivitiesRecoverable: requires distinct keys in the batch. With duplicate ids the later polyline wins, which `PolylineCache.RecordLookup` states.
- Session.EmittedRoutesRecoverable: requires distinct ids in the batch. With duplicate ids the later polyline wins, which `PolylineCache.RecordLookup` states.
- Session.EmitThenMapsFromCache: requires distinct keys, truthy polylines and keys not cached before.
- PolylineCache.EmittedMapsServedFromCache: the same requirements as `Session.EmitThenMapsFromCache`.
- StravaClient.StravaApi: a started login is taken to complete. With no credentials in memory or on disk, the code exchange inside the login callback throws (`GetStravaToken` gives `Crashed(true)`), the login never resolves and the call never returns; that hang is not modelled. The token awaited by the second request is taken to be obtained, since a completed login has stored credentials.
- StravaClient.RetryIsFinal: requires that the first token is obtained, because otherwise the call throws before any request (`StravaClient.MissingCredentialsThrowWithoutLogin`).
- StravaClient.NoRetryWithoutUnauthorized: the same requirement on the first token.
- StravaLegacy.LegacyRetryMatchesNewer: requires that both clients' first token fetches succeed or both throw, because the two token functions throw under different conditions.
- StravaLegacy.LegacyStravaApi: a started login is taken to complete. When there is no refresh token at login time (for example after a failed refresh cleared it), the code exchange throws at `server/strava.js:40` inside the login callback and the call never returns; that hang is not modelled. The token awaited by the second request is taken to be obtained.
- StravaClient.Paginate: the upstream pages are a finite list followed by empty pages, so the loop always reaches a stop page. An upstream that returned non-empty pages forever, which would keep the source loops (`server/strava.ts:176-190`, `server/strava.js:136-147`) running, is not modelled.
- Memo.MemoizeCallsOncePerKey: requires that `fn` never returns a nullish value, since nullish results are recomputed (`Memo.MemoizeRecomputesNullish`).

## Findings

| source | as written | input that shows it | evidently intended | confidence | as-written member | corrected member |
|---|---|---|---|---|---|---|
| shared/interfaces/TimeRange.ts:9 | the comparator gives minus infinity whenever either range lacks a start, so a start-less range and a range with a start each compare smaller than the other | `merge([{end: 5}, {start: 10, end: 20}])`: an insertion step that compares the second range with the first gets a negative result and moves `{start: 10, end: 20}` in front; the loop then ignores `{end: 5}` and the result misses instant 0 | start-less ranges sort before every range with a start, consistently, so merge keeps coverage | high; not executed | TimeRanges.JsComparator, TimeRangeLaws.MisorderedMergeLosesCoverage | TimeRanges.Sort, TimeRangeLaws.MergeCoverage |
| server/stateful-functions.js:14-18 | the memo is a plain `{}`, so the lookup finds members inherited from `Object.prototype` and treats them as hits | a fresh memoised function called with `"constructor"` returns the `Object` constructor without calling `fn` (the same code is at server/index.js:51-62) | only values the memo itself stored are hits, as with `Object.create(null)` in `server/stateful-functions.ts` | high; not executed | Memo.MemoiseAsWritten, Memo.MemoiseAsWrittenServesPrototype | Memo.Memoise, Memo.MemoiseIsTransparent |

=== FILE: Chunks.dfy ===
/** Fixed-size chunking: `chunkAsync` in `server/api.ts` (over promises, with
    `Promise.all` per chunk) and `chunkArray` in `server/index.ts` and
    `server/index.js`. Both step an index by `n` and take
    `array.slice(i, i + n)`, which clamps at the end of the array. */
module Chunks {

  import opened Wrappers
  import opened Seqs

  /** `chunks` cuts `xs` into consecutive non-empty pieces of length `n`,
      of which only the last may be shorter. */
  predicate IsChunking<T(==)>(chunks: seq<seq<T>>, xs: seq<T>, n: nat) {
    && Flatten(chunks) == xs
    && (forall k :: 0 <= k < |chunks| ==> 0 < |chunks[k]| <= n)
    && (forall k :: 0 <= k < |chunks| - 1 ==> |chunks[k]| == n)
  }

  /** The slicing loop; `n` must be positive, since with `n <= 0` the loop
      never ends on a non-empty array. */
  method Chunk<T(==)>(xs: seq<T>, n: nat) returns (chunks: seq<seq<T>>)
    requires n >= 1
    ensures IsChunking(chunks, xs, n)
  {
    chunks := [];
    var i := 0;
    while i < |xs|
      invariant 0 <= i <= |xs|
      invariant Flatten(chunks) == xs[..i]
      invariant forall k :: 0 <= k < |chunks| ==> 0 < |chunks[k]| <= n
      invariant forall k :: 0 <= k < |chunks| - 1 ==> |chunks[k]| == n
      invariant |chunks| > 0 && |chunks[|chunks| - 1]| < n ==> i == |xs|
      decreases |xs| - i
    {
      var j := if i + n <= |xs| then i + n else |xs|;
      var piece := xs[i..j];
      FlattenAppend(chunks, [piece]);
      assert xs[..j] == xs[..i] + piece;
      chunks := chunks + [piece];
      i := j;
    }
    assert xs[..i] == xs;
  }

  /** `chunkArray(array, n = 10)`: the default size is 10. */
  method ChunkWithDefault<T(==)>(xs: seq<T>, n: Option<nat>) returns (chunks: seq<seq<T>>)
    requires n.Some? ==> n.value >= 1
    ensures IsChunking(chunks, xs, if n.Some? then n.value else 10)
  {
    chunks := Chunk(xs, if n.Some? then n.value else 10);
  }

  /** A sequence of non-empty pieces flattens to the empty sequence only when
      there are no pieces. */
  lemma NonEmptyPieces<T>(chunks: seq<seq<T>>)
    requires forall k :: 0 <= k < |chunks| ==> |chunks[k]| > 0
    ensures |chunks| > 0 <==> |Flatten(chunks)| > 0
  {
    if |chunks| > 0 {
      assert Flatten(chunks) == chunks[0] + Flatten(chunks[1..]);
    }
  }

  /** The first chunk of a non-empty sequence is its first `n` elements, or
      all of it when it is shorter. */
  lemma HeadChunk<T>(chunks: seq<seq<T>>, xs: seq<T>, n: nat)
    requires IsChunking(chunks, xs, n) && |xs| > 0
    ensures |chunks| > 0
    ensures |chunks[0]| == if |xs| <= n then |xs| else n
    ensures chunks[0] == xs[..|chunks[0]|]
    ensures Flatten(chunks[1..]) == xs[|chunks[0]|..]
    ensures IsChunking(chunks[1..], xs[|chunks[0]|..], n)
  {
    NonEmptyPieces(chunks);
    var tail := chunks[1..];
    assert Flatten(chunks) == chunks[0] + Flatten(tail);
    NonEmptyPieces(tail);
    if |tail| == 0 {
      assert chunks[0] == xs;
    } else {
      assert |chunks[0]| == n;
    }
  }

  /** There is only one chunking of a sequence for a given size, so the
      contract of `Chunk` determines its result completely. */
  lemma {:induction false} ChunkingIsUnique<T>(a: seq<seq<T>>, b: seq<seq<T>>, xs: seq<T>, n: nat)
    requires IsChunking(a, xs, n) && IsChunking(b, xs, n)
    ensures a == b
  {
    NonEmptyPieces(a);
    NonEmptyPieces(b);
    if |xs| > 0 {
      HeadChunk(a, xs, n);
      HeadChunk(b, xs, n);
      ChunkingIsUnique(a[1..], b[1..], xs[|a[0]|..], n);
      assert a == [a[0]] + a[1..] && b == [b[0]] + b[1..];
    }
  }

  /** `n` times the number of chunks bounds the length from above, and `n`
      times one fewer chunks falls short of it. */
  lemma {:induction false} ChunkCount<T>(chunks: seq<seq<T>>, xs: seq<T>, n: nat)
    requires n >= 1 && IsChunking(chunks, xs, n)
    ensures |xs| <= |chunks| * n
    ensures |chunks| > 0 ==> (|chunks| - 1) * n < |xs|
  {
    NonEmptyPieces(chunks);
    if |xs| > 0 {
      HeadChunk(chunks, xs, n);
      var tail := chunks[1..];
      ChunkCount(tail, xs[|chunks[0]|..], n);
      assert |chunks| * n == |tail| * n + n;
      if |tail| > 0 {
        assert (|chunks| - 1) * n == (|tail| - 1) * n + n;
      }
    }
  }
}

=== FILE: ComplementLaws.dfy ===
/** Laws of `invert` and `cap` from `TimeRanges`: `invert` is the complement
    of the covered set, its output is always a normal form, inverting twice
    recovers `merge` for proper ranges, and `cap` is intersection with the
    fetch window. Equalities between collections are proved through the
    uniqueness of normal forms: two normal collections with the same
    coverage are the same sequence. */
module ComplementLaws {

  import opened Wrappers
  import opened TimeRanges
  import opened TimeRangeLaws

  // ---------------------------------------------------------------------------
  // Normal forms
  // ---------------------------------------------------------------------------

  /** An instant inside a proper range. */
  function WitnessPoint(r: TimeRange): (t: int)
    requires Proper(r)
    ensures Covers(r, t)
  {
    if r.start.Some? then r.start.value
    else if r.end.Some? then r.end.value - 1
    else 0
  }

  /** Every range of a normal collection after the first starts, strictly,
      after the first one ends. */
  lemma NormalLaterRanges(a: seq<TimeRange>, j: int)
    requires Normal(a) && 0 < j < |a|
    ensures EndsBefore(a[0], a[j])
    ensures a[0].start.Some? ==> a[0].start.value < a[j].start.value
  {
    assert Proper(a[0]);
  }

  /** A normal collection is in the order `merge` sorts by. */
  lemma NormalIsSorted(a: seq<TimeRange>)
    requires Normal(a)
    ensures SortedByStart(a)
  {
    forall i, j | 0 <= i < j < |a| ensures StartLe(a[i].start, a[j].start) {
      assert EndsBefore(a[i], a[j]) && Proper(a[i]);
    }
  }

  lemma NormalTail(a: seq<TimeRange>)
    requires Normal(a) && |a| > 0
    ensures Normal(a[1..])
  {
    SeparatedTail(a);
  }

  /** Nothing of a normal collection lies before its first start. */
  lemma NothingBeforeFirst(a: seq<TimeRange>, t: int)
    requires Normal(a) && |a| > 0 && a[0].start.Some? && t < a[0].start.value
    ensures !CoveredBy(a, t)
  {
    forall j | 0 <= j < |a| ensures !Covers(a[j], t) {
      if j > 0 {
        NormalLaterRanges(a, j);
      }
    }
  }

  /** The first end of a normal collection is not covered. */
  lemma FirstEndUncovered(a: seq<TimeRange>)
    requires Normal(a) && |a| > 0 && a[0].end.Some?
    ensures !CoveredBy(a, a[0].end.value)
  {
    forall j | 0 < j < |a| ensures !Covers(a[j], a[0].end.value) {
      NormalLaterRanges(a, j);
    }
  }

  /** What the later ranges of a normal collection cover is what the whole
      covers outside the first range. */
  lemma NormalTailCoverage(a: seq<TimeRange>, t: int)
    requires Normal(a) && |a| > 0
    ensures CoveredBy(a[1..], t) <==> CoveredBy(a, t) && !Covers(a[0], t)
  {
    assert a == [a[0]] + a[1..];
    CoveredByCons(a[0], a[1..], t);
    if CoveredBy(a[1..], t) {
      var j :| 0 <= j < |a[1..]| && Covers(a[1..][j], t);
      assert a[1..][j] == a[j + 1];
      NormalLaterRanges(a, j + 1);
    }
  }

  ghost predicate SameCoverage(a: seq<TimeRange>, b: seq<TimeRange>) {
    forall t :: CoveredBy(a, t) <==> CoveredBy(b, t)
  }

  lemma FirstStartsAgree(a: seq<TimeRange>, b: seq<TimeRange>)
    requires Normal(a) && Normal(b) && |a| > 0 && |b| > 0 && SameCoverage(a, b)
    ensures a[0].start == b[0].start
  {
    if a[0].start != b[0].start {
      if !StartLe(b[0].start, a[0].start) {
        FirstStartsAgreeOneWay(a, b);
      } else {
        FirstStartsAgreeOneWay(b, a);
      }
    }
  }

  /** If `a` starts strictly earlier than `b`, an instant separates them. */
  lemma FirstStartsAgreeOneWay(a: seq<TimeRange>, b: seq<TimeRange>)
    requires Normal(a) && Normal(b) && |a| > 0 && |b| > 0
    requires !StartLe(b[0].start, a[0].start)
    ensures exists t :: CoveredBy(a, t) && !CoveredBy(b, t)
  {
    var s := b[0].start.value;
    var r := a[0];
    var t := if r.start.Some? then r.start.value
             else if r.end.Some? && r.end.value < s then r.end.value - 1
             else s - 1;
    assert Proper(r) && Covers(r, t);
    NothingBeforeFirst(b, t);
  }

  lemma FirstEndsAgree(a: seq<TimeRange>, b: seq<TimeRange>)
    requires Normal(a) && Normal(b) && |a| > 0 && |b| > 0 && SameCoverage(a, b)
    requires a[0].start == b[0].start
    ensures a[0].end == b[0].end
  {
    if a[0].end != b[0].end {
      if a[0].end.Some? && (b[0].end.None? || a[0].end.value < b[0].end.value) {
        FirstEndsAgreeOneWay(a, b);
      } else {
        FirstEndsAgreeOneWay(b, a);
      }
    }
  }

  /** If `a`'s first range ends strictly earlier than `b`'s (with the same
      start), `a`'s first end is covered by `b` but not by `a`. */
  lemma FirstEndsAgreeOneWay(a: seq<TimeRange>, b: seq<TimeRange>)
    requires Normal(a) && Normal(b) && |a| > 0 && |b| > 0 && a[0].start == b[0].start
    requires a[0].end.Some? && (b[0].end.None? || a[0].end.value < b[0].end.value)
    ensures exists t :: CoveredBy(b, t) && !CoveredBy(a, t)
  {
    var t := a[0].end.value;
    FirstEndUncovered(a);
    assert Proper(a[0]) && Covers(b[0], t);
  }

  /** Two normal collections covering the same instants are equal. */
  lemma {:induction false} NormalUnique(a: seq<TimeRange>, b: seq<TimeRange>)
    requires Normal(a) && Normal(b) && SameCoverage(a, b)
    ensures a == b
    decreases |a|
  {
    if |a| == 0 || |b| == 0 {
      if |a| > 0 {
        assert Proper(a[0]) && Covers(a[0], WitnessPoint(a[0]));
        assert CoveredBy(a, WitnessPoint(a[0]));
      }
      if |b| > 0 {
        assert Proper(b[0]) && Covers(b[0], WitnessPoint(b[0]));
        assert CoveredBy(b, WitnessPoint(b[0]));
      }
    } else {
      FirstStartsAgree(a, b);
      FirstEndsAgree(a, b);
      assert a[0] == b[0];
      NormalTail(a);
      NormalTail(b);
      forall t ensures CoveredBy(a[1..], t) <==> CoveredBy(b[1..], t) {
        NormalTailCoverage(a, t);
        NormalTailCoverage(b, t);
      }
      NormalUnique(a[1..], b[1..]);
      assert a == [a[0]] + a[1..] && b == [b[0]] + b[1..];
    }
  }

  // ---------------------------------------------------------------------------
  // The gaps of a collection
  // ---------------------------------------------------------------------------

  /** The pair `pairs` yields at position `k`. */
  lemma PairAt(m: seq<TimeRange>, k: int)
    requires 0 <= k <= |m|
    ensures Pairs(m)[k].0 == if k > 0 then Some(m[k - 1]) else None
    ensures Pairs(m)[k].1 == if k < |m| then Some(m[k]) else None
  {
  }

  /** `invert`'s loop emits exactly the gaps of the visited pairs, in order. */
  lemma {:induction false} GapsMembers(ps: seq<(Option<TimeRange>, Option<TimeRange>)>)
    ensures forall x :: x in Gaps(ps) <==> exists k :: 0 <= k < |ps| && GapOf(ps[k]) == Some(x)
  {
    if |ps| > 0 {
      GapsMembers(ps[1..]);
      forall x | x in Gaps(ps)
        ensures exists k :: 0 <= k < |ps| && GapOf(ps[k]) == Some(x)
      {
        if GapOf(ps[0]) != Some(x) {
          assert x in Gaps(ps[1..]);
          var k :| 0 <= k < |ps[1..]| && GapOf(ps[1..][k]) == Some(x);
          assert ps[1..][k] == ps[k + 1];
        }
      }
      forall x, k | 0 <= k < |ps| && GapOf(ps[k]) == Some(x) ensures x in Gaps(ps) {
        if k > 0 {
          assert ps[1..][k - 1] == ps[k];
        }
      }
    }
  }

  /** Each gap of a separated collection lies strictly between its flanking ranges. */
  lemma GapsProper(m: seq<TimeRange>)
    requires Separated(m)
    ensures AllProper(Gaps(Pairs(m)))
  {
    var g := Gaps(Pairs(m));
    GapsMembers(Pairs(m));
    forall i | 0 <= i < |g| ensures Proper(g[i]) {
      assert g[i] in g;
      var k :| 0 <= k < |Pairs(m)| && GapOf(Pairs(m)[k]) == Some(g[i]);
      PairAt(m, k);
      if 0 < k < |m| {
        assert EndsBefore(m[k - 1], m[k]);
      }
    }
  }

  /** The gap at position `k` and a range of the collection share no instant. */
  lemma GapExcludes(m: seq<TimeRange>, k: int, i: int, t: int)
    requires Separated(m) && AllValid(m) && 0 <= k <= |m| && 0 <= i < |m|
    requires GapOf(Pairs(m)[k]).Some? && Covers(GapOf(Pairs(m)[k]).value, t)
    ensures !Covers(m[i], t)
  {
    PairAt(m, k);
    if i < k - 1 {
      assert EndsBefore(m[i], m[k - 1]) && Valid(m[k - 1]);
    } else if i > k {
      assert EndsBefore(m[k], m[i]) && Valid(m[i]);
    }
  }

  /** Ranges of a collection that start after `t`. */
  predicate StartsAfter(r: TimeRange, t: int) {
    r.start.Some? && t < r.start.value
  }

  /** The position of the first range that starts after `t`, or `|m|`. */
  function FirstStartAfter(m: seq<TimeRange>, t: int): (k: nat)
    ensures k <= |m|
    ensures k < |m| ==> StartsAfter(m[k], t)
    ensures forall i :: 0 <= i < k ==> !StartsAfter(m[i], t)
  {
    if |m| == 0 || StartsAfter(m[0], t) then 0
    else
      var k := FirstStartAfter(m[1..], t);
      assert forall i :: 1 <= i < k + 1 ==> m[i] == m[1..][i - 1];
      k + 1
  }

  /** An instant no range covers lies in the gap in front of the first range
      that starts after it. */
  lemma GapIncludes(m: seq<TimeRange>, t: int)
    requires !CoveredBy(m, t)
    ensures exists k :: 0 <= k <= |m| && GapOf(Pairs(m)[k]).Some? && Covers(GapOf(Pairs(m)[k]).value, t)
  {
    var k := FirstStartAfter(m, t);
    PairAt(m, k);
    if k > 0 {
      assert !Covers(m[k - 1], t) && !StartsAfter(m[k - 1], t);
    }
    assert GapOf(Pairs(m)[k]).Some? && Covers(GapOf(Pairs(m)[k]).value, t);
  }

  /** The gaps of a separated collection of valid ranges cover exactly the
      instants the collection does not. */
  lemma GapsComplement(m: seq<TimeRange>, t: int)
    requires Separated(m) && AllValid(m)
    ensures CoveredBy(Gaps(Pairs(m)), t) <==> !CoveredBy(m, t)
  {
    if CoveredBy(Gaps(Pairs(m)), t) {
      GapCoveredIsUncovered(m, t);
    }
    if !CoveredBy(m, t) {
      UncoveredIsInGap(m, t);
    }
  }

  lemma GapCoveredIsUncovered(m: seq<TimeRange>, t: int)
    requires Separated(m) && AllValid(m) && CoveredBy(Gaps(Pairs(m)), t)
    ensures !CoveredBy(m, t)
  {
    var ps := Pairs(m);
    var g := Gaps(ps);
    GapsMembers(ps);
    var i :| 0 <= i < |g| && Covers(g[i], t);
    assert g[i] in g;
    var k :| 0 <= k < |ps| && GapOf(ps[k]) == Some(g[i]);
    forall j | 0 <= j < |m| ensures !Covers(m[j], t) {
      GapExcludes(m, k, j, t);
    }
  }

  lemma UncoveredIsInGap(m: seq<TimeRange>, t: int)
    requires !CoveredBy(m, t)
    ensures CoveredBy(Gaps(Pairs(m)), t)
  {
    var ps := Pairs(m);
    var g := Gaps(ps);
    GapsMembers(ps);
    GapIncludes(m, t);
    var k :| 0 <= k <= |m| && GapOf(ps[k]).Some? && Covers(GapOf(ps[k]).value, t);
    var x := GapOf(ps[k]).value;
    assert x in g;
    var i :| 0 <= i < |g| && g[i] == x;
  }

  /** Earlier pairs of the loop yield gaps that end before later ones start. */
  predicate GapsInOrder(ps: seq<(Option<TimeRange>, Option<TimeRange>)>) {
    forall k, l :: 0 <= k < l < |ps| && GapOf(ps[k]).Some? && GapOf(ps[l]).Some? ==>
      EndsBefore(GapOf(ps[k]).value, GapOf(ps[l]).value)
  }

  lemma SeparatedCons(x: TimeRange, s: seq<TimeRange>)
    requires Separated(s) && forall i :: 0 <= i < |s| ==> EndsBefore(x, s[i])
    ensures Separated([x] + s)
  {
    var r := [x] + s;
    forall i, j | 0 <= i < j < |r| ensures EndsBefore(r[i], r[j]) {
      if i > 0 {
        assert r[i] == s[i - 1] && r[j] == s[j - 1];
      } else {
        assert r[j] == s[j - 1];
      }
    }
  }

  lemma {:induction false} GapsSeparated(ps: seq<(Option<TimeRange>, Option<TimeRange>)>)
    requires GapsInOrder(ps)
    ensures Separated(Gaps(ps))
  {
    if |ps| > 0 {
      var tail := ps[1..];
      assert GapsInOrder(tail) by {
        forall k, l | 0 <= k < l < |tail| && GapOf(tail[k]).Some? && GapOf(tail[l]).Some?
          ensures EndsBefore(GapOf(tail[k]).value, GapOf(tail[l]).value)
        {
          assert tail[k] == ps[k + 1] && tail[l] == ps[l + 1];
        }
      }
      GapsSeparated(tail);
      var rest := Gaps(tail);
      if GapOf(ps[0]).Some? {
        var x := GapOf(ps[0]).value;
        GapsMembers(tail);
        forall i | 0 <= i < |rest| ensures EndsBefore(x, rest[i]) {
          assert rest[i] in rest;
          var l :| 0 <= l < |tail| && GapOf(tail[l]) == Some(rest[i]);
          assert tail[l] == ps[l + 1];
        }
        SeparatedCons(x, rest);
      }
    }
  }

  /** Around a range of positive length the gaps do not touch. */
  lemma PairsGapsInOrder(m: seq<TimeRange>)
    requires Normal(m)
    ensures GapsInOrder(Pairs(m))
  {
    var ps := Pairs(m);
    forall k, l | 0 <= k < l < |ps| && GapOf(ps[k]).Some? && GapOf(ps[l]).Some?
      ensures EndsBefore(GapOf(ps[k]).value, GapOf(ps[l]).value)
    {
      PairAt(m, k);
      PairAt(m, l);
      assert Proper(m[k]) && Proper(m[l - 1]);
      if k < l - 1 {
        assert EndsBefore(m[k], m[l - 1]);
      }
    }
  }

  // ---------------------------------------------------------------------------
  // invert
  // ---------------------------------------------------------------------------

  /** `invert` covers exactly the instants its input does not (for ranges
      whose ends are not reversed). */
  lemma InvertComplement(rs: seq<TimeRange>, t: int)
    requires AllValid(rs)
    ensures CoveredBy(Invert(rs), t) <==> !CoveredBy(rs, t)
  {
    MergeShape(rs);
    MergeKeepsValidity(rs);
    MergeCoverage(rs, t);
    GapsComplement(Merge(rs), t);
  }

  /** `invert`'s output never holds an empty or reversed range, and it is a
      normal form whenever the input ranges have positive length. */
  lemma InvertShape(rs: seq<TimeRange>)
    ensures AllProper(Invert(rs))
    ensures AllProper(rs) ==> Normal(Invert(rs))
  {
    MergeShape(rs);
    GapsProper(Merge(rs));
    if AllProper(rs) {
      MergeKeepsValidity(rs);
      PairsGapsInOrder(Merge(rs));
      GapsSeparated(Pairs(Merge(rs)));
    }
  }

  /** Inverting twice gives `merge` back, for ranges of positive length. */
  lemma InvertInvert(rs: seq<TimeRange>)
    requires AllProper(rs)
    ensures Invert(Invert(rs)) == Merge(rs)
  {
    var g := Invert(rs);
    InvertShape(rs);
    NormalIsSorted(g);
    MergeOfNormalForm(g);
    InvertShape(g);
    MergeKeepsValidity(rs);
    assert AllValid(rs) && AllValid(g);
    forall t ensures CoveredBy(Invert(g), t) <==> CoveredBy(Merge(rs), t) {
      InvertComplement(g, t);
      InvertComplement(rs, t);
      MergeCoverage(rs, t);
    }
    NormalUnique(Invert(g), Merge(rs));
  }

  // ---------------------------------------------------------------------------
  // cap
  // ---------------------------------------------------------------------------

  /** The collection `cap` inverts: the gaps of the input plus the two
      unbounded ranges outside the window. */
  function CapInput(rs: seq<TimeRange>, start: int, end: int): seq<TimeRange> {
    Invert(rs) + [TimeRange(None, Some(start)), TimeRange(Some(end), None)]
  }

  lemma CapInputProper(rs: seq<TimeRange>, start: int, end: int)
    ensures AllProper(CapInput(rs, start, end)) && AllValid(CapInput(rs, start, end))
  {
    InvertShape(rs);
    var outside := [TimeRange(None, Some(start)), TimeRange(Some(end), None)];
    assert AllProper(outside);
    AppendProper(Invert(rs), outside);
  }

  lemma AppendProper(a: seq<TimeRange>, b: seq<TimeRange>)
    requires AllProper(a) && AllProper(b)
    ensures AllProper(a + b) && AllValid(a + b)
  {
    forall i | 0 <= i < |a + b| ensures Proper((a + b)[i]) {
      if i >= |a| {
        assert (a + b)[i] == b[i - |a|];
      }
    }
  }

  /** Whatever the input, `cap` covers an instant iff the input's gaps miss
      it and it lies in `[start, end)`. */
  lemma CapWindow(rs: seq<TimeRange>, start: int, end: int, t: int)
    ensures CoveredBy(Cap(rs, start, end), t) <==> !CoveredBy(Invert(rs), t) && start <= t < end
  {
    var x := CapInput(rs, start, end);
    CapInputProper(rs, start, end);
    InvertComplement(x, t);
    var outside := [TimeRange(None, Some(start)), TimeRange(Some(end), None)];
    CoveredByAppend(Invert(rs), outside, t);
    CoveredByCons(outside[0], outside[1..], t);
    CoveredByCons(outside[1], [], t);
    assert outside == [outside[0]] + outside[1..] && outside[1..] == [outside[1]] + [];
  }

  /** `cap` is intersection with the window `[start, end)`. */
  lemma CapCoverage(rs: seq<TimeRange>, start: int, end: int, t: int)
    requires AllValid(rs)
    ensures CoveredBy(Cap(rs, start, end), t) <==> CoveredBy(rs, t) && start <= t < end
  {
    CapWindow(rs, start, end, t);
    InvertComplement(rs, t);
  }

  /** `cap`'s output is a normal form lying inside the window: every range has
      both ends, and they lie within `[start, end]`. An empty window gives no
      ranges at all. */
  lemma CapShape(rs: seq<TimeRange>, start: int, end: int)
    ensures Normal(Cap(rs, start, end))
    ensures forall i :: 0 <= i < |Cap(rs, start, end)| ==> InWindow(Cap(rs, start, end)[i], start, end)
    ensures end <= start ==> Cap(rs, start, end) == []
  {
    var c := Cap(rs, start, end);
    CapInputProper(rs, start, end);
    InvertShape(CapInput(rs, start, end));
    forall i | 0 <= i < |c| ensures InWindow(c[i], start, end) {
      var r := c[i];
      assert Proper(r);
      var t := WitnessPoint(r);
      if r.start.None? || r.start.value < start {
        t := if r.start.Some? then r.start.value
             else if r.end.Some? && r.end.value <= start then r.end.value - 1
             else start - 1;
      } else if r.end.None? || end < r.end.value {
        t := if r.end.Some? then r.end.value - 1 else if r.start.value < end then end else r.start.value;
      }
      assert Covers(r, t) && CoveredBy(c, t);
      CapWindow(rs, start, end, t);
    }
    if |c| > 0 {
      assert InWindow(c[0], start, end) && Proper(c[0]);
    }
  }

  /** Both ends present and inside `[start, end]`. */
  predicate InWindow(r: TimeRange, start: int, end: int) {
    r.start.Some? && r.end.Some? && start <= r.start.value && r.end.value <= end
  }

  /** Capping twice to the same window changes nothing. */
  lemma CapIdempotent(rs: seq<TimeRange>, start: int, end: int)
    ensures Cap(Cap(rs, start, end), start, end) == Cap(rs, start, end)
  {
    var c := Cap(rs, start, end);
    CapShape(rs, start, end);
    CapShape(c, start, end);
    forall t ensures CoveredBy(Cap(c, start, end), t) <==> CoveredBy(c, t) {
      CapCoverage(c, start, end, t);
      CapWindow(rs, start, end, t);
    }
    NormalUnique(Cap(c, start, end), c);
  }

  /** The covered part of the window and its missing part together fill the
      window: `cap(merge(R) ++ cap(invert(R), s, e), s, e)` is exactly `[s, e)`. */
  lemma CapCompletesWindow(rs: seq<TimeRange>, start: int, end: int)
    requires AllValid(rs)
    ensures Cap(Merge(rs) + Cap(Invert(rs), start, end), start, end)
         == if start < end then [TimeRange(Some(start), Some(end))] else []
  {
    var both := Merge(rs) + Cap(Invert(rs), start, end);
    var c := Cap(both, start, end);
    var w := if start < end then [TimeRange(Some(start), Some(end))] else [];
    CompletedValid(rs, start, end);
    CapShape(both, start, end);
    WindowNormal(start, end);
    forall t ensures CoveredBy(c, t) <==> CoveredBy(w, t) {
      CompletedCoverage(rs, start, end, t);
      WindowCoverage(start, end, t);
    }
    NormalUnique(c, w);
  }

  /** The covered ranges and the capped gaps are all valid. */
  lemma CompletedValid(rs: seq<TimeRange>, start: int, end: int)
    requires AllValid(rs)
    ensures AllValid(Merge(rs) + Cap(Invert(rs), start, end))
  {
    MergeKeepsValidity(rs);
    CapShape(Invert(rs), start, end);
    AppendValid(Merge(rs), Cap(Invert(rs), start, end));
  }

  lemma AppendValid(a: seq<TimeRange>, b: seq<TimeRange>)
    requires AllValid(a) && AllProper(b)
    ensures AllValid(a + b)
  {
    forall i | 0 <= i < |a + b| ensures Valid((a + b)[i]) {
      if i >= |a| {
        assert (a + b)[i] == b[i - |a|] && Proper(b[i - |a|]);
      }
    }
  }

  /** Capping the covered ranges together with the capped gaps covers the
      window. */
  lemma CompletedCoverage(rs: seq<TimeRange>, start: int, end: int, t: int)
    requires AllValid(rs)
    ensures CoveredBy(Cap(Merge(rs) + Cap(Invert(rs), start, end), start, end), t) <==> start <= t < end
  {
    var missing := Cap(Invert(rs), start, end);
    var both := Merge(rs) + missing;
    CompletedValid(rs, start, end);
    CapCoverage(both, start, end, t);
    CoveredByAppend(Merge(rs), missing, t);
    MergeCoverage(rs, t);
    InvertShape(rs);
    CapCoverage(Invert(rs), start, end, t);
    InvertComplement(rs, t);
  }

  lemma WindowNormal(start: int, end: int)
    ensures Normal(if start < end then [TimeRange(Some(start), Some(end))] else [])
  {
    if start < end {
      var w := [TimeRange(Some(start), Some(end))];
      assert w[0] == TimeRange(Some(start), Some(end));
    }
  }

  lemma WindowCoverage(start: int, end: int, t: int)
    ensures CoveredBy(if start < end then [TimeRange(Some(start), Some(end))] else [], t) <==> start <= t < end
  {
    if start < end {
      var w := [TimeRange(Some(start), Some(end))];
      CoveredByCons(w[0], [], t);
      assert w == [w[0]] + [];
    }
  }

  // ---------------------------------------------------------------------------
  // Worked examples
  // ---------------------------------------------------------------------------

  /** Touching ranges coalesce. */
  lemma MergeTouching()
    ensures Merge([TimeRange(Some(10), Some(20)), TimeRange(Some(20), Some(30))])
         == [TimeRange(Some(10), Some(30))]
  {
    var rs := [TimeRange(Some(10), Some(20)), TimeRange(Some(20), Some(30))];
    SortOfSorted(rs);
    assert rs[1..][1..] == [];
    assert Fold(TimeRange(Some(10), Some(30)), []) == [TimeRange(Some(10), Some(30))];
    assert Fold(rs[0], rs[1..]) == Fold(TimeRange(Some(10), Some(30)), rs[1..][1..]);
  }

  /** The gaps around an unbounded-past range and a bounded one. */
  lemma InvertExample()
    ensures Invert([TimeRange(None, Some(5)), TimeRange(Some(10), Some(20))])
         == [TimeRange(Some(5), Some(10)), TimeRange(Some(20), None)]
  {
    var rs := [TimeRange(None, Some(5)), TimeRange(Some(10), Some(20))];
    MergeExample(rs);
    var ps := Pairs(rs);
    PairAt(rs, 0);
    PairAt(rs, 1);
    PairAt(rs, 2);
    assert GapOf(ps[0]) == None;
    assert GapOf(ps[1]) == Some(TimeRange(Some(5), Some(10)));
    assert GapOf(ps[2]) == Some(TimeRange(Some(20), None));
    GapsOfThree(ps);
  }

  /** `invert`'s loop over three pairs. */
  lemma GapsOfThree(ps: seq<(Option<TimeRange>, Option<TimeRange>)>)
    requires |ps| == 3
    ensures Gaps(ps) == GapList(GapOf(ps[0])) + GapList(GapOf(ps[1])) + GapList(GapOf(ps[2]))
  {
    var p1, p2 := ps[1..], ps[1..][1..];
    assert p2[1..] == [] && p1[0] == ps[1] && p2[0] == ps[2];
    assert Gaps(p2) == GapList(GapOf(ps[2])) + [];
    assert Gaps(p1) == GapList(GapOf(ps[1])) + Gaps(p2);
    assert Gaps(ps) == GapList(GapOf(ps[0])) + Gaps(p1);
  }

  function GapList(g: Option<TimeRange>): seq<TimeRange> {
    if g.Some? then [g.value] else []
  }

  lemma MergeExample(rs: seq<TimeRange>)
    requires rs == [TimeRange(None, Some(5)), TimeRange(Some(10), Some(20))]
    ensures Merge(rs) == rs
  {
    SortOfSorted(rs);
    assert Fold(rs[1], rs[1..][1..]) == [rs[1]];
    assert MergeSorted(rs) == [rs[0]] + [rs[1]];
  }

  /** Nothing inverts to everything, and everything to nothing. */
  lemma InvertExtremes()
    ensures Invert([]) == [TimeRange(None, None)]
    ensures Invert([TimeRange(None, None)]) == []
  {
    var all := [TimeRange(None, None)];
    assert Sort(all) == all;
    PairAt(all, 0);
    PairAt(all, 1);
    assert Pairs(all)[1..][1..] == [];
  }

  /** Capping the unbounded past before `x` to a window around `x` leaves
      the part of the window before `x`; for instance
      `cap([{end: 5}], 0, 100) == [{start: 0, end: 5}]`. */
  lemma CapOfPast(x: int, start: int, end: int)
    requires start < x <= end
    ensures Cap([TimeRange(None, Some(x))], start, end) == [TimeRange(Some(start), Some(x))]
  {
    var rs := [TimeRange(None, Some(x))];
    var w := [TimeRange(Some(start), Some(x))];
    var c := Cap(rs, start, end);
    CapShape(rs, start, end);
    assert Normal(w) by {
      assert w[0] == TimeRange(Some(start), Some(x));
    }
    forall t ensures CoveredBy(c, t) <==> CoveredBy(w, t) {
      PastCoverage(x, start, end, t);
    }
    NormalUnique(c, w);
  }

  lemma PastCoverage(x: int, start: int, end: int, t: int)
    requires start < x <= end
    ensures CoveredBy(Cap([TimeRange(None, Some(x))], start, end), t) <==> CoveredBy([TimeRange(Some(start), Some(x))], t)
  {
    var rs := [TimeRange(None, Some(x))];
    var w := [TimeRange(Some(start), Some(x))];
    CapCoverage(rs, start, end, t);
    CoveredByCons(rs[0], [], t);
    CoveredByCons(w[0], [], t);
    assert rs == [rs[0]] + [] && w == [w[0]] + [];
  }

  /** A zero-length range survives `merge` but not a double `invert`: the gaps
      on either side of it touch and coalesce. */
  lemma ZeroLengthVanishes()
    ensures Merge([TimeRange(Some(10), Some(10))]) == [TimeRange(Some(10), Some(10))]
    ensures Invert(Invert([TimeRange(Some(10), Some(10))])) == []
  {
    var z := [TimeRange(Some(10), Some(10))];
    assert Sort(z) == z;
    PairAt(z, 0);
    PairAt(z, 1);
    assert Pairs(z)[1..][1..] == [];
    var g := [TimeRange(None, Some(10)), TimeRange(Some(10), None)];
    assert Invert(z) == g;
    SortOfSorted(g);
    assert Merge(g) == [TimeRange(None, None)];
    InvertExtremes();
  }

  /** Why `InvertComplement` asks for valid ranges: with a reversed range the
      merged input and its inversion both cover instant 6. */
  lemma ReversedRangeBreaksComplement()
    ensures CoveredBy([TimeRange(Some(0), Some(8)), TimeRange(Some(10), Some(5))], 6)
    ensures CoveredBy(Invert([TimeRange(Some(0), Some(8)), TimeRange(Some(10), Some(5))]), 6)
  {
    var rs := [TimeRange(Some(0), Some(8)), TimeRange(Some(10), Some(5))];
    assert Covers(rs[0], 6);
    SortOfSorted(rs);
    assert Merge(rs) == rs;
    PairAt(rs, 0);
    PairAt(rs, 1);
    PairAt(rs, 2);
    assert Pairs(rs)[1..][1..][1..] == [];
    var inv := Invert(rs);
    assert inv == [TimeRange(None, Some(0)), TimeRange(Some(8), Some(10)), TimeRange(Some(5), None)];
    assert Covers(inv[2], 6);
  }
}

=== FILE: EarlyServer.dfy ===
/** The REST side of the earliest orchestrator, `server/index.js`: the
    `filterActivities` type filter and the `GET /activities` route that
    converts every upstream activity once and then answers from the
    module-level `cachedActivities`.

    What `getStravaActivities()` yields is a parameter: the activities it
    yields before it ends, and the error it throws then, if any. The locale
    and the `dateString` field are not modelled. */
module EarlyServer {

  import opened Wrappers
  import opened JsValues
  import opened Seqs
  import opened Summaries
  import opened IteratorRuns

  // ---------------------------------------------------------------------------
  // filterActivities (index.js:140-144)
  // ---------------------------------------------------------------------------

  /** `!type || type.split(',').includes(activity.type)`: a missing or empty
      `type` matches every sport; otherwise the sport must equal one of the
      comma-separated tokens exactly. */
  predicate TypeMatches(typeParam: Option<string>, sport: string) {
    typeParam.None? || typeParam.value == "" || sport in Split(typeParam.value, ',')
  }

  /** An activity is sent when it has a truthy `map` and its type matches. */
  predicate Shown(typeParam: Option<string>, a: Activity) {
    Truthy(a.polyline) && TypeMatches(typeParam, a.sport)
  }

  function FilterActivities(activities: seq<Activity>, typeParam: Option<string>): (r: seq<Activity>)
    ensures forall a :: a in r <==> a in activities && Shown(typeParam, a)
    ensures IsSubsequence(r, activities)
  {
    FilterIsSubsequence(a => Shown(typeParam, a), activities);
    Filter(a => Shown(typeParam, a), activities)
  }

  /** Filtering an already filtered list changes nothing. */
  lemma FilterActivitiesIdempotent(activities: seq<Activity>, typeParam: Option<string>)
    ensures FilterActivities(FilterActivities(activities, typeParam), typeParam)
         == FilterActivities(activities, typeParam)
  {
    FilterIdempotent(a => Shown(typeParam, a), activities);
  }

  /** With no type, or the empty one, every activity with a map is kept, and
      the two cases agree. */
  lemma NoTypeKeepsAllMapped(activities: seq<Activity>)
    ensures FilterActivities(activities, None) == Filter((a: Activity) => Truthy(a.polyline), activities)
    ensures FilterActivities(activities, Some("")) == FilterActivities(activities, None)
  {
    FilterCongruent((a: Activity) => Shown(None, a), (a: Activity) => Truthy(a.polyline), activities);
    FilterCongruent((a: Activity) => Shown(Some(""), a), a => Shown(None, a), activities);
  }

  /** A `type` built by joining comma-free sports with commas selects
      exactly those sports. */
  lemma TypeListSelectsListed(sports: seq<string>, sport: string)
    requires |sports| >= 1
    requires forall i :: 0 <= i < |sports| ==> ',' !in sports[i]
    requires Join(sports, ',') != ""
    ensures TypeMatches(Some(Join(sports, ',')), sport) <==> sport in sports
  {
    SplitJoin(sports, ',');
  }

  /** Tokens are not trimmed: `Ride, Run` does not select `Run`, while
      `Ride,Run` does. */
  lemma TypeTokensNotTrimmed()
    ensures !TypeMatches(Some("Ride, Run"), "Run")
    ensures TypeMatches(Some("Ride,Run"), "Run")
  {
    assert "Ride, Run" == Join(["Ride", " Run"], ',');
    TypeListSelectsListed(["Ride", " Run"], "Run");
    assert "Ride,Run" == Join(["Ride", "Run"], ',');
    TypeListSelectsListed(["Ride", "Run"], "Run");
  }

  // ---------------------------------------------------------------------------
  // GET /activities (index.js:121-133, 148-165)
  // ---------------------------------------------------------------------------

  /** What `getStravaActivities()` yields before it ends, and what it throws
      then, if anything. */
  datatype Listing = Listing(activities: seq<RawActivity>, failure: Option<string>)

  /** One request: the response (the activities sent, or the error the
      handler rejects with), `cachedActivities` afterwards, and whether
      upstream was asked. */
  datatype RestCall = RestCall(response: Result<seq<Activity>, string>, cacheAfter: seq<Activity>, fetched: bool)

  /** Upstream is asked only while the cache is empty; the cache is replaced
      only when every activity converted and the listing ended normally. */
  function RestActivities(cached: seq<Activity>, listing: Listing, typeParam: Option<string>): (r: RestCall)
    ensures r.fetched <==> |cached| == 0
    ensures !r.fetched ==> r.response == Ok(FilterActivities(cached, typeParam)) && r.cacheAfter == cached
    ensures r.fetched ==>
      (r.response.Ok? <==> ConvertPage(ConvertActivitySummary, listing.activities).Ok? && listing.failure.None?)
    ensures r.fetched && r.response.Ok? ==>
      && r.cacheAfter == ConvertPage(ConvertActivitySummary, listing.activities).value
      && r.response.value == FilterActivities(r.cacheAfter, typeParam)
    ensures r.response.Err? ==> r.cacheAfter == cached
  {
    if |cached| > 0 then RestCall(Ok(FilterActivities(cached, typeParam)), cached, false)
    else
      match ConvertPage(ConvertActivitySummary, listing.activities)
      case Err(e) => RestCall(Err(e), cached, true)
      case Ok(converted) =>
        if listing.failure.Some? then RestCall(Err(listing.failure.value), cached, true)
        else RestCall(Ok(FilterActivities(converted, typeParam)), converted, true)
  }

  /** `convertActivity` over the listing copies each record's fields in
      order: a cached activity is its raw record with `map` replaced by the
      summary polyline. */
  lemma CachedActivitiesCopyListing(listing: Listing, typeParam: Option<string>, i: nat)
    requires RestActivities([], listing, typeParam).response.Ok?
    requires i < |listing.activities|
    ensures var cache := RestActivities([], listing, typeParam).cacheAfter;
      var raw := listing.activities[i];
      && |cache| == |listing.activities|
      && raw.mapField.Some?
      && cache[i] == Activity(raw.id, raw.name, raw.startDateLocal, raw.mapField.value.summaryPolyline, raw.sport)
  {
  }

  /** Once the cache holds activities, the answer does not depend on what
      upstream would have said. */
  lemma CachedAnswerIgnoresUpstream(cached: seq<Activity>, a: Listing, b: Listing, typeParam: Option<string>)
    requires |cached| > 0
    ensures RestActivities(cached, a, typeParam) == RestActivities(cached, b, typeParam)
  {
  }

  /** After a successful fetch of at least one activity, later requests are
      answered from the cache, and the same `type` gets the same answer. */
  lemma SecondRequestReusesCache(listing: Listing, later: Listing, typeParam: Option<string>, laterType: Option<string>)
    requires RestActivities([], listing, typeParam).response.Ok? && |listing.activities| > 0
    ensures var first := RestActivities([], listing, typeParam);
      var second := RestActivities(first.cacheAfter, later, laterType);
      && !second.fetched
      && second.cacheAfter == first.cacheAfter
      && (laterType == typeParam ==> second.response == first.response)
  {
  }

  /** A fetch that yields no activities, or fails, leaves the cache empty,
      so the next request fetches again. */
  lemma EmptyOrFailedFetchRefetches(listing: Listing, later: Listing, typeParam: Option<string>, laterType: Option<string>)
    requires |listing.activities| == 0 || RestActivities([], listing, typeParam).response.Err?
    ensures RestActivities([], listing, typeParam).cacheAfter == []
    ensures RestActivities(RestActivities([], listing, typeParam).cacheAfter, later, laterType).fetched
  {
  }
}

=== FILE: IteratorRuns.dfy ===
/** The records of what an iterator run did, and the state its loop keeps,
    with the laws relating the pages taken to the batches yielded. The
    iterators themselves are in `Iterators`. */
module IteratorRuns {

  import opened Wrappers
  import opened Seqs

  // ---------------------------------------------------------------------------
  // converting a page (api.ts:145-147, 169; index.ts:183-185, 211-213)
  // ---------------------------------------------------------------------------

  /** `page.map(convert)`: stops with the first conversion that throws. */
  function ConvertPage<R, T>(convert: R -> Result<T, string>, page: seq<R>): (r: Result<seq<T>, string>)
    ensures r.Ok? <==> forall i :: 0 <= i < |page| ==> convert(page[i]).Ok?
    ensures r.Ok? ==> |r.value| == |page|
    ensures r.Ok? ==> forall i :: 0 <= i < |page| ==> r.value[i] == convert(page[i]).value
    decreases |page|
  {
    if |page| == 0 then Ok([])
    else
      var first :- convert(page[0]);
      var rest :- ConvertPage(convert, page[1..]);
      Ok([first] + rest)
  }

  lemma ConvertPageAppend<R, T>(convert: R -> Result<T, string>, a: seq<R>, b: seq<R>)
    requires ConvertPage(convert, a).Ok? && ConvertPage(convert, b).Ok?
    ensures ConvertPage(convert, a + b) == Ok(ConvertPage(convert, a).value + ConvertPage(convert, b).value)
  {
    var va, vb := ConvertPage(convert, a).value, ConvertPage(convert, b).value;
    ConvertedPointwise(convert, a);
    ConvertedPointwise(convert, b);
    AppendPointwise(convert, a, b, va, vb);
    ConvertPageExact(convert, a + b, va + vb);
  }

  /** A converted page holds, at each index, the value of that record's conversion. */
  lemma ConvertedPointwise<R, T>(convert: R -> Result<T, string>, page: seq<R>)
    requires ConvertPage(convert, page).Ok?
    ensures |ConvertPage(convert, page).value| == |page|
    ensures forall i :: 0 <= i < |page| ==> convert(page[i]) == Ok(ConvertPage(convert, page).value[i])
  {
  }

  /** The page whose every record converts to the matching entry of `v` converts to `v`. */
  lemma ConvertPageExact<R, T>(convert: R -> Result<T, string>, page: seq<R>, v: seq<T>)
    requires |v| == |page| && forall i :: 0 <= i < |page| ==> convert(page[i]) == Ok(v[i])
    ensures ConvertPage(convert, page) == Ok(v)
  {
    assert ConvertPage(convert, page).Ok?;
    assert ConvertPage(convert, page).value == v;
  }

  lemma AppendPointwise<R, T>(convert: R -> Result<T, string>, a: seq<R>, b: seq<R>, va: seq<T>, vb: seq<T>)
    requires |va| == |a| && forall i :: 0 <= i < |a| ==> convert(a[i]) == Ok(va[i])
    requires |vb| == |b| && forall i :: 0 <= i < |b| ==> convert(b[i]) == Ok(vb[i])
    ensures forall i :: 0 <= i < |a + b| ==> convert((a + b)[i]) == Ok((va + vb)[i])
  {
    forall i | 0 <= i < |a + b|
      ensures convert((a + b)[i]) == Ok((va + vb)[i])
    {
      if i >= |a| {
        assert (a + b)[i] == b[i - |a|] && (va + vb)[i] == vb[i - |a|];
      }
    }
  }

  // ---------------------------------------------------------------------------
  // runs and their loop states (api.ts:137-175, index.ts:172-219)
  // ---------------------------------------------------------------------------

  /** What one run of an iterator did: the batches it yielded, the
      `finding.length` it reported after each page it took, the counter's
      final value, whether it set `finished`, and whether a conversion threw. */
  datatype IterRun<T> = IterRun(batches: seq<seq<T>>, reports: seq<int>, length: int,
                                finished: bool, failed: bool)

  /** The first `n + 1` pages flatten to the first `n` followed by page `n`. */
  lemma FlattenPrefixSnoc<R>(pages: seq<seq<R>>, n: nat)
    requires n < |pages|
    ensures Flatten(pages[..n + 1]) == Flatten(pages[..n]) + pages[n]
  {
    assert pages[..n + 1] == pages[..n] + [pages[n]];
    FlattenAppend(pages[..n], [pages[n]]);
  }

  /** The records of `raw` that pass `keep`, when every one converts. */
  function Kept<R, T>(convert: R -> Result<T, string>, keep: T -> bool, raw: seq<R>): seq<T>
    requires ConvertPage(convert, raw).Ok?
  {
    Filter(keep, ConvertPage(convert, raw).value)
  }

  /** Taking one more page that converts extends the kept records by the
      page's kept records. */
  lemma KeptStep<R, T>(convert: R -> Result<T, string>, keep: T -> bool, pages: seq<seq<R>>, i: nat)
    requires i < |pages|
    requires ConvertPage(convert, Flatten(pages[..i])).Ok? && ConvertPage(convert, pages[i]).Ok?
    ensures ConvertPage(convert, Flatten(pages[..i + 1])).Ok?
    ensures Kept(convert, keep, Flatten(pages[..i + 1]))
         == Kept(convert, keep, Flatten(pages[..i])) + Filter(keep, ConvertPage(convert, pages[i]).value)
  {
    FlattenPrefixSnoc(pages, i);
    ConvertPageAppend(convert, Flatten(pages[..i]), pages[i]);
    FilterAppend(keep, ConvertPage(convert, Flatten(pages[..i])).value, ConvertPage(convert, pages[i]).value);
  }

  /** What both iterators promise: pages are taken in order while the
      connection is open; a run that took every page sets `finished`; one
      that stopped early either met a closed connection or a page whose
      conversion threw (that page is reported but yields nothing); and the
      yielded batches, concatenated, are the kept records of the pages that
      converted. */
  ghost predicate RunTakesPagesInOrder<R, T>(convert: R -> Result<T, string>, keep: T -> bool,
                                             pages: seq<seq<R>>, liveFor: nat, run: IterRun<T>) {
    && |run.reports| <= |pages| && |run.reports| <= liveFor
    && (run.finished <==> !run.failed && |run.reports| == |pages|)
    && (!run.failed && !run.finished ==> |run.reports| == liveFor < |pages|)
    && (run.failed ==> 0 < |run.reports| && ConvertPage(convert, pages[|run.reports| - 1]).Err?)
    && var taken := Flatten(pages[..|run.reports| - (if run.failed then 1 else 0)]);
       ConvertPage(convert, taken).Ok? && Flatten(run.batches) == Kept(convert, keep, taken)
  }

  /** Everything yielded passes `keep`: only records with a map are sent. */
  lemma YieldedRecordsPassKeep<R, T>(convert: R -> Result<T, string>, keep: T -> bool,
                                     pages: seq<seq<R>>, liveFor: nat, run: IterRun<T>, k: nat, x: T)
    requires RunTakesPagesInOrder(convert, keep, pages, liveFor, run)
    requires k < |run.batches| && x in run.batches[k]
    ensures keep(x)
  {
    FlattenMember(run.batches, k, x);
  }

  /** The loop state both iterators keep: `i` pages taken, all converted,
      and the batches so far are their kept records. */
  ghost predicate TakenSoFar<R, T>(convert: R -> Result<T, string>, keep: T -> bool,
                                   pages: seq<seq<R>>, liveFor: nat, run: IterRun<T>, i: nat) {
    && i <= |pages| && i <= liveFor && |run.reports| == i && !run.failed && !run.finished
    && ConvertPage(convert, Flatten(pages[..i])).Ok?
    && Flatten(run.batches) == Kept(convert, keep, Flatten(pages[..i]))
  }

  lemma TakenNothing<R, T>(convert: R -> Result<T, string>, keep: T -> bool,
                           pages: seq<seq<R>>, liveFor: nat, length: int)
    ensures TakenSoFar(convert, keep, pages, liveFor, IterRun([], [], length, false, false), 0)
  {
    assert pages[..0] == [];
  }

  /** Taking page `i`, which converts, and yielding `added`, whose records are
      the page's kept records. */
  lemma TakenOneMore<R, T>(convert: R -> Result<T, string>, keep: T -> bool, pages: seq<seq<R>>, liveFor: nat,
                           run: IterRun<T>, i: nat, added: seq<seq<T>>, len: int)
    requires TakenSoFar(convert, keep, pages, liveFor, run, i) && i < |pages| && i < liveFor
    requires ConvertPage(convert, pages[i]).Ok?
    requires Flatten(added) == Filter(keep, ConvertPage(convert, pages[i]).value)
    ensures TakenSoFar(convert, keep, pages, liveFor,
                       IterRun(run.batches + added, run.reports + [len], len, false, false), i + 1)
  {
    KeptStep(convert, keep, pages, i);
    FlattenAppend(run.batches, added);
  }

  /** A page whose conversion throws ends the run as failed. */
  lemma TakenThenFailed<R, T>(convert: R -> Result<T, string>, keep: T -> bool, pages: seq<seq<R>>, liveFor: nat,
                              run: IterRun<T>, i: nat, len: int)
    requires TakenSoFar(convert, keep, pages, liveFor, run, i) && i < |pages| && i < liveFor
    requires ConvertPage(convert, pages[i]).Err?
    ensures RunTakesPagesInOrder(convert, keep, pages, liveFor, IterRun(run.batches, run.reports + [len], len, false, true))
  {
  }

  /** Leaving the loop: finished when every page was taken, otherwise the
      connection had closed. */
  lemma TakenThenStopped<R, T>(convert: R -> Result<T, string>, keep: T -> bool, pages: seq<seq<R>>, liveFor: nat,
                               run: IterRun<T>, i: nat)
    requires TakenSoFar(convert, keep, pages, liveFor, run, i) && !(i < |pages| && i < liveFor)
    ensures RunTakesPagesInOrder(convert, keep, pages, liveFor, if i == |pages| then run.(finished := true) else run)
  {
  }

  /** The records a page contributes: its kept records when it converts. */
  function PageKept<R, T>(convert: R -> Result<T, string>, keep: T -> bool, page: seq<R>): seq<T> {
    match ConvertPage(convert, page)
    case Ok(v) => Filter(keep, v)
    case Err(_) => []
  }

  /** The kept records of each page, page by page. */
  function KeptPages<R, T>(convert: R -> Result<T, string>, keep: T -> bool, pages: seq<seq<R>>): (r: seq<seq<T>>)
    ensures |r| == |pages|
    decreases |pages|
  {
    if |pages| == 0 then []
    else KeptPages(convert, keep, pages[..|pages| - 1]) + [PageKept(convert, keep, pages[|pages| - 1])]
  }

  lemma KeptPagesSnoc<R, T>(convert: R -> Result<T, string>, keep: T -> bool, pages: seq<seq<R>>, i: nat)
    requires i < |pages|
    ensures KeptPages(convert, keep, pages[..i + 1]) == KeptPages(convert, keep, pages[..i]) + [PageKept(convert, keep, pages[i])]
  {
    assert pages[..i + 1][..i] == pages[..i];
  }

  /** Entry `k` of the per-page kept records is page `k`'s. */
  lemma {:induction false} KeptPagesAt<R, T>(convert: R -> Result<T, string>, keep: T -> bool, pages: seq<seq<R>>, k: nat)
    requires k < |pages|
    ensures KeptPages(convert, keep, pages)[k] == PageKept(convert, keep, pages[k])
    decreases |pages|
  {
    if k < |pages| - 1 {
      KeptPagesAt(convert, keep, pages[..|pages| - 1], k);
    }
  }

  /** The per-page kept records of a prefix are that prefix of the per-page
      kept records. */
  lemma {:induction false} KeptPagesPrefix<R, T>(convert: R -> Result<T, string>, keep: T -> bool, pages: seq<seq<R>>, n: nat)
    requires n <= |pages|
    ensures KeptPages(convert, keep, pages)[..n] == KeptPages(convert, keep, pages[..n])
    decreases |pages|
  {
    if n < |pages| {
      KeptPagesPrefix(convert, keep, pages[..|pages| - 1], n);
      assert pages[..|pages| - 1][..n] == pages[..n];
    } else {
      assert pages[..n] == pages;
    }
  }

  /** When the pages together convert, each page converts. */
  lemma PageOfConvertedConverts<R, T>(convert: R -> Result<T, string>, pages: seq<seq<R>>, k: nat)
    requires k < |pages| && ConvertPage(convert, Flatten(pages)).Ok?
    ensures ConvertPage(convert, pages[k]).Ok?
  {
    forall j | 0 <= j < |pages[k]| ensures convert(pages[k][j]).Ok? {
      FlattenMember(pages, k, pages[k][j]);
    }
  }

  /** Batches taken page by page, each kept only when it is non-empty. */
  function NonEmptyKept<R, T>(convert: R -> Result<T, string>, keep: T -> bool, pages: seq<seq<R>>): seq<seq<T>>
    decreases |pages|
  {
    if |pages| == 0 then []
    else NonEmptyKept(convert, keep, pages[..|pages| - 1]) + NonEmptyBatch(PageKept(convert, keep, pages[|pages| - 1]))
  }

  lemma NonEmptyKeptSnoc<R, T>(convert: R -> Result<T, string>, keep: T -> bool, pages: seq<seq<R>>, i: nat)
    requires i < |pages|
    ensures NonEmptyKept(convert, keep, pages[..i + 1])
         == NonEmptyKept(convert, keep, pages[..i]) + NonEmptyBatch(PageKept(convert, keep, pages[i]))
  {
    assert pages[..i + 1][..i] == pages[..i];
  }

  /** Each report is the counter carried in plus the raw lengths of all
      pages up to and including that one. */
  ghost predicate ReportsAccumulate<R, T>(pages: seq<seq<R>>, length: int, run: IterRun<T>)
    requires |run.reports| <= |pages|
  {
    forall k :: 0 <= k < |run.reports| ==> run.reports[k] == length + |Flatten(pages[..k + 1])|
  }

  /** No yielded batch is empty. */
  ghost predicate NoEmptyBatch<T>(run: IterRun<T>) {
    forall k :: 0 <= k < |run.batches| ==> |run.batches[k]| > 0
  }

  /** The loop state of the accumulating iterator after `i` pages. */
  ghost predicate AccumulatedSoFar<R, T>(convert: R -> Result<T, string>, keep: T -> bool,
                                         pages: seq<seq<R>>, liveFor: nat, length: int, run: IterRun<T>, i: nat) {
    && TakenSoFar(convert, keep, pages, liveFor, run, i)
    && ReportsAccumulate(pages, length, run)
    && run.length == length + |Flatten(pages[..i])|
    && NoEmptyBatch(run)
    && run.batches == NonEmptyKept(convert, keep, pages[..i])
  }

  lemma AccumulatedNothing<R, T>(convert: R -> Result<T, string>, keep: T -> bool,
                                 pages: seq<seq<R>>, liveFor: nat, length: int)
    ensures AccumulatedSoFar(convert, keep, pages, liveFor, length, IterRun([], [], length, false, false), 0)
  {
    TakenNothing(convert, keep, pages, liveFor, length);
    assert pages[..0] == [];
  }

  /** The batch taken from a page: its kept records, when there are any. */
  function NonEmptyBatch<T>(batch: seq<T>): (added: seq<seq<T>>)
    ensures Flatten(added) == batch
    ensures forall k :: 0 <= k < |added| ==> |added[k]| > 0
  {
    if |batch| > 0 then [batch] else []
  }

  /** The run after taking page `i`, which converts: its kept records are
      yielded unless there are none, and the page's raw length is added to
      the counter. */
  lemma AccumulatedOneMore<R, T>(convert: R -> Result<T, string>, keep: T -> bool, pages: seq<seq<R>>, liveFor: nat,
                                 length: int, run: IterRun<T>, i: nat, next: IterRun<T>)
    requires AccumulatedSoFar(convert, keep, pages, liveFor, length, run, i) && i < |pages| && i < liveFor
    requires ConvertPage(convert, pages[i]).Ok?
    requires next == IterRun(run.batches + NonEmptyBatch(Filter(keep, ConvertPage(convert, pages[i]).value)),
                             run.reports + [run.length + |pages[i]|], run.length + |pages[i]|, false, false)
    ensures AccumulatedSoFar(convert, keep, pages, liveFor, length, next, i + 1)
  {
    var added := NonEmptyBatch(Filter(keep, ConvertPage(convert, pages[i]).value));
    TakenOneMore(convert, keep, pages, liveFor, run, i, added, next.length);
    AccumulateReports(pages, length, run, i, next);
    NoEmptyBatchAppend(run, added, next);
    NonEmptyKeptSnoc(convert, keep, pages, i);
  }

  /** Adding a page's raw length to the counter keeps every report the
      running total of the raw lengths. */
  lemma AccumulateReports<R, T>(pages: seq<seq<R>>, length: int, run: IterRun<T>, i: nat, next: IterRun<T>)
    requires i < |pages| && |run.reports| == i && ReportsAccumulate(pages, length, run)
    requires run.length == length + |Flatten(pages[..i])|
    requires next.reports == run.reports + [run.length + |pages[i]|] && next.length == run.length + |pages[i]|
    ensures ReportsAccumulate(pages, length, next)
    ensures next.length == length + |Flatten(pages[..i + 1])|
  {
    FlattenPrefixSnoc(pages, i);
  }

  lemma NoEmptyBatchAppend<T>(run: IterRun<T>, added: seq<seq<T>>, next: IterRun<T>)
    requires NoEmptyBatch(run) && forall k :: 0 <= k < |added| ==> |added[k]| > 0
    requires next.batches == run.batches + added
    ensures NoEmptyBatch(next)
  {
  }

  /** The run that ends at page `i`, whose conversion throws. */
  lemma AccumulatedThenFailed<R, T>(convert: R -> Result<T, string>, keep: T -> bool, pages: seq<seq<R>>, liveFor: nat,
                                    length: int, run: IterRun<T>, i: nat, last: IterRun<T>)
    requires AccumulatedSoFar(convert, keep, pages, liveFor, length, run, i) && i < |pages| && i < liveFor
    requires ConvertPage(convert, pages[i]).Err?
    requires last == IterRun(run.batches, run.reports + [run.length + |pages[i]|], run.length + |pages[i]|, false, true)
    ensures AccumulatedRun(convert, keep, pages, liveFor, length, last)
  {
    TakenThenFailed(convert, keep, pages, liveFor, run, i, last.length);
    AccumulateReports(pages, length, run, i, last);
  }

  /** The run that ends when the pages run out or the connection closes. */
  lemma AccumulatedThenStopped<R, T>(convert: R -> Result<T, string>, keep: T -> bool, pages: seq<seq<R>>, liveFor: nat,
                                     length: int, run: IterRun<T>, i: nat, last: IterRun<T>)
    requires AccumulatedSoFar(convert, keep, pages, liveFor, length, run, i) && !(i < |pages| && i < liveFor)
    requires last == if i == |pages| then run.(finished := true) else run
    ensures AccumulatedRun(convert, keep, pages, liveFor, length, last)
  {
    TakenThenStopped(convert, keep, pages, liveFor, run, i);
  }

  /** What a finished accumulating run promises: it took the pages in order,
      each report and the final counter are the counter carried in plus the
      raw lengths of the pages taken, and the batches are, in order, the
      kept records of each page that converted, leaving out the pages that
      kept nothing. */
  ghost predicate AccumulatedRun<R, T>(convert: R -> Result<T, string>, keep: T -> bool,
                                       pages: seq<seq<R>>, liveFor: nat, length: int, run: IterRun<T>) {
    && RunTakesPagesInOrder(convert, keep, pages, liveFor, run)
    && ReportsAccumulate(pages, length, run)
    && run.length == length + |Flatten(pages[..|run.reports|])|
    && NoEmptyBatch(run)
    && run.batches == NonEmptyKept(convert, keep, pages[..|run.reports| - (if run.failed then 1 else 0)])
  }

  /** Each report is the number of records kept before that page plus the
      page's raw length. */
  ghost predicate ReportsCountKeptSoFar<R, T>(pages: seq<seq<R>>, run: IterRun<T>)
    requires |run.reports| <= |pages|
  {
    forall k :: 0 <= k < |run.reports| ==>
      k <= |run.batches| && run.reports[k] == |Flatten(run.batches[..k])| + |pages[k]|
  }

  /** What a finished counting run promises: it took the pages in order,
      every page taken but a failing one yields its kept records as one
      batch at its own position, each report is the number of records kept
      before that page plus the page's raw length, and the counter ends at
      the last report. */
  ghost predicate CountedRun<R, T>(convert: R -> Result<T, string>, keep: T -> bool,
                                   pages: seq<seq<R>>, liveFor: nat, length: int, run: IterRun<T>) {
    && RunTakesPagesInOrder(convert, keep, pages, liveFor, run)
    && ReportsCountKeptSoFar(pages, run)
    && |run.batches| == |run.reports| - (if run.failed then 1 else 0)
    && run.batches == KeptPages(convert, keep, pages[..|run.batches|])
    && run.length == if |run.reports| == 0 then length else run.reports[|run.reports| - 1]
  }

  /** The loop state of the counting iterator after `i` pages. */
  ghost predicate CountedSoFar<R, T>(convert: R -> Result<T, string>, keep: T -> bool,
                                     pages: seq<seq<R>>, liveFor: nat, length: int, run: IterRun<T>, i: nat) {
    && TakenSoFar(convert, keep, pages, liveFor, run, i)
    && |run.batches| == i
    && run.batches == KeptPages(convert, keep, pages[..|run.batches|])
    && ReportsCountKeptSoFar(pages, run)
    && run.length == if i == 0 then length else run.reports[i - 1]
  }

  lemma CountedNothing<R, T>(convert: R -> Result<T, string>, keep: T -> bool,
                             pages: seq<seq<R>>, liveFor: nat, length: int)
    ensures CountedSoFar(convert, keep, pages, liveFor, length, IterRun([], [], length, false, false), 0)
  {
    TakenNothing(convert, keep, pages, liveFor, length);
  }

  /** The run after taking page `i`, which converts: its kept records are
      yielded as one batch and the counter is set. */
  lemma CountedOneMore<R, T>(convert: R -> Result<T, string>, keep: T -> bool, pages: seq<seq<R>>, liveFor: nat,
                             length: int, run: IterRun<T>, i: nat, next: IterRun<T>)
    requires CountedSoFar(convert, keep, pages, liveFor, length, run, i) && i < |pages| && i < liveFor
    requires ConvertPage(convert, pages[i]).Ok?
    requires next == IterRun(run.batches + [Filter(keep, ConvertPage(convert, pages[i]).value)],
                             run.reports + [|Flatten(run.batches)| + |pages[i]|],
                             |Flatten(run.batches)| + |pages[i]|, false, false)
    ensures CountedSoFar(convert, keep, pages, liveFor, length, next, i + 1)
  {
    TakenOneMore(convert, keep, pages, liveFor, run, i, [next.batches[i]], next.length);
    KeptPagesSnoc(convert, keep, pages, i);
    ReportsCountKeptSnoc(pages, run, i, next);
  }

  /** Reporting page `i` as the records kept so far plus its raw length,
      while the batches only grow at the end. */
  lemma ReportsCountKeptSnoc<R, T>(pages: seq<seq<R>>, run: IterRun<T>, i: nat, next: IterRun<T>)
    requires i < |pages| && |run.reports| == i == |run.batches| && ReportsCountKeptSoFar(pages, run)
    requires next.reports == run.reports + [|Flatten(run.batches)| + |pages[i]|]
    requires run.batches <= next.batches
    ensures ReportsCountKeptSoFar(pages, next)
  {
    assert run.batches[..i] == run.batches;
    forall k | 0 <= k <= i ensures next.batches[..k] == run.batches[..k] {
    }
  }

  /** The run that ends at page `i`, whose conversion throws. */
  lemma CountedThenFailed<R, T>(convert: R -> Result<T, string>, keep: T -> bool, pages: seq<seq<R>>, liveFor: nat,
                                length: int, run: IterRun<T>, i: nat, last: IterRun<T>)
    requires CountedSoFar(convert, keep, pages, liveFor, length, run, i) && i < |pages| && i < liveFor
    requires ConvertPage(convert, pages[i]).Err?
    requires last == IterRun(run.batches, run.reports + [|Flatten(run.batches)| + |pages[i]|],
                             |Flatten(run.batches)| + |pages[i]|, false, true)
    ensures CountedRun(convert, keep, pages, liveFor, length, last)
  {
    TakenThenFailed(convert, keep, pages, liveFor, run, i, last.length);
    ReportsCountKeptSnoc(pages, run, i, last);
  }

  /** The run that ends when the pages run out or the connection closes. */
  lemma CountedThenStopped<R, T>(convert: R -> Result<T, string>, keep: T -> bool, pages: seq<seq<R>>, liveFor: nat,
                                 length: int, run: IterRun<T>, i: nat, last: IterRun<T>)
    requires CountedSoFar(convert, keep, pages, liveFor, length, run, i) && !(i < |pages| && i < liveFor)
    requires last == if i == |pages| then run.(finished := true) else run
    ensures CountedRun(convert, keep, pages, liveFor, length, last)
  {
    TakenThenStopped(convert, keep, pages, liveFor, run, i);
  }

  /** The counter a counting run reports is determined by the pages: after
      each page, the number of records kept from the pages before it plus
      that page's raw length. */
  lemma CountedReportsAreKeptCounts<R, T>(convert: R -> Result<T, string>, keep: T -> bool,
                                          pages: seq<seq<R>>, liveFor: nat, length: int, run: IterRun<T>, k: nat)
    requires CountedRun(convert, keep, pages, liveFor, length, run) && k < |run.reports|
    ensures run.reports[k] == |Flatten(KeptPages(convert, keep, pages[..k]))| + |pages[k]|
  {
    KeptPagesPrefix(convert, keep, pages[..|run.batches|], k);
    assert pages[..|run.batches|][..k] == pages[..k];
  }

  /** Each batch of a counting run is the kept records of the page at the
      same position, and that page converted. */
  lemma CountedBatchesArePages<R, T>(convert: R -> Result<T, string>, keep: T -> bool,
                                     pages: seq<seq<R>>, liveFor: nat, length: int, run: IterRun<T>, k: nat)
    requires CountedRun(convert, keep, pages, liveFor, length, run) && k < |run.batches|
    ensures ConvertPage(convert, pages[k]).Ok?
    ensures run.batches[k] == Filter(keep, ConvertPage(convert, pages[k]).value)
  {
    var taken := pages[..|run.batches|];
    PageOfConvertedConverts(convert, taken, k);
    KeptPagesAt(convert, keep, taken, k);
    assert taken[k] == pages[k];
  }
}

=== FILE: Iterators.dfy ===
/** The two batch iterators of the orchestrators, over the upstream pages
    that arrive: `activitiesIterator` of `server/api.ts`, which adds raw page
    lengths to a running counter, and `routesIterator` of `server/api.ts` with
    the `activitiesIterator` of `server/index.ts`, which count kept records.
    `liveFor` is the number of pages that arrive while the connection is
    still open: when the socket closes is decided outside the server. */
module Iterators {

  import opened Wrappers
  import opened JsValues
  import opened Seqs
  import opened Summaries
  import opened IteratorRuns

  /** api.ts `activitiesIterator`: every raw page's length is added to the
      counter, which carries over from earlier windows (`length`), before
      filtering; only records that pass `keep` are yielded, and an empty
      batch is not. */
  method AccumulatingIterator<R, T>(convert: R -> Result<T, string>, keep: T -> bool,
                                    pages: seq<seq<R>>, liveFor: nat, length: int) returns (run: IterRun<T>)
    ensures AccumulatedRun(convert, keep, pages, liveFor, length, run)
  {
    run := IterRun([], [], length, false, false);
    var i := 0;
    AccumulatedNothing(convert, keep, pages, liveFor, length);
    while i < |pages| && i < liveFor
      invariant AccumulatedSoFar(convert, keep, pages, liveFor, length, run, i)
      decreases |pages| - i
    {
      var next := AccumulatePage(convert, keep, pages, liveFor, length, run, i);
      if next.failed {
        return next;
      }
      run, i := next, i + 1;
    }
    var last := if i == |pages| then run.(finished := true) else run;
    AccumulatedThenStopped(convert, keep, pages, liveFor, length, run, i, last);
    run := last;
  }

  /** One turn of the accumulating loop: page `i` is converted; if that
      throws, the run ends failed; otherwise its kept records are yielded
      unless there are none. Either way the counter grows by the page's raw
      length. */
  method AccumulatePage<R, T>(convert: R -> Result<T, string>, keep: T -> bool, pages: seq<seq<R>>,
                              liveFor: nat, length: int, run: IterRun<T>, i: nat) returns (next: IterRun<T>)
    requires AccumulatedSoFar(convert, keep, pages, liveFor, length, run, i) && i < |pages| && i < liveFor
    ensures next.failed <==> ConvertPage(convert, pages[i]).Err?
    ensures next.failed ==> AccumulatedRun(convert, keep, pages, liveFor, length, next)
    ensures !next.failed ==> AccumulatedSoFar(convert, keep, pages, liveFor, length, next, i + 1)
  {
    var len := run.length + |pages[i]|;
    var converted := ConvertPage(convert, pages[i]);
    if converted.Err? {
      next := IterRun(run.batches, run.reports + [len], len, false, true);
      AccumulatedThenFailed(convert, keep, pages, liveFor, length, run, i, next);
    } else {
      next := IterRun(run.batches + NonEmptyBatch(Filter(keep, converted.value)), run.reports + [len], len, false, false);
      AccumulatedOneMore(convert, keep, pages, liveFor, length, run, i, next);
    }
  }

  /** api.ts `routesIterator`, and index.ts `activitiesIterator` on its fetch
      path: the counter is set to the number of records kept so far plus the
      raw length of the current page, and every batch is yielded, empty or
      not. */
  method CountingIterator<R, T>(convert: R -> Result<T, string>, keep: T -> bool,
                                pages: seq<seq<R>>, liveFor: nat, length: int) returns (run: IterRun<T>)
    ensures CountedRun(convert, keep, pages, liveFor, length, run)
  {
    run := IterRun([], [], length, false, false);
    var i := 0;
    CountedNothing(convert, keep, pages, liveFor, length);
    while i < |pages| && i < liveFor
      invariant CountedSoFar(convert, keep, pages, liveFor, length, run, i)
      decreases |pages| - i
    {
      var next := CountPage(convert, keep, pages, liveFor, length, run, i);
      if next.failed {
        return next;
      }
      run, i := next, i + 1;
    }
    var last := if i == |pages| then run.(finished := true) else run;
    CountedThenStopped(convert, keep, pages, liveFor, length, run, i, last);
    run := last;
  }

  /** One turn of the counting loop: the counter is set to the records kept
      so far plus page `i`'s raw length; if converting the page throws, the
      run ends failed, otherwise its kept records are yielded, empty or not. */
  method CountPage<R, T>(convert: R -> Result<T, string>, keep: T -> bool, pages: seq<seq<R>>,
                         liveFor: nat, length: int, run: IterRun<T>, i: nat) returns (next: IterRun<T>)
    requires CountedSoFar(convert, keep, pages, liveFor, length, run, i) && i < |pages| && i < liveFor
    ensures next.failed <==> ConvertPage(convert, pages[i]).Err?
    ensures next.failed ==> CountedRun(convert, keep, pages, liveFor, length, next)
    ensures !next.failed ==> CountedSoFar(convert, keep, pages, liveFor, length, next, i + 1)
  {
    var len := |Flatten(run.batches)| + |pages[i]|;
    var converted := ConvertPage(convert, pages[i]);
    if converted.Err? {
      next := IterRun(run.batches, run.reports + [len], len, false, true);
      CountedThenFailed(convert, keep, pages, liveFor, length, run, i, next);
    } else {
      next := IterRun(run.batches + [Filter(keep, converted.value)], run.reports + [len], len, false, false);
      CountedOneMore(convert, keep, pages, liveFor, length, run, i, next);
    }
  }

  /** A record is shown on the map only when its polyline is truthy. */
  predicate ActivityHasMap(a: Activity) {
    Truthy(a.polyline)
  }

  predicate RouteHasMap<Id>(r: Route<Id>) {
    Truthy(r.polyline)
  }

  /** index.ts `activitiesIterator`: with a non-empty `cachedActivities` it
      would report and yield the cache; otherwise it fetches, counting like
      `routesIterator`. The cache it hands back is the one it was given: the
      assignment that would fill it (index.ts:189) is commented out, so from
      the initial empty cache every call takes the fetch path. */
  method CachedActivitiesIterator(cached: seq<Activity>, pages: seq<seq<RawActivity>>, liveFor: nat, length: int)
    returns (run: IterRun<Activity>, cacheAfter: seq<Activity>)
    ensures cacheAfter == cached
    ensures |cached| > 0 ==> run == IterRun([cached], [|cached|], |cached|, true, false)
    ensures |cached| == 0 ==> CountedRun(ConvertActivitySummary, ActivityHasMap, pages, liveFor, length, run)
  {
    cacheAfter := cached;
    if |cached| == 0 {
      run := CountingIterator(ConvertActivitySummary, ActivityHasMap, pages, liveFor, length);
    } else {
      run := IterRun([cached], [|cached|], |cached|, true, false);
    }
  }

  /** Every record yielded by a run whose test was "has a map" has one. */
  lemma YieldedHaveMaps<R>(convert: R -> Result<Activity, string>, pages: seq<seq<R>>, liveFor: nat, run: IterRun<Activity>)
    requires RunTakesPagesInOrder(convert, ActivityHasMap, pages, liveFor, run)
    ensures forall k, x :: 0 <= k < |run.batches| && x in run.batches[k] ==> Truthy(x.polyline)
  {
    forall k, x | 0 <= k < |run.batches| && x in run.batches[k] ensures Truthy(x.polyline) {
      YieldedRecordsPassKeep(convert, ActivityHasMap, pages, liveFor, run, k, x);
    }
  }

  lemma YieldedRoutesHaveMaps<R, Id>(convert: R -> Result<Route<Id>, string>, pages: seq<seq<R>>, liveFor: nat,
                                     run: IterRun<Route<Id>>)
    requires RunTakesPagesInOrder(convert, RouteHasMap, pages, liveFor, run)
    ensures forall k, x :: 0 <= k < |run.batches| && x in run.batches[k] ==> Truthy(x.polyline)
  {
    forall k, x | 0 <= k < |run.batches| && x in run.batches[k] ensures Truthy(x.polyline) {
      YieldedRecordsPassKeep(convert, RouteHasMap, pages, liveFor, run, k, x);
    }
  }

  /** api.ts `activitiesIterator` over upstream activities. */
  method ApiActivitiesIterator(pages: seq<seq<RawActivity>>, liveFor: nat, length: int) returns (run: IterRun<Activity>)
    ensures AccumulatedRun(ConvertActivitySummary, ActivityHasMap, pages, liveFor, length, run)
    ensures forall k, x :: 0 <= k < |run.batches| && x in run.batches[k] ==> Truthy(x.polyline)
  {
    run := AccumulatingIterator(ConvertActivitySummary, ActivityHasMap, pages, liveFor, length);
    YieldedHaveMaps(ConvertActivitySummary, pages, liveFor, run);
  }

  /** api.ts `routesIterator`: routes keyed by `id_str`. */
  method ApiRoutesIterator(pages: seq<seq<RawRoute>>, liveFor: nat, length: int) returns (run: IterRun<Route<string>>)
    ensures CountedRun(ConvertRouteSummary, RouteHasMap, pages, liveFor, length, run)
    ensures forall k, x :: 0 <= k < |run.batches| && x in run.batches[k] ==> Truthy(x.polyline)
  {
    run := CountingIterator(ConvertRouteSummary, RouteHasMap, pages, liveFor, length);
    YieldedRoutesHaveMaps(ConvertRouteSummary, pages, liveFor, run);
  }

  /** index.ts `routesIterator`: routes keyed by the numeric id. */
  method IndexRoutesIterator(pages: seq<seq<RawRoute>>, liveFor: nat, length: int) returns (run: IterRun<Route<int>>)
    ensures CountedRun(TupleConvertRouteSummary, RouteHasMap, pages, liveFor, length, run)
    ensures forall k, x :: 0 <= k < |run.batches| && x in run.batches[k] ==> Truthy(x.polyline)
  {
    run := CountingIterator(TupleConvertRouteSummary, RouteHasMap, pages, liveFor, length);
    YieldedRoutesHaveMaps(TupleConvertRouteSummary, pages, liveFor, run);
  }
}

=== FILE: JsValues.dfy ===
/** The slice of JavaScript's value semantics the server code relies on:
    which values are truthy, which are nullish, and how a value is turned
    into text by `String(v)` or a template literal. Numbers are modelled as
    integers; the fractional and exponent forms of JavaScript numbers are not
    modelled. */
module JsValues {

  import opened Wrappers

  datatype JsValue =
    | Undefined
    | Null
    | Bool(b: bool)
    | Num(n: int)
    | NaN
    | Str(s: string)
      /** Any object or function; `tag` is only a label for the reader. */
    | Obj(tag: string)

  /** JavaScript truthiness: `undefined`, `null`, `false`, `0`, `NaN` and `''` are falsy. */
  predicate Truthy(v: JsValue) {
    match v
    case Undefined => false
    case Null => false
    case Bool(b) => b
    case Num(n) => n != 0
    case NaN => false
    case Str(s) => s != ""
    case Obj(_) => true
  }

  /** The values `??` treats as missing. */
  predicate Nullish(v: JsValue) {
    v.Undefined? || v.Null?
  }

  lemma NullishIsFalsy(v: JsValue)
    ensures Nullish(v) ==> !Truthy(v)
    ensures !Truthy(v) && !Nullish(v) <==> v in {Bool(false), Num(0), NaN, Str("")}
  {
  }

  predicate IsDigit(c: char) {
    '0' <= c <= '9'
  }

  function DigitChar(d: nat): (c: char)
    requires d < 10
    ensures IsDigit(c)
  {
    ('0' as int + d) as char
  }

  function DigitValue(c: char): (d: nat)
    requires IsDigit(c)
    ensures d < 10 && DigitChar(d) == c
  {
    (c as int - '0' as int) as nat
  }

  /** Decimal text of a natural number, most significant digit first. */
  function NatToString(n: nat): (s: string)
    ensures |s| >= 1
    ensures forall i :: 0 <= i < |s| ==> IsDigit(s[i])
    ensures |s| > 1 ==> s[0] != '0'
  {
    if n < 10 then [DigitChar(n)] else NatToString(n / 10) + [DigitChar(n % 10)]
  }

  /** Reads back a string of decimal digits. */
  function ParseNat(s: string): nat
    requires forall i :: 0 <= i < |s| ==> IsDigit(s[i])
  {
    if |s| == 0 then 0 else ParseNat(s[..|s| - 1]) * 10 + DigitValue(s[|s| - 1])
  }

  /** Decimal rendering loses nothing: parsing it gives the number back. */
  lemma {:induction false} ParseNatToString(n: nat)
    ensures ParseNat(NatToString(n)) == n
  {
    if n >= 10 {
      var prefix, last := NatToString(n / 10), DigitChar(n % 10);
      ParseNatToString(n / 10);
      ParseNatSnoc(prefix, last);
      assert DigitValue(last) == n % 10;
    }
  }

  /** Appending a digit multiplies the value by ten and adds the digit. */
  lemma ParseNatSnoc(s: string, c: char)
    requires forall i :: 0 <= i < |s| ==> IsDigit(s[i])
    requires IsDigit(c)
    ensures ParseNat(s + [c]) == ParseNat(s) * 10 + DigitValue(c)
  {
    assert (s + [c])[..|s + [c]| - 1] == s;
  }

  /** Decimal rendering is injective, so distinct ids give distinct keys. */
  lemma NatToStringInjective(a: nat, b: nat)
    ensures NatToString(a) == NatToString(b) ==> a == b
  {
    ParseNatToString(a);
    ParseNatToString(b);
  }

  /** `String(n)` for an integer `n`. */
  function IntToString(n: int): (s: string)
    ensures |s| >= 1
    ensures n >= 0 ==> s == NatToString(n)
    ensures n < 0 ==> s == "-" + NatToString(-n)
  {
    if n < 0 then "-" + NatToString(-n) else NatToString(n)
  }

  /** `String(n)` is injective on integers as well: the sign shows in the
      first character, and the digits are those of the magnitude. */
  lemma IntToStringInjective(a: int, b: int)
    ensures IntToString(a) == IntToString(b) ==> a == b
  {
    if IntToString(a) == IntToString(b) {
      SignShows(a);
      SignShows(b);
      if a >= 0 {
        NatToStringInjective(a, b);
      } else {
        NegativeInjective(a, b);
      }
    }
  }

  lemma NegativeInjective(a: int, b: int)
    requires a < 0 && b < 0 && IntToString(a) == IntToString(b)
    ensures a == b
  {
    DropSign(IntToString(a), NatToString(-a), NatToString(-b));
    NatToStringInjective(-a, -b);
  }

  lemma DropSign(s: string, x: string, y: string)
    requires s == "-" + x && s == "-" + y
    ensures x == y
  {
    assert x == s[1..] == y;
  }

  lemma SignShows(n: int)
    ensures IntToString(n)[0] == '-' <==> n < 0
  {
    if n >= 0 {
      assert IsDigit(NatToString(n)[0]);
    }
  }

  /** `String(v)`, which is what a template literal and `encodeURIComponent` apply first. */
  function ValueText(v: JsValue): string {
    match v
    case Undefined => "undefined"
    case Null => "null"
    case Bool(b) => if b then "true" else "false"
    case Num(n) => IntToString(n)
    case NaN => "NaN"
    case Str(s) => s
    case Obj(_) => "[object Object]"
  }

  /** `Math.floor(x)` where `x` may be `undefined`; timestamps are already integers here. */
  function Floor(x: Option<int>): JsValue {
    if x.Some? then Num(x.value) else NaN
  }
}

=== FILE: Memo.dfy ===
/** Memoisation of a one-argument function of a string, as a map-state
    machine. Two versions differ in their hit test: `memoize` of
    `server/stateful-functions.ts` keeps its memo in a prototype-less object
    and treats only `null` and `undefined` as missing (`??`); `memoise` of
    `server/stateful-functions.js` and `server/index.js` keeps it in a plain
    `{}` and treats every falsy value as missing.

    The memoised function is a parameter `fn`; it is called at most once per
    call of the memoised function, and the record of each call says whether
    it was. */
module Memo {

  import opened JsValues

  /** The memo object's own properties. */
  type Memo = map<string, JsValue>

  /** One call: the memo afterwards, the value returned, and whether `fn`
      was called. */
  datatype Call = Call(memo: Memo, result: JsValue, invoked: bool)

  /** Every stored value is what `fn` gives for its key. */
  ghost predicate Faithful(memo: Memo, fn: string -> JsValue) {
    forall k :: k in memo ==> memo[k] == fn(k)
  }

  // ---------------------------------------------------------------------------
  // memoize with `??` (stateful-functions.ts:10-13)
  // ---------------------------------------------------------------------------

  /** `memo[arg] ?? (memo[arg] = fn(arg))`. */
  function Memoize(memo: Memo, fn: string -> JsValue, arg: string): (c: Call)
    ensures !c.invoked <==> arg in memo && !Nullish(memo[arg])
    ensures c.invoked ==> c.result == fn(arg)
    ensures arg in c.memo && c.memo[arg] == c.result
    ensures forall k :: k != arg ==> (k in c.memo <==> k in memo)
    ensures forall k :: k != arg && k in memo ==> c.memo[k] == memo[k]
  {
    if arg in memo && !Nullish(memo[arg]) then Call(memo, memo[arg], false)
    else
      var computed := fn(arg);
      Call(memo[arg := computed], computed, true)
  }

  /** The memo starts empty: with no prototype, every key misses first,
      `constructor` included. */
  lemma FreshMemoizeMisses(fn: string -> JsValue, arg: string)
    ensures Memoize(map[], fn, arg).invoked
    ensures Memoize(map[], fn, "constructor").invoked
  {
  }

  /** Memoisation is invisible: from a faithful memo every call returns what
      `fn` would, and the memo stays faithful. */
  lemma MemoizeIsTransparent(memo: Memo, fn: string -> JsValue, arg: string)
    requires Faithful(memo, fn)
    ensures Memoize(memo, fn, arg).result == fn(arg)
    ensures Faithful(Memoize(memo, fn, arg).memo, fn)
  {
  }

  /** A second call with the same argument is served from the memo exactly
      when the first result was not nullish. */
  lemma MemoizeServesRepeat(memo: Memo, fn: string -> JsValue, arg: string)
    ensures var first := Memoize(memo, fn, arg);
      var second := Memoize(first.memo, fn, arg);
      && (!second.invoked <==> !Nullish(first.result))
      && (!second.invoked ==> second.result == first.result)
  {
  }

  /** A nullish result is never served: every call asks `fn` again. */
  lemma MemoizeRecomputesNullish(memo: Memo, fn: string -> JsValue, arg: string)
    requires Nullish(fn(arg))
    requires arg in memo ==> Nullish(memo[arg])
    ensures Memoize(memo, fn, arg).invoked
    ensures Memoize(Memoize(memo, fn, arg).memo, fn, arg).invoked
  {
  }

  /** A call changes only its own key: any other key is answered afterwards
      exactly as before. */
  lemma MemoizeKeysIndependent(memo: Memo, fn: string -> JsValue, arg: string, other: string)
    requires other != arg
    ensures Memoize(Memoize(memo, fn, arg).memo, fn, other).result == Memoize(memo, fn, other).result
    ensures Memoize(Memoize(memo, fn, arg).memo, fn, other).invoked == Memoize(memo, fn, other).invoked
  {
  }

  // ---------------------------------------------------------------------------
  // a sequence of calls to `memoize`
  // ---------------------------------------------------------------------------

  /** The calls made for `args` in order, each on the memo the previous one
      left. */
  function MemoizeRun(memo: Memo, fn: string -> JsValue, args: seq<string>): (calls: seq<Call>)
    ensures |calls| == |args|
    decreases |args|
  {
    if |args| == 0 then []
    else
      var c := Memoize(memo, fn, args[0]);
      [c] + MemoizeRun(c.memo, fn, args[1..])
  }

  /** A key already holding a non-nullish value keeps it for the whole run,
      and every call for it is served from the memo. */
  lemma {:induction false} StoredSurvivesRun(memo: Memo, fn: string -> JsValue, args: seq<string>, key: string)
    requires key in memo && !Nullish(memo[key])
    ensures forall j :: 0 <= j < |args| && args[j] == key ==>
      !MemoizeRun(memo, fn, args)[j].invoked && MemoizeRun(memo, fn, args)[j].result == memo[key]
    decreases |args|
  {
    if |args| > 0 {
      var c := Memoize(memo, fn, args[0]);
      StoredSurvivesRun(c.memo, fn, args[1..], key);
      var calls := MemoizeRun(memo, fn, args);
      forall j | 0 <= j < |args| && args[j] == key
        ensures !calls[j].invoked && calls[j].result == memo[key]
      {
        if j > 0 {
          assert calls[j] == MemoizeRun(c.memo, fn, args[1..])[j - 1];
          assert args[1..][j - 1] == key;
        }
      }
    }
  }

  /** When `fn` never returns a nullish value, it is called at most once per
      distinct argument: a repeated argument is always served. */
  lemma {:induction false} MemoizeCallsOncePerKey(memo: Memo, fn: string -> JsValue, args: seq<string>, i: nat, j: nat)
    requires forall k :: !Nullish(fn(k))
    requires i < j < |args| && args[i] == args[j]
    ensures !MemoizeRun(memo, fn, args)[j].invoked
    ensures MemoizeRun(memo, fn, args)[j].result == MemoizeRun(memo, fn, args)[i].result
    decreases |args|
  {
    var c := Memoize(memo, fn, args[0]);
    var calls := MemoizeRun(memo, fn, args);
    var rest := MemoizeRun(c.memo, fn, args[1..]);
    assert calls[j] == rest[j - 1];
    if i == 0 {
      StoredSurvivesRun(c.memo, fn, args[1..], args[0]);
      assert args[1..][j - 1] == args[0];
    } else {
      assert calls[i] == rest[i - 1];
      MemoizeCallsOncePerKey(c.memo, fn, args[1..], i - 1, j - 1);
    }
  }

  // ---------------------------------------------------------------------------
  // memoise with truthiness (stateful-functions.js:13-24, index.js:51-62)
  // ---------------------------------------------------------------------------

  /** The properties every plain object inherits from `Object.prototype`. */
  const ObjectPrototypeKeys: set<string> := {
    "constructor", "__proto__", "hasOwnProperty", "isPrototypeOf", "propertyIsEnumerable",
    "toString", "toLocaleString", "valueOf", "__defineGetter__", "__defineSetter__",
    "__lookupGetter__", "__lookupSetter__"
  }

  /** `memo[arg]` on an object created as `{}`: an own property if there is
      one, otherwise the inherited function or object, otherwise `undefined`. */
  function PlainLookup(memo: Memo, arg: string): (v: JsValue)
    ensures arg in memo ==> v == memo[arg]
    ensures arg !in memo ==> (Truthy(v) <==> arg in ObjectPrototypeKeys)
  {
    if arg in memo then memo[arg]
    else if arg in ObjectPrototypeKeys then Obj("Object.prototype." + arg)
    else Undefined
  }

  /** `memoise` as written: the lookup sees inherited properties, so an
      argument naming one of them is a hit before `fn` was ever called. */
  function MemoiseAsWritten(memo: Memo, fn: string -> JsValue, arg: string): (c: Call)
    ensures !c.invoked <==> Truthy(PlainLookup(memo, arg))
    ensures c.invoked ==> c.result == fn(arg) && c.memo == memo[arg := fn(arg)]
    ensures !c.invoked ==> c.memo == memo
  {
    var cached := PlainLookup(memo, arg);
    if Truthy(cached) then Call(memo, cached, false)
    else
      var computed := fn(arg);
      Call(memo[arg := computed], computed, true)
  }

  /** The counterexample: on a fresh memo, `constructor` returns the
      inherited `Object` function without calling `fn`, whatever `fn` would
      have returned. */
  lemma MemoiseAsWrittenServesPrototype(fn: string -> JsValue)
    ensures !MemoiseAsWritten(map[], fn, "constructor").invoked
    ensures MemoiseAsWritten(map[], fn, "constructor").result == Obj("Object.prototype.constructor")
    ensures fn("constructor") != Obj("Object.prototype.constructor") ==>
      MemoiseAsWritten(map[], fn, "constructor").result != fn("constructor")
  {
  }

  /** As written, a fresh memo misses exactly on the keys that are not
      inherited names. */
  lemma FreshMemoiseAsWrittenMisses(fn: string -> JsValue, arg: string)
    ensures MemoiseAsWritten(map[], fn, arg).invoked <==> arg !in ObjectPrototypeKeys
  {
  }

  /** `memoise` with the memo consulted for own properties only, as for a
      prototype-less object: a stored truthy value is a hit. */
  function Memoise(memo: Memo, fn: string -> JsValue, arg: string): (c: Call)
    ensures !c.invoked <==> arg in memo && Truthy(memo[arg])
    ensures c.invoked ==> c.result == fn(arg)
    ensures arg in c.memo && c.memo[arg] == c.result
    ensures forall k :: k != arg ==> (k in c.memo <==> k in memo)
    ensures forall k :: k != arg && k in memo ==> c.memo[k] == memo[k]
  {
    if arg in memo && Truthy(memo[arg]) then Call(memo, memo[arg], false)
    else
      var computed := fn(arg);
      Call(memo[arg := computed], computed, true)
  }

  /** Away from the inherited property names the code as written behaves as
      intended. */
  lemma MemoiseAsWrittenAgreesOffPrototype(memo: Memo, fn: string -> JsValue, arg: string)
    requires arg !in ObjectPrototypeKeys
    ensures MemoiseAsWritten(memo, fn, arg) == Memoise(memo, fn, arg)
  {
  }

  /** The corrected version is invisible, as `memoize` is. */
  lemma MemoiseIsTransparent(memo: Memo, fn: string -> JsValue, arg: string)
    requires Faithful(memo, fn)
    ensures Memoise(memo, fn, arg).result == fn(arg)
    ensures Faithful(Memoise(memo, fn, arg).memo, fn)
  {
  }

  /** A fresh memo misses on every key. */
  lemma FreshMemoiseMisses(fn: string -> JsValue, arg: string)
    ensures Memoise(map[], fn, arg).invoked
  {
  }

  /** A second call with the same argument is served exactly when the first
      result was truthy. */
  lemma MemoiseServesRepeat(memo: Memo, fn: string -> JsValue, arg: string)
    ensures var first := Memoise(memo, fn, arg);
      var second := Memoise(first.memo, fn, arg);
      && (!second.invoked <==> Truthy(first.result))
      && (!second.invoked ==> second.result == first.result)
  {
  }

  /** Falsy results (`0`, `''`, `false`, `NaN`, `null`, `undefined`) are
      recomputed on every call. */
  lemma MemoiseRecomputesFalsy(memo: Memo, fn: string -> JsValue, arg: string)
    requires !Truthy(fn(arg))
    requires arg in memo ==> !Truthy(memo[arg])
    ensures Memoise(memo, fn, arg).invoked
    ensures Memoise(Memoise(memo, fn, arg).memo, fn, arg).invoked
  {
  }

  lemma MemoiseKeysIndependent(memo: Memo, fn: string -> JsValue, arg: string, other: string)
    requires other != arg
    ensures Memoise(Memoise(memo, fn, arg).memo, fn, other).result == Memoise(memo, fn, other).result
    ensures Memoise(Memoise(memo, fn, arg).memo, fn, other).invoked == Memoise(memo, fn, other).invoked
  {
  }

  /** The two hit tests disagree exactly on stored values that are falsy but
      not nullish: `memoize` serves them, `memoise` recomputes them. */
  lemma HitTestsDiffer(memo: Memo, fn: string -> JsValue, arg: string)
    ensures Memoize(memo, fn, arg).invoked != Memoise(memo, fn, arg).invoked
        <==> arg in memo && !Truthy(memo[arg]) && !Nullish(memo[arg])
  {
    NullishIsFalsy(if arg in memo then memo[arg] else Undefined);
  }
}

=== FILE: PolylineCache.dfy ===
/** The per-connection `fetchedMaps` cache of the orchestrators (api.ts,
    index.ts): polylines of emitted records are stored under their ids, and a
    later map request for an id is served from the cache once, the entry
    being deleted, before falling back to the upstream `getActivity`. Keys
    are the text ids in api.ts and numeric ids in index.ts, hence the key
    type parameter. */
module PolylineCache {

  import opened Wrappers
  import opened JsValues
  import opened Summaries

  type Cache<K> = map<K, JsValue>

  // ---------------------------------------------------------------------------
  // recording emitted records (api.ts:209-211, 231-233; index.ts:254-256, 278-280)
  // ---------------------------------------------------------------------------

  /** `entries.forEach(({ map, id }) => fetchedMaps.set(key(id), map))`. */
  function Record<K>(cache: Cache<K>, entries: seq<(K, JsValue)>): Cache<K>
    decreases |entries|
  {
    if |entries| == 0 then cache
    else Record(cache[entries[0].0 := entries[0].1], entries[1..])
  }

  /** The value the last entry for `k` carries, if any entry does. */
  function LastFor<K(==)>(entries: seq<(K, JsValue)>, k: K): Option<JsValue> {
    if |entries| == 0 then None
    else if entries[|entries| - 1].0 == k then Some(entries[|entries| - 1].1)
    else LastFor(entries[..|entries| - 1], k)
  }

  /** After recording, a key holds the value of its last entry, and a key
      without entries keeps what it had. */
  lemma {:induction false} RecordLookup<K>(cache: Cache<K>, entries: seq<(K, JsValue)>, k: K)
    ensures LastFor(entries, k).Some? ==> k in Record(cache, entries) && Record(cache, entries)[k] == LastFor(entries, k).value
    ensures LastFor(entries, k).None? ==> (k in Record(cache, entries) <==> k in cache)
    ensures LastFor(entries, k).None? && k in cache ==> Record(cache, entries)[k] == cache[k]
    decreases |entries|
  {
    if |entries| > 0 {
      var front := entries[..|entries| - 1];
      var last := entries[|entries| - 1];
      assert entries == front + [last];
      RecordSnoc(cache, front, last);
      RecordLookup(cache, front, k);
    }
  }

  lemma {:induction false} RecordSnoc<K>(cache: Cache<K>, front: seq<(K, JsValue)>, last: (K, JsValue))
    ensures Record(cache, front + [last]) == Record(cache, front)[last.0 := last.1]
    decreases |front|
  {
    if |front| == 0 {
      assert front + [last] == [last];
    } else {
      assert (front + [last])[1..] == front[1..] + [last];
      RecordSnoc(cache[front[0].0 := front[0].1], front[1..], last);
    }
  }

  // ---------------------------------------------------------------------------
  // one map request (api.ts:179-187, index.ts:223-231)
  // ---------------------------------------------------------------------------

  /** The cache lookup: a truthy stored polyline is a hit and its entry is
      deleted; anything else is a miss and the cache is untouched. */
  function Take<K(==,!new)>(cache: Cache<K>, id: K): (r: (Cache<K>, Option<JsValue>))
    ensures r.1.Some? <==> id in cache && Truthy(cache[id])
    ensures r.1.Some? ==> r.1.value == cache[id] && id !in r.0
    ensures forall k :: k != id ==> (k in r.0 <==> k in cache)
    ensures forall k :: k != id && k in cache ==> r.0[k] == cache[k]
  {
    if id in cache && Truthy(cache[id]) then (cache - {id}, Some(cache[id]))
    else (cache, None)
  }

  /** Consume-once: right after a hit, the same id misses. */
  lemma TakeConsumesOnce<K(!new)>(cache: Cache<K>, id: K)
    requires Take(cache, id).1.Some?
    ensures Take(Take(cache, id).0, id).1.None?
  {
  }

  /** A miss leaves the cache exactly as it was. */
  lemma TakeMissKeepsCache<K(!new)>(cache: Cache<K>, id: K)
    requires Take(cache, id).1.None?
    ensures Take(cache, id).0 == cache
  {
  }

  /** One id of a `maps` request: with `highDetail` false a hit is answered
      from the cache; otherwise the upstream activity `fetched` is converted.
      A hit is deleted even when `highDetail` then ignores it. The result is
      the updated cache, the `[id, map]` pair, and whether upstream was asked. */
  function MapFor<K(==,!new)>(cache: Cache<K>, id: K, highDetail: bool, fetched: RawActivity):
    (r: (Cache<K>, (K, JsValue), bool))
    ensures r.1.0 == id
    ensures r.0 == Take(cache, id).0
    ensures !r.2 <==> Take(cache, id).1.Some? && !highDetail
    ensures !r.2 ==> r.1.1 == cache[id]
    ensures r.2 ==> r.1.1 == ConvertActivity(fetched, highDetail).polyline
  {
    var (rest, hit) := Take(cache, id);
    if hit.Some? && !highDetail then (rest, (id, hit.value), false)
    else (rest, (id, ConvertActivity(fetched, highDetail).polyline), true)
  }

  /** A whole `maps` request: each id consults the cache in request order
      (every callback passes its `await tick()` before any continues, and then
      they run in order). `fetch` stands for the upstream `getActivity`. */
  function MapsFor<K(==,!new)>(cache: Cache<K>, ids: seq<K>, highDetail: bool, fetch: K -> RawActivity):
    (r: (Cache<K>, seq<(K, JsValue)>, nat))
    ensures |r.1| == |ids|
    ensures forall i :: 0 <= i < |ids| ==> r.1[i].0 == ids[i]
    ensures r.2 <= |ids|
    decreases |ids|
  {
    if |ids| == 0 then (cache, [], 0)
    else
      var (c1, pair, fetched) := MapFor(cache, ids[0], highDetail, fetch(ids[0]));
      var (c2, pairs, fetches) := MapsFor(c1, ids[1..], highDetail, fetch);
      (c2, [pair] + pairs, fetches + (if fetched then 1 else 0))
  }

  /** The ids of recorded entries, in order. */
  function IdsOf<K>(entries: seq<(K, JsValue)>): (ids: seq<K>)
    ensures |ids| == |entries| && forall i :: 0 <= i < |entries| ==> ids[i] == entries[i].0
  {
    seq(|entries|, i requires 0 <= i < |entries| => entries[i].0)
  }

  /** The point of the cache: when the map request names exactly the records
      just emitted (distinct ids, truthy polylines), every polyline comes from
      the cache, nothing is fetched upstream, and the cache is left as it was
      before they were recorded, on those keys as on every other. */
  lemma {:induction false} EmittedMapsServedFromCache<K(!new)>(cache: Cache<K>, entries: seq<(K, JsValue)>, fetch: K -> RawActivity)
    requires forall i, j :: 0 <= i < j < |entries| ==> entries[i].0 != entries[j].0
    requires forall i :: 0 <= i < |entries| ==> Truthy(entries[i].1)
    requires forall i :: 0 <= i < |entries| ==> entries[i].0 !in cache
    ensures var r := MapsFor(Record(cache, entries), IdsOf(entries), false, fetch);
      r.1 == entries && r.2 == 0 && r.0 == cache
    decreases |entries|
  {
    if |entries| > 0 {
      var e, rest := entries[0], entries[1..];
      HeadServedFromCache(cache, entries, fetch(e.0));
      EmittedMapsServedFromCache(cache, rest, fetch);
      assert IdsOf(entries)[1..] == IdsOf(rest);
      assert entries == [e] + rest;
    }
  }

  /** The first recorded entry is a hit, and taking it leaves the cache as
      if only the others had been recorded. */
  lemma HeadServedFromCache<K(!new)>(cache: Cache<K>, entries: seq<(K, JsValue)>, fetched: RawActivity)
    requires |entries| > 0
    requires forall i, j :: 0 <= i < j < |entries| ==> entries[i].0 != entries[j].0
    requires Truthy(entries[0].1) && entries[0].0 !in cache
    ensures MapFor(Record(cache, entries), entries[0].0, false, fetched) == (Record(cache, entries[1..]), entries[0], false)
  {
    var e, rest := entries[0], entries[1..];
    var recorded := Record(cache, entries);
    assert recorded == Record(cache[e.0 := e.1], rest);
    assert forall i :: 0 <= i < |rest| ==> rest[i].0 != e.0 by {
      forall i | 0 <= i < |rest| ensures rest[i].0 != e.0 {
        assert rest[i] == entries[i + 1];
      }
    }
    LastForAbsent(rest, e.0);
    RecordLookup(cache[e.0 := e.1], rest, e.0);
    RecordWithout(cache, e, rest);
  }

  lemma {:induction false} LastForAbsent<K>(entries: seq<(K, JsValue)>, k: K)
    requires forall i :: 0 <= i < |entries| ==> entries[i].0 != k
    ensures LastFor(entries, k).None?
    decreases |entries|
  {
    if |entries| > 0 {
      LastForAbsent(entries[..|entries| - 1], k);
    }
  }

  /** Recording a fresh key and then deleting it is recording without it. */
  lemma RecordWithout<K(!new)>(cache: Cache<K>, e: (K, JsValue), rest: seq<(K, JsValue)>)
    requires e.0 !in cache
    requires forall i :: 0 <= i < |rest| ==> rest[i].0 != e.0
    ensures Record(cache[e.0 := e.1], rest) - {e.0} == Record(cache, rest)
  {
    var a := Record(cache[e.0 := e.1], rest) - {e.0};
    var b := Record(cache, rest);
    LastForAbsent(rest, e.0);
    forall k
      ensures k in a <==> k in b
      ensures k in a ==> a[k] == b[k]
    {
      RecordLookup(cache[e.0 := e.1], rest, k);
      RecordLookup(cache, rest, k);
    }
    assert a == b;
  }

  /** Asking twice for the same cached id serves the first from the cache
      and sends the second upstream. */
  lemma RepeatedIdFetchedAgain<K(!new)>(cache: Cache<K>, id: K, fetch: K -> RawActivity)
    requires id in cache && Truthy(cache[id])
    ensures var r := MapsFor(cache, [id, id], false, fetch);
      r.1 == [(id, cache[id]), (id, ConvertActivity(fetch(id), false).polyline)] && r.2 == 1
  {
    var c1 := cache - {id};
    assert MapFor(cache, id, false, fetch(id)).0 == c1;
    assert [id, id][1..] == [id];
    assert MapsFor(c1, [id], false, fetch).1 == [(id, ConvertActivity(fetch(id), false).polyline)];
  }
}

=== FILE: Seqs.dfy ===
/** Sequence helpers shared by the client and the orchestrator: concatenating
    pages, JavaScript's `Array.prototype.filter`, `String.prototype.split` with
    a one-character separator and `Array.prototype.join`. */
module Seqs {

  /** `pages.flat()`: the pages concatenated in order. */
  function Flatten<T>(pages: seq<seq<T>>): seq<T> {
    if |pages| == 0 then [] else pages[0] + Flatten(pages[1..])
  }

  lemma {:induction false} FlattenAppend<T>(a: seq<seq<T>>, b: seq<seq<T>>)
    ensures Flatten(a + b) == Flatten(a) + Flatten(b)
  {
    if |a| == 0 {
      assert a + b == b;
    } else {
      assert (a + b)[1..] == a[1..] + b;
      FlattenAppend(a[1..], b);
    }
  }

  lemma FlattenSingle<T>(page: seq<T>)
    ensures Flatten([page]) == page
  {
  }

  /** An element of one page is an element of the concatenation. */
  lemma {:induction false} FlattenMember<T>(pages: seq<seq<T>>, k: nat, x: T)
    requires k < |pages| && x in pages[k]
    ensures x in Flatten(pages)
  {
    if k > 0 {
      FlattenMember(pages[1..], k - 1, x);
    }
  }

  /** `xs.filter(keep)`: the elements that satisfy `keep`, in their original order. */
  function Filter<T>(keep: T -> bool, xs: seq<T>): (r: seq<T>)
    ensures |r| <= |xs|
    ensures forall x :: x in r ==> x in xs && keep(x)
    ensures forall x :: x in xs && keep(x) ==> x in r
  {
    if |xs| == 0 then []
    else if keep(xs[0]) then [xs[0]] + Filter(keep, xs[1..])
    else Filter(keep, xs[1..])
  }

  /** Filtering distributes over concatenation, which with the singleton case
      pins the result down completely (order and multiplicity included). */
  lemma {:induction false} FilterAppend<T>(keep: T -> bool, a: seq<T>, b: seq<T>)
    ensures Filter(keep, a + b) == Filter(keep, a) + Filter(keep, b)
  {
    if |a| == 0 {
      assert a + b == b;
    } else {
      assert (a + b)[1..] == a[1..] + b;
      FilterAppend(keep, a[1..], b);
    }
  }

  lemma FilterSingle<T>(keep: T -> bool, x: T)
    ensures Filter(keep, [x]) == if keep(x) then [x] else []
  {
    assert [x][1..] == [];
  }

  /** An element that fails the test leaves the filtered sequence as if it
      were absent. */
  lemma FilterDropsRejected<T>(keep: T -> bool, a: seq<T>, x: T, b: seq<T>)
    requires !keep(x)
    ensures Filter(keep, a + [x] + b) == Filter(keep, a + b)
  {
    FilterAppend(keep, a + [x], b);
    FilterAppend(keep, a, [x]);
    FilterSingle(keep, x);
    FilterAppend(keep, a, b);
  }

  /** Filtering with a test every element passes changes nothing. */
  lemma {:induction false} FilterAll<T>(keep: T -> bool, xs: seq<T>)
    requires forall i :: 0 <= i < |xs| ==> keep(xs[i])
    ensures Filter(keep, xs) == xs
  {
    if |xs| > 0 {
      FilterAll(keep, xs[1..]);
    }
  }

  /** Filtering twice with the same test is filtering once. */
  lemma FilterIdempotent<T>(keep: T -> bool, xs: seq<T>)
    ensures Filter(keep, Filter(keep, xs)) == Filter(keep, xs)
  {
    var r := Filter(keep, xs);
    assert forall i :: 0 <= i < |r| ==> r[i] in r;
    FilterAll(keep, r);
  }

  /** Two tests that agree everywhere filter alike. */
  lemma {:induction false} FilterCongruent<T>(p: T -> bool, q: T -> bool, xs: seq<T>)
    requires forall x :: p(x) == q(x)
    ensures Filter(p, xs) == Filter(q, xs)
  {
    if |xs| > 0 {
      FilterCongruent(p, q, xs[1..]);
    }
  }

  /** `xs` can be had from `ys` by deleting elements, keeping the order of
      the rest. */
  predicate IsSubsequence<T(==)>(xs: seq<T>, ys: seq<T>)
    decreases |ys|
  {
    if |xs| == 0 then true
    else if |ys| == 0 then false
    else if xs[0] == ys[0] then IsSubsequence(xs[1..], ys[1..])
    else IsSubsequence(xs, ys[1..])
  }

  /** Filtering keeps the order of what it keeps. */
  lemma {:induction false} FilterIsSubsequence<T>(keep: T -> bool, xs: seq<T>)
    ensures IsSubsequence(Filter(keep, xs), xs)
  {
    if |xs| > 0 {
      FilterIsSubsequence(keep, xs[1..]);
      if keep(xs[0]) {
        assert Filter(keep, xs)[1..] == Filter(keep, xs[1..]);
      } else if |Filter(keep, xs)| > 0 {
        assert Filter(keep, xs)[0] in xs && keep(Filter(keep, xs)[0]);
      }
    }
  }

  /** `s.split(sep)` for a one-character separator: never empty, and an empty
      string gives `[""]`. */
  function Split(s: string, sep: char): (parts: seq<string>)
    ensures |parts| >= 1
    ensures forall i :: 0 <= i < |parts| ==> sep !in parts[i]
  {
    if |s| == 0 then [""]
    else if s[0] == sep then [""] + Split(s[1..], sep)
    else
      var rest := Split(s[1..], sep);
      [[s[0]] + rest[0]] + rest[1..]
  }

  /** `parts.join(sep)`; `[].join(sep)` is `""`. */
  function Join(parts: seq<string>, sep: char): string {
    if |parts| == 0 then ""
    else if |parts| == 1 then parts[0]
    else parts[0] + [sep] + Join(parts[1..], sep)
  }

  lemma JoinPrefixHead(h: string, parts: seq<string>, sep: char)
    requires |parts| >= 1
    ensures Join([h + parts[0]] + parts[1..], sep) == h + Join(parts, sep)
  {
    var q := [h + parts[0]] + parts[1..];
    assert q[1..] == parts[1..];
    if |parts| > 1 {
      assert Join(q, sep) == (h + parts[0]) + [sep] + Join(parts[1..], sep);
    }
  }

  /** Splitting then joining gives the original text back. */
  lemma {:induction false} JoinSplit(s: string, sep: char)
    ensures Join(Split(s, sep), sep) == s
  {
    if |s| > 0 {
      JoinSplit(s[1..], sep);
      var rest := Split(s[1..], sep);
      if s[0] != sep {
        JoinPrefixHead([s[0]], rest, sep);
      } else {
        assert Split(s, sep) == [""] + rest;
      }
      assert s == [s[0]] + s[1..];
    }
  }

  lemma {:induction false} SplitNoSeparator(p: string, sep: char)
    requires sep !in p
    ensures Split(p, sep) == [p]
  {
    if |p| > 0 {
      SplitNoSeparator(p[1..], sep);
      assert [p[0]] + p[1..] == p;
    }
  }

  lemma {:induction false} SplitAround(p: string, sep: char, rest: string)
    requires sep !in p
    ensures Split(p + [sep] + rest, sep) == [p] + Split(rest, sep)
  {
    var s := p + [sep] + rest;
    if |p| == 0 {
      assert s == [sep] + rest;
      assert s[1..] == rest;
    } else {
      assert s[1..] == p[1..] + [sep] + rest;
      SplitAround(p[1..], sep, rest);
      assert [p[0]] + p[1..] == p;
    }
  }

  /** Joining then splitting gives the parts back, provided no part contains
      the separator and there is at least one part. */
  lemma {:induction false} SplitJoin(parts: seq<string>, sep: char)
    requires |parts| >= 1
    requires forall i :: 0 <= i < |parts| ==> sep !in parts[i]
    ensures Split(Join(parts, sep), sep) == parts
  {
    if |parts| == 1 {
      SplitNoSeparator(parts[0], sep);
    } else {
      SplitJoin(parts[1..], sep);
      SplitAround(parts[0], sep, Join(parts[1..], sep));
      assert [parts[0]] + parts[1..] == parts;
    }
  }

  /** A character in none of the parts, and not the separator, is not in the joined text. */
  lemma {:induction false} JoinAvoids(parts: seq<string>, sep: char, c: char)
    requires c != sep && forall i :: 0 <= i < |parts| ==> c !in parts[i]
    ensures c !in Join(parts, sep)
  {
    if |parts| > 1 {
      JoinAvoids(parts[1..], sep, c);
    }
  }
}

=== FILE: Session.dfy ===
/** One browser connection of the orchestrators (`server/api.ts`, and the
    earlier `server/index.ts`): the `live` flag that gates every send, the
    message handler that records polylines and sends summaries for each
    batch, `sendMaps`, and the `/token` status choice.

    When the socket closes is decided outside the server; the model takes
    the socket's state as given and `Close` as the only way to change it. */
module Session {

  import opened Wrappers
  import opened JsValues
  import opened Seqs
  import opened Summaries
  import opened PolylineCache
  import opened Chunks

  // ---------------------------------------------------------------------------
  // the live gate (api.ts:105-109, 129-131; index.ts:156, 161-167)
  // ---------------------------------------------------------------------------

  /** The socket as the server sees it: open or closed, and what it has sent. */
  datatype Socket<M> = Socket(live: bool, sent: seq<M>)

  /** `send(data)`: transmits only while `live`. */
  function Send<M>(s: Socket<M>, m: M): (r: Socket<M>)
    ensures r.live == s.live
    ensures |r.sent| == |s.sent| + (if s.live then 1 else 0)
    ensures r.sent[..|s.sent|] == s.sent
    ensures s.live ==> r.sent[|s.sent|] == m
  {
    if s.live then Socket(true, s.sent + [m]) else s
  }

  /** The `close` handler: `live = false`, never set back. */
  function Close<M>(s: Socket<M>): (r: Socket<M>)
    ensures !r.live && r.sent == s.sent
  {
    Socket(false, s.sent)
  }

  function SendAll<M>(s: Socket<M>, ms: seq<M>): Socket<M>
    decreases |ms|
  {
    if |ms| == 0 then s else SendAll(Send(s, ms[0]), ms[1..])
  }

  /** Once closed, a connection transmits nothing more, whatever is sent. */
  lemma {:induction false} SilentAfterClose<M>(s: Socket<M>, ms: seq<M>)
    ensures SendAll(Close(s), ms) == Close(s)
    decreases |ms|
  {
    if |ms| > 0 {
      SilentAfterClose(s, ms[1..]);
    }
  }

  /** While open, everything sent is transmitted, in order. */
  lemma {:induction false} OpenTransmitsAll<M>(s: Socket<M>, ms: seq<M>)
    requires s.live
    ensures SendAll(s, ms) == Socket(true, s.sent + ms)
    decreases |ms|
  {
    if |ms| > 0 {
      OpenTransmitsAll(Send(s, ms[0]), ms[1..]);
      assert s.sent + [ms[0]] + ms[1..] == s.sent + ms;
    }
  }

  // ---------------------------------------------------------------------------
  // the message handler (api.ts:179-239; index.ts:221-288)
  // ---------------------------------------------------------------------------

  datatype Stats = Stats(started: bool, finished: bool, length: int)

  /** The messages sent to the browser. `K` is the connection's key type:
      text in api.ts (route ids are `id_str`, activity ids go through
      `toString()`), numbers in index.ts. */
  datatype Message<K> =
    | StatsMessage(finding: Stats)
    | ActivitiesMessage(activities: seq<ActivitySummary>)
    | RoutesMessage(routes: seq<RouteSummary<K>>)
      /** `Object.fromEntries(chunk)`: a repeated id keeps its last polyline. */
    | MapsMessage(maps: map<K, JsValue>)

  /** The per-connection state the message handler works on. */
  datatype Connection<K> = Connection(socket: Socket<Message<K>>, cache: Cache<K>, stats: Stats)

  /** The cache entries of an activity batch, keyed by `key(id)`. */
  function ActivityEntries<K>(batch: seq<Activity>, key: int -> K): (es: seq<(K, JsValue)>)
    ensures |es| == |batch|
    ensures forall i :: 0 <= i < |batch| ==> es[i] == (key(batch[i].id), batch[i].polyline)
  {
    seq(|batch|, i requires 0 <= i < |batch| => (key(batch[i].id), batch[i].polyline))
  }

  function RouteEntries<K>(batch: seq<Route<K>>): (es: seq<(K, JsValue)>)
    ensures |es| == |batch|
    ensures forall i :: 0 <= i < |batch| ==> es[i] == (batch[i].id, batch[i].polyline)
  {
    seq(|batch|, i requires 0 <= i < |batch| => (batch[i].id, batch[i].polyline))
  }

  function StripActivities(batch: seq<Activity>): (ss: seq<ActivitySummary>)
    ensures |ss| == |batch|
    ensures forall i :: 0 <= i < |batch| ==> ss[i] == StripActivity(batch[i])
  {
    seq(|batch|, i requires 0 <= i < |batch| => StripActivity(batch[i]))
  }

  function StripRoutes<K>(batch: seq<Route<K>>): (ss: seq<RouteSummary<K>>)
    ensures |ss| == |batch|
    ensures forall i :: 0 <= i < |batch| ==> ss[i] == StripRoute(batch[i])
  {
    seq(|batch|, i requires 0 <= i < |batch| => StripRoute(batch[i]))
  }

  /** One batch of the activities loop: stop if closed; otherwise store each
      polyline under its key, send the summaries without `map`, and send the
      stats. `key` is `id.toString()` in api.ts and the number itself in
      index.ts. */
  function EmitActivities<K>(c: Connection<K>, batch: seq<Activity>, key: int -> K): (r: Connection<K>)
    ensures !c.socket.live ==> r == c
    ensures c.socket.live ==> && r.cache == Record(c.cache, ActivityEntries(batch, key))
                              && r.socket.live && r.stats == c.stats
                              && r.socket.sent == c.socket.sent + [ActivitiesMessage(StripActivities(batch)), StatsMessage(c.stats)]
  {
    if !c.socket.live then c
    else
      var cache := Record(c.cache, ActivityEntries(batch, key));
      var socket := Send(Send(c.socket, ActivitiesMessage(StripActivities(batch))), StatsMessage(c.stats));
      Connection(socket, cache, c.stats)
  }

  /** One batch of the routes loop, keyed by the route's own id. */
  function EmitRoutes<K>(c: Connection<K>, batch: seq<Route<K>>): (r: Connection<K>)
    ensures !c.socket.live ==> r == c
    ensures c.socket.live ==> && r.cache == Record(c.cache, RouteEntries(batch))
                              && r.socket.live && r.stats == c.stats
                              && r.socket.sent == c.socket.sent + [RoutesMessage(StripRoutes(batch)), StatsMessage(c.stats)]
  {
    if !c.socket.live then c
    else
      var cache := Record(c.cache, RouteEntries(batch));
      var socket := Send(Send(c.socket, RoutesMessage(StripRoutes(batch))), StatsMessage(c.stats));
      Connection(socket, cache, c.stats)
  }

  /** Distinct activity ids give distinct `toString()` keys. */
  lemma TextKeysDistinct(batch: seq<Activity>)
    requires forall a, b :: 0 <= a < b < |batch| ==> batch[a].id != batch[b].id
    ensures forall a, b :: 0 <= a < b < |batch| ==> IntToString(batch[a].id) != IntToString(batch[b].id)
  {
    forall a, b | 0 <= a < b < |batch| ensures IntToString(batch[a].id) != IntToString(batch[b].id) {
      IntToStringInjective(batch[a].id, batch[b].id);
    }
  }

  /** What the browser receives plus what the server keeps is the whole
      batch: each sent summary, joined with the polyline cached under its
      key, is the record it came from (for a batch with distinct keys). */
  lemma EmittedActivitiesRecoverable<K>(c: Connection<K>, batch: seq<Activity>, key: int -> K, i: nat)
    requires c.socket.live
    requires forall a, b :: 0 <= a < b < |batch| ==> key(batch[a].id) != key(batch[b].id)
    requires i < |batch|
    ensures var r := EmitActivities(c, batch, key);
      var summary := r.socket.sent[|c.socket.sent|].activities[i];
      key(summary.id) in r.cache && WithPolyline(summary, r.cache[key(summary.id)]) == batch[i]
  {
    var entries := ActivityEntries(batch, key);
    LastForFromEnd(entries, i);
    RecordLookup(c.cache, entries, key(batch[i].id));
  }

  lemma EmittedRoutesRecoverable<K>(c: Connection<K>, batch: seq<Route<K>>, i: nat)
    requires c.socket.live
    requires forall a, b :: 0 <= a < b < |batch| ==> batch[a].id != batch[b].id
    requires i < |batch|
    ensures var r := EmitRoutes(c, batch);
      var summary := r.socket.sent[|c.socket.sent|].routes[i];
      summary.id in r.cache && RouteWithPolyline(summary, r.cache[summary.id]) == batch[i]
  {
    var entries := RouteEntries(batch);
    LastForFromEnd(entries, i);
    RecordLookup(c.cache, entries, batch[i].id);
  }

  /** The last entry for a key whose later entries all differ is that entry. */
  lemma {:induction false} LastForFromEnd<K>(entries: seq<(K, JsValue)>, i: nat)
    requires i < |entries|
    requires forall j :: i < j < |entries| ==> entries[j].0 != entries[i].0
    ensures LastFor(entries, entries[i].0) == Some(entries[i].1)
    decreases |entries|
  {
    if i < |entries| - 1 {
      LastForFromEnd(entries[..|entries| - 1], i);
    }
  }

  /** After a batch is emitted, a maps request for exactly its records (with
      distinct keys and truthy polylines, as the iterators ensure, and keys
      not cached before) is served from the cache with no upstream request,
      and leaves the cache as it was. */
  lemma EmitThenMapsFromCache<K(!new)>(c: Connection<K>, batch: seq<Activity>, key: int -> K, fetch: K -> RawActivity)
    requires c.socket.live
    requires forall a, b :: 0 <= a < b < |batch| ==> key(batch[a].id) != key(batch[b].id)
    requires forall a :: 0 <= a < |batch| ==> Truthy(batch[a].polyline) && key(batch[a].id) !in c.cache
    ensures var ids := seq(|batch|, i requires 0 <= i < |batch| => key(batch[i].id));
      var r := MapsFor(EmitActivities(c, batch, key).cache, ids, false, fetch);
      r.1 == ActivityEntries(batch, key) && r.2 == 0 && r.0 == c.cache
  {
    var entries := ActivityEntries(batch, key);
    EmittedMapsServedFromCache(c.cache, entries, fetch);
    var ids := seq(|batch|, i requires 0 <= i < |batch| => key(batch[i].id));
    assert ids == IdsOf(entries);
  }

  /** `Object.fromEntries(chunk)`: the pairs set one after the other into an
      empty object. */
  function FromEntries<K>(chunk: seq<(K, JsValue)>): map<K, JsValue> {
    Record(map[], chunk)
  }

  /** An object built from pairs has exactly their ids, each holding the
      polyline of its last pair. */
  lemma {:induction false} FromEntriesLastWins<K>(chunk: seq<(K, JsValue)>, id: K)
    ensures id in FromEntries(chunk) <==> LastFor(chunk, id).Some?
    ensures id in FromEntries(chunk) ==> FromEntries(chunk)[id] == LastFor(chunk, id).value
  {
    RecordLookup(map[], chunk, id);
  }

  /** Two pairs with the same id collapse into one entry, the later one. */
  lemma RepeatedIdCollapses<K>(id: K, early: JsValue, late: JsValue)
    ensures FromEntries([(id, early), (id, late)]) == map[id := late]
  {
    var pairs := [(id, early), (id, late)];
    assert pairs[1..] == [(id, late)] && pairs[1..][1..] == [];
    assert Record(map[], pairs) == Record(map[id := early], [(id, late)]);
    assert Record(map[id := early], [(id, late)]) == map[id := early][id := late];
    assert map[id := early][id := late] == map[id := late];
  }

  /** The `maps` messages for a sequence of chunks. */
  function MapsMessages<K>(chunks: seq<seq<(K, JsValue)>>): (ms: seq<Message<K>>)
    ensures |ms| == |chunks|
    ensures forall k :: 0 <= k < |chunks| ==> ms[k] == MapsMessage(FromEntries(chunks[k]))
  {
    seq(|chunks|, k requires 0 <= k < |chunks| => MapsMessage(FromEntries(chunks[k])))
  }

  /** `sendMaps`: answer every id from the cache or upstream, send the pairs
      in chunks of 50 while the connection is open, then the stats. The
      cache is consumed whether or not the connection is still open. */
  method SendMaps<K(==,!new)>(c: Connection<K>, ids: seq<K>, highDetail: bool, fetch: K -> RawActivity)
    returns (r: Connection<K>, chunks: seq<seq<(K, JsValue)>>, fetches: nat)
    ensures r.cache == MapsFor(c.cache, ids, highDetail, fetch).0
    ensures fetches == MapsFor(c.cache, ids, highDetail, fetch).2
    ensures IsChunking(chunks, MapsFor(c.cache, ids, highDetail, fetch).1, 50)
    ensures !c.socket.live ==> r.socket == c.socket
    ensures c.socket.live ==> r.socket == Socket(true, c.socket.sent + MapsMessages(chunks) + [StatsMessage(c.stats)])
    ensures r.stats == c.stats
  {
    var (cache, pairs, n) := MapsFor(c.cache, ids, highDetail, fetch);
    chunks := Chunk(pairs, 50);
    fetches := n;
    if !c.socket.live {
      r := Connection(c.socket, cache, c.stats);
    } else {
      var messages := MapsMessages(chunks) + [StatsMessage(c.stats)];
      OpenTransmitsAll(c.socket, messages);
      r := Connection(SendAll(c.socket, messages), cache, c.stats);
    }
  }

  // ---------------------------------------------------------------------------
  // /token (api.ts:251-257)
  // ---------------------------------------------------------------------------

  /** `(valid && exchanged) || true`: whatever the callback held, the answer
      is 200 with the success page. */
  function TokenPage(valid: bool, exchanged: bool): (r: (int, string))
    ensures r == (200, "static/auth.html")
  {
    var successful := (valid && exchanged) || true;
    if successful then (200, "static/auth.html") else (400, "static/auth-error.html")
  }
}

=== FILE: StravaClient.dfy ===
/** The pure decisions of the upstream client `server/strava.ts`: how a
    request URL is built, how `{athlete}` placeholders are filled in, when a
    call is retried after a login, how pages are walked, and when the cached
    access token is reused.

    The network, the token file and the browser login are not modelled: their
    outcomes (responses, the athlete id the cache holds before and after a
    login, the token file's contents) are parameters. `encodeURIComponent` is
    the parameter `encode`. */
module StravaClient {

  import opened Wrappers
  import opened JsValues
  import opened Seqs

  // ---------------------------------------------------------------------------
  // Query strings and request URLs (strava.ts:78-90)
  // ---------------------------------------------------------------------------

  const ApiBase: string := "https://www.strava.com/api/v3"

  /** `Object.entries(query)`: the query's string keys in insertion order
      (integer-like keys, which JavaScript lists first, are not modelled). */
  type Query = seq<(string, JsValue)>

  /** `.filter(([, value]) => value)`. */
  predicate KeepEntry(e: (string, JsValue)) {
    Truthy(e.1)
  }

  /** One `key=value` item, each side passed through `encode` after `String(v)`. */
  function RenderEntry(encode: string -> string, e: (string, JsValue)): (item: string)
    ensures '=' in item
  {
    var item := encode(e.0) + "=" + encode(ValueText(e.1));
    assert item[|encode(e.0)|] == '=';
    item
  }

  function RenderAll(encode: string -> string, entries: Query): (items: seq<string>)
    ensures |items| == |entries|
    ensures forall i :: 0 <= i < |entries| ==> items[i] == RenderEntry(encode, entries[i])
  {
    seq(|entries|, i requires 0 <= i < |entries| => RenderEntry(encode, entries[i]))
  }

  /** The query string: only entries with truthy values, in order, rendered
      as `key=value` and joined with `&`. */
  function QueryString(encode: string -> string, query: Query): (qs: string)
    ensures qs == "" <==> forall i :: 0 <= i < |query| ==> !Truthy(query[i].1)
  {
    var kept := Filter(KeepEntry, query);
    var items := RenderAll(encode, kept);
    KeptIffTruthy(query);
    JoinKeepsFirst(items);
    Join(items, '&')
  }

  /** Some entry survives the filter iff some entry has a truthy value. */
  lemma KeptIffTruthy(query: Query)
    ensures |Filter(KeepEntry, query)| == 0 <==> forall i :: 0 <= i < |query| ==> !Truthy(query[i].1)
  {
    if i :| 0 <= i < |query| && Truthy(query[i].1) {
      assert query[i] in query && KeepEntry(query[i]);
    }
    if |Filter(KeepEntry, query)| > 0 {
      assert Filter(KeepEntry, query)[0] in Filter(KeepEntry, query);
    }
  }

  /** A join of items that all contain `=` is empty only when there are no items. */
  lemma JoinKeepsFirst(items: seq<string>)
    requires forall i :: 0 <= i < |items| ==> '=' in items[i]
    ensures Join(items, '&') == "" <==> |items| == 0
  {
    if |items| > 1 {
      assert |Join(items, '&')| >= |items[0]| > 0;
    }
  }

  /** The request URL: base, endpoint, `?` and the query string, so the `?`
      is present even when the query string is empty. */
  function RequestUrl(encode: string -> string, endpoint: string, query: Query): (url: string) {
    ApiBase + endpoint + "?" + QueryString(encode, query)
  }

  /** `encodeURIComponent` escapes the three characters that delimit a URL's
      query, so none of them survives encoding. */
  ghost predicate EscapesDelimiters(encode: string -> string) {
    forall s :: '&' !in encode(s) && '=' !in encode(s) && '?' !in encode(s)
  }

  /** `decode` undoes `encode` (as `decodeURIComponent` undoes
      `encodeURIComponent`). */
  ghost predicate Inverts(decode: string -> string, encode: string -> string) {
    forall s :: decode(encode(s)) == s
  }

  /** Reads one `key=value` item back. */
  function ParseItem(decode: string -> string, item: string): (string, string) {
    var kv := Split(item, '=');
    (decode(kv[0]), decode(Join(kv[1..], '=')))
  }

  /** Reads a query string back into `(key, text)` pairs, the way a server
      parses the URL's search part. */
  function ParseQuery(decode: string -> string, qs: string): seq<(string, string)> {
    if qs == "" then []
    else
      var items := Split(qs, '&');
      seq(|items|, i requires 0 <= i < |items| => ParseItem(decode, items[i]))
  }

  /** The entries a query sends, with values as the text `String(v)` gives. */
  function SentEntries(query: Query): seq<(string, string)> {
    var kept := Filter(KeepEntry, query);
    seq(|kept|, i requires 0 <= i < |kept| => (kept[i].0, ValueText(kept[i].1)))
  }

  /** Parsing the query string gives back exactly the truthy entries, in
      order, keys and values intact. */
  lemma QueryStringRoundTrip(encode: string -> string, decode: string -> string, query: Query)
    requires EscapesDelimiters(encode) && Inverts(decode, encode)
    ensures ParseQuery(decode, QueryString(encode, query)) == SentEntries(query)
  {
    var kept := Filter(KeepEntry, query);
    var items := RenderAll(encode, kept);
    if |kept| > 0 {
      forall i | 0 <= i < |items| ensures '&' !in items[i] && '=' in items[i] {
        RenderedItemParses(encode, decode, kept[i]);
      }
      SplitJoin(items, '&');
      JoinKeepsFirst(items);
      forall i | 0 <= i < |items| ensures ParseItem(decode, items[i]) == (kept[i].0, ValueText(kept[i].1)) {
        RenderedItemParses(encode, decode, kept[i]);
      }
    }
  }

  /** One rendered entry holds no `&`, and reads back as its key and text. */
  lemma RenderedItemParses(encode: string -> string, decode: string -> string, e: (string, JsValue))
    requires EscapesDelimiters(encode) && Inverts(decode, encode)
    ensures '&' !in RenderEntry(encode, e) && '=' in RenderEntry(encode, e)
    ensures ParseItem(decode, RenderEntry(encode, e)) == (e.0, ValueText(e.1))
  {
    var k := encode(e.0);
    var v := encode(ValueText(e.1));
    assert RenderEntry(encode, e) == k + ['='] + v;
    SplitAround(k, '=', v);
    SplitNoSeparator(v, '=');
  }

  /** An entry whose value is falsy (`0`, `NaN`, `''`, `undefined`, ...)
      contributes nothing: the query string is the one without it. */
  lemma FalsyEntryDropped(encode: string -> string, before: Query, key: string, value: JsValue, after: Query)
    requires !Truthy(value)
    ensures QueryString(encode, before + [(key, value)] + after) == QueryString(encode, before + after)
  {
    FilterDropsRejected(KeepEntry, before, (key, value), after);
  }

  /** The URL splits at its only `?` into base-plus-endpoint and query string. */
  lemma RequestUrlParts(encode: string -> string, endpoint: string, query: Query)
    requires EscapesDelimiters(encode) && '?' !in endpoint
    ensures Split(RequestUrl(encode, endpoint, query), '?') == [ApiBase + endpoint, QueryString(encode, query)]
  {
    var kept := Filter(KeepEntry, query);
    var items := RenderAll(encode, kept);
    forall i | 0 <= i < |items| ensures '?' !in items[i] {
      assert items[i] == encode(kept[i].0) + "=" + encode(ValueText(kept[i].1));
    }
    JoinAvoids(items, '&', '?');
    var qs := QueryString(encode, query);
    assert '?' !in ApiBase + endpoint;
    SplitAround(ApiBase + endpoint, '?', qs);
    SplitNoSeparator(qs, '?');
  }

  // ---------------------------------------------------------------------------
  // The requests the client makes (strava.ts:164-171, 205-210, 237-239)
  // ---------------------------------------------------------------------------

  const ActivitiesEndpoint: string := "/athlete/activities"
  const RoutesEndpoint: string := "/athletes/{athlete}/routes"
  const PageSize: int := 200

  /** The query of `getActivitiesPage(i, start, end)`. */
  function ActivitiesPageQuery(i: int, start: Option<int>, end: Option<int>): Query {
    [("per_page", Num(PageSize)), ("page", Num(i)), ("before", Floor(end)), ("after", Floor(start))]
  }

  /** The query of `getRoutesPage(i)`. */
  function RoutesPageQuery(i: int): Query {
    [("per_page", Num(PageSize)), ("page", Num(i))]
  }

  /** `/activities/${id}`. */
  function ActivityEndpoint(id: int): string {
    "/activities/" + IntToString(id)
  }

  /** An optional numeric filter is sent iff it is present and non-zero. */
  function OptionalFilter(key: string, x: Option<int>): Query {
    if x.Some? && x.value != 0 then [(key, Num(x.value))] else []
  }

  /** An activities page always sends `per_page=200`, sends `page` when it is
      non-zero, and sends `before`/`after` only for a present non-zero bound:
      a missing or zero start leaves `after` out entirely. */
  lemma ActivitiesPageSends(i: int, start: Option<int>, end: Option<int>)
    ensures Filter(KeepEntry, ActivitiesPageQuery(i, start, end))
         == [("per_page", Num(PageSize))]
            + (if i != 0 then [("page", Num(i))] else [])
            + OptionalFilter("before", end)
            + OptionalFilter("after", start)
  {
    var q := ActivitiesPageQuery(i, start, end);
    assert q == [q[0]] + [q[1]] + [q[2]] + [q[3]];
    FilterAppend(KeepEntry, [q[0]] + [q[1]] + [q[2]], [q[3]]);
    FilterAppend(KeepEntry, [q[0]] + [q[1]], [q[2]]);
    FilterAppend(KeepEntry, [q[0]], [q[1]]);
    FilterSingle(KeepEntry, q[0]);
    FilterSingle(KeepEntry, q[1]);
    FilterSingle(KeepEntry, q[2]);
    FilterSingle(KeepEntry, q[3]);
  }

  /** A routes page sends `per_page` and `page` and nothing else, for any page
      number the pagination loop uses. */
  lemma RoutesPageSends(i: int)
    requires i >= 1
    ensures Filter(KeepEntry, RoutesPageQuery(i)) == RoutesPageQuery(i)
  {
    FilterAll(KeepEntry, RoutesPageQuery(i));
  }

  /** `getActivity(id)` passes no query, so its URL ends in a bare `?`. */
  lemma ActivityUrl(encode: string -> string, id: int)
    ensures RequestUrl(encode, ActivityEndpoint(id), []) == ApiBase + "/activities/" + IntToString(id) + "?"
  {
  }

  // ---------------------------------------------------------------------------
  // Placeholder interpolation (strava.ts:129-142)
  // ---------------------------------------------------------------------------

  /** JavaScript's `\s`: the ECMAScript white space and line terminators. */
  predicate IsJsSpace(c: char) {
    c == ' ' || c == '\t' || c == '\n' || c == '\U{B}' || c == '\U{C}' || c == '\r'
    || c == '\U{A0}' || c == '\U{1680}' || ('\U{2000}' <= c <= '\U{200A}')
    || c == '\U{2028}' || c == '\U{2029}' || c == '\U{202F}' || c == '\U{205F}'
    || c == '\U{3000}' || c == '\U{FEFF}'
  }

  /** JavaScript's `\w`: ASCII letters, digits and `_`. */
  predicate IsWordChar(c: char) {
    ('a' <= c <= 'z') || ('A' <= c <= 'Z') || ('0' <= c <= '9') || c == '_'
  }

  /** The first index at or after `from` whose character does not satisfy
      `p`, or `|s|` when there is none. */
  function SkipWhile(p: char -> bool, s: string, from: nat): (j: nat)
    requires from <= |s|
    ensures from <= j <= |s|
    ensures forall i :: from <= i < j ==> p(s[i])
    ensures j < |s| ==> !p(s[j])
    decreases |s| - from
  {
    if from == |s| || !p(s[from]) then from else SkipWhile(p, s, from + 1)
  }

  /** A match of `\s*\{(\w+)\s*\}` at the start of the text: the captured key
      and the length of the whole match. */
  datatype Placeholder = Placeholder(key: string, length: nat)

  /** Tries the placeholder pattern at the start of `s`. Each part of the
      pattern is followed by a character the part cannot match, so the greedy
      reading below is the only way the pattern can match. */
  function MatchPlaceholder(s: string): (m: Option<Placeholder>)
    ensures m.Some? ==> 3 <= m.value.length <= |s|
    ensures m.Some? ==> |m.value.key| >= 1 && forall i :: 0 <= i < |m.value.key| ==> IsWordChar(m.value.key[i])
    ensures m.Some? ==> '{' in s[..m.value.length] && s[m.value.length - 1] == '}'
  {
    var lead := SkipWhile(IsJsSpace, s, 0);
    if lead == |s| || s[lead] != '{' then None
    else
      var keyEnd := SkipWhile(IsWordChar, s, lead + 1);
      if keyEnd == lead + 1 then None
      else
        var close := SkipWhile(IsJsSpace, s, keyEnd);
        if close == |s| || s[close] != '}' then None
        else
          assert s[..close + 1][lead] == '{';
          Some(Placeholder(s[lead + 1..keyEnd], close + 1))
  }

  /** Why an endpoint could not be interpolated. */
  datatype InterpolationError =
    | NeedsLogin
      /** The source throws `Error("Unknown interpolation ...")`. */
    | UnknownInterpolation(key: string)

  /** The replacement for one placeholder. `athlete` is the `stravaAthlete`
      field of the cached credentials (`Undefined` when there is none). */
  function Replacement(key: string, athlete: JsValue): (r: Result<string, InterpolationError>)
    ensures r.Ok? <==> key == "athlete" && Truthy(athlete)
    ensures r.Err? && key == "athlete" ==> r.error == NeedsLogin
    ensures key != "athlete" ==> r == Err(UnknownInterpolation(key))
  {
    // `hasOwnProperty` on an object literal: only `athlete` is a key of its own.
    if key == "athlete" then
      if Truthy(athlete) then Ok(ValueText(athlete)) else Err(NeedsLogin)
    else Err(UnknownInterpolation(key))
  }

  /** `endpoint.replace(/\s*\{(\w+)\s*\}/g, ...)`: scans left to right,
      replacing each match; the first replacement that throws ends the call
      with its error. */
  function Interpolate(endpoint: string, athlete: JsValue): (r: Result<string, InterpolationError>)
    ensures r.Err? && r.error.UnknownInterpolation? ==> r.error.key != "athlete" && |r.error.key| >= 1
    ensures r == Err(NeedsLogin) ==> !Truthy(athlete)
    decreases |endpoint|
  {
    if |endpoint| == 0 then Ok("")
    else
      match MatchPlaceholder(endpoint)
      case None =>
        var rest :- Interpolate(endpoint[1..], athlete);
        Ok([endpoint[0]] + rest)
      case Some(m) =>
        var text :- Replacement(m.key, athlete);
        var rest :- Interpolate(endpoint[m.length..], athlete);
        Ok(text + rest)
  }

  /** An endpoint template: literal text and `{key}` placeholders. */
  datatype Segment = Literal(text: string) | Hole(key: string)

  /** Literal text of a URL path: no `{` and no white space. */
  predicate PlainText(x: string) {
    forall i :: 0 <= i < |x| ==> x[i] != '{' && !IsJsSpace(x[i])
  }

  predicate IsWord(k: string) {
    |k| >= 1 && forall i :: 0 <= i < |k| ==> IsWordChar(k[i])
  }

  predicate SegmentOk(seg: Segment) {
    match seg
    case Literal(x) => PlainText(x)
    case Hole(k) => IsWord(k)
  }

  function RenderSegment(seg: Segment): string {
    match seg
    case Literal(x) => x
    case Hole(k) => "{" + k + "}"
  }

  /** The endpoint text a template stands for. */
  function Render(t: seq<Segment>): string {
    if |t| == 0 then "" else RenderSegment(t[0]) + Render(t[1..])
  }

  /** What interpolation should produce, segment by segment: literals are
      kept and each placeholder is replaced, the first failure winning. */
  function Fill(t: seq<Segment>, athlete: JsValue): Result<string, InterpolationError> {
    if |t| == 0 then Ok("")
    else
      var head :- match t[0] case Literal(x) => Ok(x) case Hole(k) => Replacement(k, athlete);
      var rest :- Fill(t[1..], athlete);
      Ok(head + rest)
  }

  /** `text` in front of an interpolation outcome. */
  function Prepend(text: string, r: Result<string, InterpolationError>): Result<string, InterpolationError> {
    if r.Ok? then Ok(text + r.value) else r
  }

  /** The scan stops at the first character that fails `p`. */
  lemma {:induction false} SkipWhileStops(p: char -> bool, s: string, from: nat, to: nat)
    requires from <= to < |s|
    requires forall i :: from <= i < to ==> p(s[i])
    requires !p(s[to])
    ensures SkipWhile(p, s, from) == to
    decreases |s| - from
  {
    if from < to {
      SkipWhileStops(p, s, from + 1, to);
    }
  }

  /** Where no placeholder starts, the first character is copied. */
  lemma InterpolateStep(s: string, athlete: JsValue)
    requires |s| > 0 && MatchPlaceholder(s) == None
    ensures Interpolate(s, athlete) == Prepend([s[0]], Interpolate(s[1..], athlete))
  {
  }

  /** No placeholder starts at a character that is neither `{` nor white space. */
  lemma NoMatchAtPlain(s: string)
    requires |s| > 0 && s[0] != '{' && !IsJsSpace(s[0])
    ensures MatchPlaceholder(s) == None
  {
    assert SkipWhile(IsJsSpace, s, 0) == 0;
  }

  lemma PrependTwice(a: string, b: string, r: Result<string, InterpolationError>)
    ensures Prepend(a, Prepend(b, r)) == Prepend(a + b, r)
  {
    if r.Ok? {
      assert a + (b + r.value) == (a + b) + r.value;
    }
  }

  /** Literal text is copied through unchanged. */
  lemma {:induction false} InterpolateLiteral(x: string, rest: string, athlete: JsValue)
    requires PlainText(x)
    ensures Interpolate(x + rest, athlete) == Prepend(x, Interpolate(rest, athlete))
  {
    if |x| == 0 {
      assert x + rest == rest;
      if Interpolate(rest, athlete).Ok? {
        assert x + Interpolate(rest, athlete).value == Interpolate(rest, athlete).value;
      }
    } else {
      var s := x + rest;
      var tail := x[1..];
      assert s[0] == x[0] && s[1..] == tail + rest;
      NoMatchAtPlain(s);
      InterpolateStep(s, athlete);
      InterpolateLiteral(tail, rest, athlete);
      PrependTwice([x[0]], tail, Interpolate(rest, athlete));
      assert [x[0]] + tail == x;
    }
  }

  /** Text without a `{` comes back unchanged, so re-interpolating an
      endpoint whose placeholders have all been filled is a no-op. */
  lemma {:induction false} InterpolateWithoutBrace(s: string, athlete: JsValue)
    requires '{' !in s
    ensures Interpolate(s, athlete) == Ok(s)
  {
    if |s| > 0 {
      NoMatchWithoutBrace(s);
      InterpolateStep(s, athlete);
      BraceFreeTail(s);
      InterpolateWithoutBrace(s[1..], athlete);
      assert [s[0]] + s[1..] == s;
    }
  }

  /** Without a `{` there is nothing for the pattern to match. */
  lemma NoMatchWithoutBrace(s: string)
    requires '{' !in s
    ensures MatchPlaceholder(s) == None
  {
    var lead := SkipWhile(IsJsSpace, s, 0);
    if lead < |s| {
      assert s[lead] in s;
    }
  }

  lemma BraceFreeTail(s: string)
    requires |s| > 0 && '{' !in s
    ensures '{' !in s[1..]
  {
    forall i | 0 <= i < |s[1..]| ensures s[1..][i] != '{' {
      assert s[1..][i] == s[i + 1];
    }
  }

  /** A placeholder written without white space matches exactly itself. */
  lemma MatchHole(k: string, rest: string)
    requires IsWord(k)
    ensures MatchPlaceholder("{" + k + "}" + rest) == Some(Placeholder(k, |k| + 2))
  {
    var s := "{" + k + "}" + rest;
    HoleShape(k, rest);
    assert SkipWhile(IsJsSpace, s, 0) == 0;
    SkipWhileStops(IsWordChar, s, 1, |k| + 1);
    assert SkipWhile(IsJsSpace, s, |k| + 1) == |k| + 1;
  }

  /** Where the braces and the key sit in `{k}rest`. */
  lemma HoleShape(k: string, rest: string)
    requires IsWord(k)
    ensures var s := "{" + k + "}" + rest;
      && |s| == |k| + 2 + |rest| && s[0] == '{' && s[|k| + 1] == '}' && s[1..|k| + 1] == k
      && forall i :: 1 <= i < |k| + 1 ==> IsWordChar(s[i])
  {
    var s := "{" + k + "}" + rest;
    forall i | 1 <= i < |k| + 1 ensures IsWordChar(s[i]) {
      assert s[i] == k[i - 1];
    }
    assert s[1..|k| + 1] == k;
  }

  /** Interpolating a rendered template gives what `Fill` says. */
  lemma {:induction false} InterpolateRender(t: seq<Segment>, athlete: JsValue)
    requires forall i :: 0 <= i < |t| ==> SegmentOk(t[i])
    ensures Interpolate(Render(t), athlete) == Fill(t, athlete)
  {
    if |t| > 0 {
      InterpolateRender(t[1..], athlete);
      var rest := Render(t[1..]);
      assert SegmentOk(t[0]);
      match t[0]
      case Literal(x) =>
        InterpolateLiteral(x, rest, athlete);
      case Hole(k) =>
        InterpolateHole(k, rest, athlete);
    }
  }

  /** Decimal text never holds a `{`. */
  lemma NoBraceInNumber(n: int)
    ensures '{' !in IntToString(n)
  {
    var s := IntToString(n);
    var digits := NatToString(if n < 0 then -n else n);
    assert forall i :: 0 <= i < |digits| ==> IsDigit(digits[i]);
    assert s == digits || s == "-" + digits;
  }

  /** With a numeric athlete id, filling a template leaves no `{` behind. */
  lemma {:induction false} FillLeavesNoBrace(t: seq<Segment>, id: int)
    requires forall i :: 0 <= i < |t| ==> SegmentOk(t[i])
    requires Fill(t, Num(id)).Ok?
    ensures '{' !in Fill(t, Num(id)).value
  {
    if |t| > 0 {
      assert SegmentOk(t[0]);
      FillLeavesNoBrace(t[1..], id);
      NoBraceInNumber(id);
    }
  }

  /** The retry path interpolates the already-interpolated endpoint again;
      for a well-formed template and a numeric athlete id this second pass
      changes nothing, whatever the cache holds by then. */
  lemma ReinterpolationIsNoOp(t: seq<Segment>, id: int, later: JsValue)
    requires forall i :: 0 <= i < |t| ==> SegmentOk(t[i])
    requires Interpolate(Render(t), Num(id)).Ok?
    ensures Interpolate(Interpolate(Render(t), Num(id)).value, later) == Interpolate(Render(t), Num(id))
  {
    InterpolateRender(t, Num(id));
    FillLeavesNoBrace(t, id);
    InterpolateWithoutBrace(Fill(t, Num(id)).value, later);
  }

  /** A placeholder is replaced, and the scan goes on after it. */
  lemma InterpolateHole(k: string, rest: string, athlete: JsValue)
    requires IsWord(k)
    ensures Interpolate("{" + k + "}" + rest, athlete)
         == if Replacement(k, athlete).Ok? then Prepend(Replacement(k, athlete).value, Interpolate(rest, athlete))
            else Err(Replacement(k, athlete).error)
  {
    var s := "{" + k + "}" + rest;
    MatchHole(k, rest);
    assert s[|k| + 2..] == rest;
  }

  /** One placeholder between two stretches of literal text. */
  lemma InterpolateAround(a: string, k: string, b: string, athlete: JsValue)
    requires PlainText(a) && IsWord(k) && PlainText(b)
    ensures Interpolate(a + "{" + k + "}" + b, athlete)
         == if Replacement(k, athlete).Ok? then Ok(a + Replacement(k, athlete).value + b)
            else Err(Replacement(k, athlete).error)
  {
    var h := "{" + k + "}" + b;
    assert a + "{" + k + "}" + b == a + h;
    assert '{' !in b by {
      assert forall i :: 0 <= i < |b| ==> b[i] != '{';
    }
    InterpolateWithoutBrace(b, athlete);
    InterpolateHole(k, b, athlete);
    InterpolateLiteral(a, h, athlete);
    PrependReplaced(a, Interpolate(h, athlete), Replacement(k, athlete), b);
  }

  /** Literal text in front of a replaced placeholder and its literal tail. */
  lemma PrependReplaced(a: string, r: Result<string, InterpolationError>, repl: Result<string, InterpolationError>, b: string)
    requires r == if repl.Ok? then Prepend(repl.value, Ok(b)) else Err(repl.error)
    ensures Prepend(a, r) == if repl.Ok? then Ok(a + repl.value + b) else Err(repl.error)
  {
    if repl.Ok? {
      assert a + (repl.value + b) == a + repl.value + b;
    }
  }

  /** The routes endpoint is one `{athlete}` placeholder between literal text. */
  lemma RoutesEndpointShape()
    ensures "/athletes/" + "{" + "athlete" + "}" + "/routes" == RoutesEndpoint
    ensures PlainText("/athletes/") && IsWord("athlete") && PlainText("/routes")
  {
  }

  /** `{athlete}` in the routes endpoint becomes the cached id, or asks for a
      login when no (or a zero) id is cached. */
  lemma RoutesEndpointInterpolation(athlete: JsValue)
    ensures Truthy(athlete) ==> Interpolate(RoutesEndpoint, athlete) == Ok("/athletes/" + ValueText(athlete) + "/routes")
    ensures !Truthy(athlete) ==> Interpolate(RoutesEndpoint, athlete) == Err(NeedsLogin)
  {
    RoutesEndpointShape();
    InterpolateAround("/athletes/", "athlete", "/routes", athlete);
  }

  /** A key other than `athlete` is an error naming the key. */
  lemma UnknownKeyRejected(k: string, athlete: JsValue)
    requires IsWord(k) && k != "athlete"
    ensures Interpolate("{" + k + "}", athlete) == Err(UnknownInterpolation(k))
  {
    MatchHole(k, "");
    assert "{" + k + "}" + "" == "{" + k + "}";
  }

  // ---------------------------------------------------------------------------
  // One API call with its login retry (strava.ts:144-162)
  // ---------------------------------------------------------------------------

  /** An upstream response: its status and its JSON body. */
  datatype Response<T> = Response(status: int, body: T)

  /** Why a `stravaAPI` call threw. */
  datatype ApiError =
    | Interpolation(cause: InterpolationError)
      /** The `TypeError` of `getStravaToken()` reading the refresh token of
          a `null` cache: no credentials in memory or on disk. */
    | NoCredentials

  /** What one `stravaAPI` call did: the URLs it fetched, how many browser
      logins it started, and the body it returned or the error it threw. */
  datatype ApiRun<T> = ApiRun(urls: seq<string>, logins: nat, outcome: Result<T, ApiError>)

  /** `stravaAPI(endpoint, query)`. `athlete` and `athleteAfterLogin` are the
      cached athlete id before and after the browser login; `firstToken` is
      what the `getStravaToken()` awaited by the first request gives;
      `first` and `second` are the responses the two possible fetches
      receive. A started login is taken to complete. */
  function StravaApi<T>(encode: string -> string, endpoint: string, query: Query,
                        athlete: JsValue, athleteAfterLogin: JsValue, firstToken: TokenOutcome,
                        first: Response<T>, second: Response<T>): (run: ApiRun<T>)
    ensures run.logins <= 1 && |run.urls| <= 2
    ensures run.logins == 1 <==>
      Interpolate(endpoint, athlete) == Err(NeedsLogin)
      || (Interpolate(endpoint, athlete).Ok? && !firstToken.Crashed? && first.status == 401)
    ensures run.outcome == Err(NoCredentials) <==> Interpolate(endpoint, athlete).Ok? && firstToken.Crashed?
    ensures run.outcome == Err(NoCredentials) ==> run.urls == [] && run.logins == 0
    ensures run.logins == 0 && run.outcome.Ok? ==> run.outcome == Ok(first.body) && first.status != 401
    ensures |run.urls| == 2 ==> first.status == 401 && run.outcome == Ok(second.body)
    ensures run.outcome.Err? ==> |run.urls| <= 1
  {
    var attempt := Interpolate(endpoint, athlete);
    if attempt.Err? && attempt.error.UnknownInterpolation? then
      // Any error but `NeedsLogin` is rethrown.
      ApiRun([], 0, Err(Interpolation(attempt.error)))
    else if attempt.Ok? && firstToken.Crashed? then
      // The token is awaited before the fetch starts; its error is rethrown.
      ApiRun([], 0, Err(NoCredentials))
    else
      var firstUrls := if attempt.Ok? then [RequestUrl(encode, attempt.value, query)] else [];
      var needsLogin := attempt.Err? || first.status == 401;
      if !needsLogin then ApiRun(firstUrls, 0, Ok(first.body))
      else
        // After the login the endpoint is interpolated once into `endpoint`
        // and then once more for the request.
        var again := Interpolate(endpoint, athleteAfterLogin);
        if again.Err? then ApiRun(firstUrls, 1, Err(Interpolation(again.error)))
        else
          var twice := Interpolate(again.value, athleteAfterLogin);
          if twice.Err? then ApiRun(firstUrls, 1, Err(Interpolation(twice.error)))
          else ApiRun(firstUrls + [RequestUrl(encode, twice.value, query)], 1, Ok(second.body))
  }

  /** With no credentials in memory or on disk, a call whose endpoint needs
      no athlete id throws before any request and starts no login. */
  lemma MissingCredentialsThrowWithoutLogin<T>(encode: string -> string, endpoint: string, query: Query,
                                              athlete: JsValue, athleteAfterLogin: JsValue, response: TokenResponse,
                                              first: Response<T>, second: Response<T>)
    requires '{' !in endpoint
    ensures StravaApi(encode, endpoint, query, athlete, athleteAfterLogin, GetStravaToken(false, None, None, response), first, second)
         == ApiRun([], 0, Err(NoCredentials))
  {
    InterpolateWithoutBrace(endpoint, athlete);
  }

  /** The retry is final: after a 401 the second response is returned
      whatever its status, even another 401, and no second login starts. An
      endpoint without placeholders is fetched twice at the same URL. */
  lemma RetryIsFinal<T>(encode: string -> string, endpoint: string, query: Query,
                        athlete: JsValue, athleteAfterLogin: JsValue, firstToken: TokenOutcome,
                        first: Response<T>, second: Response<T>)
    requires '{' !in endpoint && !firstToken.Crashed? && first.status == 401
    ensures var run := StravaApi(encode, endpoint, query, athlete, athleteAfterLogin, firstToken, first, second);
      && run.urls == [RequestUrl(encode, endpoint, query), RequestUrl(encode, endpoint, query)]
      && run.logins == 1
      && run.outcome == Ok(second.body)
  {
    InterpolateWithoutBrace(endpoint, athlete);
    InterpolateWithoutBrace(endpoint, athleteAfterLogin);
  }

  /** A call whose first response is not a 401 makes exactly one request and
      returns that response's body, error statuses included. */
  lemma NoRetryWithoutUnauthorized<T>(encode: string -> string, endpoint: string, query: Query,
                                      athlete: JsValue, athleteAfterLogin: JsValue, firstToken: TokenOutcome,
                                      first: Response<T>, second: Response<T>)
    requires '{' !in endpoint && !firstToken.Crashed? && first.status != 401
    ensures StravaApi(encode, endpoint, query, athlete, athleteAfterLogin, firstToken, first, second)
         == ApiRun([RequestUrl(encode, endpoint, query)], 0, Ok(first.body))
  {
    InterpolateWithoutBrace(endpoint, athlete);
  }

  /** When interpolation first asks for a login, no request is made until
      after the login, and the endpoint is then filled in with what the login
      stored. */
  lemma LoginBeforeFirstRequest<T>(encode: string -> string, endpoint: string, query: Query,
                                   athlete: JsValue, athleteAfterLogin: JsValue, firstToken: TokenOutcome,
                                   filled: string, first: Response<T>, second: Response<T>)
    requires Interpolate(endpoint, athlete) == Err(NeedsLogin)
    requires Interpolate(endpoint, athleteAfterLogin) == Ok(filled) && '{' !in filled
    ensures StravaApi(encode, endpoint, query, athlete, athleteAfterLogin, firstToken, first, second)
         == ApiRun([RequestUrl(encode, filled, query)], 1, Ok(second.body))
  {
    InterpolateWithoutBrace(filled, athleteAfterLogin);
  }

  // ---------------------------------------------------------------------------
  // Pagination (strava.ts:176-203, 215-225)
  // ---------------------------------------------------------------------------

  /** A page body: a JSON array, or anything else (an error object), whose
      `length` is `undefined`. */
  datatype Page<T> = Items(items: seq<T>) | Unlisted

  /** What the upstream returns for page `i` (counting from 1): the pages
      listed in `pages`, and empty pages after them. */
  function PageAt<T>(pages: seq<Page<T>>, i: int): Page<T> {
    if 1 <= i <= |pages| then pages[i - 1] else Items([])
  }

  /** When the page loop stops: `!page.length` here, `page.length === 0` in
      the older client. */
  datatype StopRule = StopOnFalsyLength | StopOnZeroLength

  predicate Stops<T>(rule: StopRule, p: Page<T>) {
    match rule
    case StopOnFalsyLength => p.Unlisted? || |p.items| == 0
    case StopOnZeroLength => p.Items? && |p.items| == 0
  }

  /** The pages a loop yields, as a plain recursive definition: the listed
      pages up to the first one the rule stops at. */
  function PagesUntilStop<T>(rule: StopRule, pages: seq<Page<T>>): seq<Page<T>> {
    if |pages| == 0 || Stops(rule, pages[0]) then []
    else [pages[0]] + PagesUntilStop(rule, pages[1..])
  }

  lemma {:induction false} PagesUntilStopAt<T>(rule: StopRule, pages: seq<Page<T>>, n: nat)
    requires n <= |pages| && forall k :: 0 <= k < n ==> !Stops(rule, pages[k])
    ensures PagesUntilStop(rule, pages) == pages[..n] + PagesUntilStop(rule, pages[n..])
  {
    if n > 0 {
      PagesUntilStopAt(rule, pages[1..], n - 1);
      assert pages[1..][n - 1..] == pages[n..];
      assert [pages[0]] + pages[1..][..n - 1] == pages[..n];
    }
  }

  /** The page loop: requests pages 1, 2, 3, ... one after another and yields
      each until the first page the rule stops at, which is not yielded. */
  method Paginate<T>(rule: StopRule, pages: seq<Page<T>>) returns (yielded: seq<Page<T>>, requested: seq<int>)
    ensures yielded == PagesUntilStop(rule, pages)
    ensures requested == seq(|yielded| + 1, j => j + 1)
    ensures forall k :: 0 <= k < |yielded| ==> yielded[k] == PageAt(pages, k + 1) && !Stops(rule, yielded[k])
    ensures Stops(rule, PageAt(pages, |yielded| + 1))
  {
    var i := 1;
    yielded := [];
    requested := [];
    while true
      invariant 1 <= i <= |pages| + 1
      invariant yielded == pages[..i - 1]
      invariant requested == seq(i - 1, j => j + 1)
      invariant forall k :: 0 <= k < i - 1 ==> !Stops(rule, pages[k])
      decreases |pages| + 1 - i
    {
      var page := PageAt(pages, i);
      requested := requested + [i];
      if Stops(rule, page) {
        break;
      }
      yielded := yielded + [page];
      i := i + 1;
    }
    PagesUntilStopAt(rule, pages, i - 1);
    assert i - 1 < |pages| ==> Stops(rule, pages[i - 1]);
  }

  /** `yield* page` for each yielded page: the items in order, or the
      `TypeError` of spreading a body that is not an array. */
  function Concat<T>(pages: seq<Page<T>>): Result<seq<T>, string> {
    if |pages| == 0 then Ok([])
    else if pages[0].Unlisted? then Err("TypeError: page is not iterable")
    else
      var rest :- Concat(pages[1..]);
      Ok(pages[0].items + rest)
  }

  function ItemsOf<T>(pages: seq<Page<T>>): seq<seq<T>>
    requires forall k :: 0 <= k < |pages| ==> pages[k].Items?
  {
    seq(|pages|, k requires 0 <= k < |pages| => pages[k].items)
  }

  /** `getStravaActivities`: the items of every yielded page, in order. The
      loop never yields a body that is not an array, so this cannot fail. */
  lemma {:induction false} ActivitiesAreConcatenatedPages<T>(pages: seq<Page<T>>)
    ensures var yielded := PagesUntilStop(StopOnFalsyLength, pages);
      && (forall k :: 0 <= k < |yielded| ==> yielded[k].Items? && |yielded[k].items| > 0)
      && Concat(yielded) == Ok(Flatten(ItemsOf(yielded)))
  {
    if |pages| > 0 && !Stops(StopOnFalsyLength, pages[0]) {
      ActivitiesAreConcatenatedPages(pages[1..]);
      var yielded := PagesUntilStop(StopOnFalsyLength, pages);
      assert yielded[1..] == PagesUntilStop(StopOnFalsyLength, pages[1..]);
      assert ItemsOf(yielded)[1..] == ItemsOf(yielded[1..]);
    }
  }

  /** When every listed page is a non-empty array, every one of them is
      yielded, and the activities are all their items. */
  lemma {:induction false} AllListedPagesYielded<T>(pages: seq<Page<T>>)
    requires forall k :: 0 <= k < |pages| ==> pages[k].Items? && |pages[k].items| > 0
    ensures PagesUntilStop(StopOnFalsyLength, pages) == pages
  {
    if |pages| > 0 {
      AllListedPagesYielded(pages[1..]);
      assert [pages[0]] + pages[1..] == pages;
    }
  }

  // ---------------------------------------------------------------------------
  // The access token (strava.ts:37-76)
  // ---------------------------------------------------------------------------

  /** The cached credentials (`strava-auth.json`). */
  datatype AuthCache = AuthCache(refreshToken: JsValue, athlete: JsValue, accessToken: JsValue)

  /** The token endpoint's answer; `athlete` is the id of `data.athlete` when
      the answer includes one. */
  datatype TokenResponse = TokenResponse(status: int, athlete: Option<int>, accessToken: JsValue, refreshToken: JsValue)

  datatype TokenOutcome =
    | UseCached(token: JsValue)
      /** `process.exit(1)` after a failed code exchange. */
    | Exited
      /** A `TypeError` from using a `null` cache; `exchanged` says whether
          the token endpoint was called first. */
    | Crashed(exchanged: bool)
    | Renewed(cache: AuthCache, token: JsValue)

  /** `getStravaToken(tokens)`. `hasCode` says whether `tokens` (an
      authorization code) is given, `memory` is the module-level cache, `disk`
      what the token file parses to, and `response` the token endpoint's
      answer. */
  function GetStravaToken(hasCode: bool, memory: Option<AuthCache>, disk: Option<AuthCache>,
                          response: TokenResponse): (r: TokenOutcome)
    ensures !hasCode && memory.Some? && Truthy(memory.value.accessToken) ==> r == UseCached(memory.value.accessToken)
    ensures r.UseCached? ==> !hasCode
    ensures r.Exited? <==> hasCode && response.status >= 400
    ensures r.Renewed? ==> r.token == response.accessToken && r.cache.accessToken == response.accessToken
    ensures r.Renewed? ==> r.cache.refreshToken == response.refreshToken
    ensures r.Renewed? && response.athlete.None? ==>
      if memory.Some? then r.cache.athlete == memory.value.athlete else disk.Some? && r.cache.athlete == disk.value.athlete
    ensures r.Renewed? && response.athlete.Some? ==> r.cache.athlete == Num(response.athlete.value)
  {
    if !hasCode && memory.Some? && Truthy(memory.value.accessToken) then UseCached(memory.value.accessToken)
    else
      // `getCache()`: the module-level cache when set, otherwise the file.
      var cache := if memory.Some? then memory else disk;
      if cache.None? && !hasCode then Crashed(false)
      else if response.status >= 400 && hasCode then Exited
      else if cache.None? then Crashed(true)
      else
        var c := cache.value;
        var withAthlete := if response.athlete.Some? then c.(athlete := Num(response.athlete.value)) else c;
        var renewed := withAthlete.(accessToken := response.accessToken, refreshToken := response.refreshToken);
        Renewed(renewed, renewed.accessToken)
  }

  /** After a renewal that yields a usable token, the next call without a code
      is served from the cache without contacting the token endpoint. */
  lemma RenewedTokenIsReused(hasCode: bool, memory: Option<AuthCache>, disk: Option<AuthCache>,
                             response: TokenResponse, disk2: Option<AuthCache>, response2: TokenResponse)
    requires GetStravaToken(hasCode, memory, disk, response).Renewed?
    requires Truthy(response.accessToken)
    ensures GetStravaToken(false, Some(GetStravaToken(hasCode, memory, disk, response).cache), disk2, response2)
         == UseCached(response.accessToken)
  {
  }

  /** A refresh (no code) that the token endpoint rejects does not end the
      process: the cache takes whatever the answer holds. */
  lemma FailedRefreshDoesNotExit(memory: AuthCache, disk: Option<AuthCache>, response: TokenResponse)
    requires !Truthy(memory.accessToken) && response.status >= 400
    ensures GetStravaToken(false, Some(memory), disk, response).Renewed?
  {
  }
}

=== FILE: StravaLegacy.dfy ===
/** The older upstream client `server/strava.js`: the same request shape as
    `server/strava.ts` but without the truthiness filter on query entries,
    without placeholders, with a retry on 401 only, and a page loop that
    stops only at a page whose `length` is exactly 0. */
module StravaLegacy {

  import opened Wrappers
  import opened JsValues
  import opened Seqs
  import opened StravaClient

  /** The query string with every entry, falsy values included (strava.js:68-70). */
  function LegacyQueryString(encode: string -> string, query: Query): (qs: string)
    ensures qs == "" <==> |query| == 0
  {
    var items := RenderAll(encode, query);
    JoinKeepsFirst(items);
    Join(items, '&')
  }

  function LegacyRequestUrl(encode: string -> string, endpoint: string, query: Query): string {
    ApiBase + endpoint + "?" + LegacyQueryString(encode, query)
  }

  /** Every entry, with values as the text `String(v)` gives. */
  function AllEntries(query: Query): seq<(string, string)> {
    seq(|query|, i requires 0 <= i < |query| => (query[i].0, ValueText(query[i].1)))
  }

  /** Parsing the older query string gives back every entry in order. */
  lemma LegacyQueryStringRoundTrip(encode: string -> string, decode: string -> string, query: Query)
    requires EscapesDelimiters(encode) && Inverts(decode, encode)
    ensures ParseQuery(decode, LegacyQueryString(encode, query)) == AllEntries(query)
  {
    var items := RenderAll(encode, query);
    if |query| > 0 {
      forall i | 0 <= i < |items| ensures '&' !in items[i] {
        assert items[i] == encode(query[i].0) + "=" + encode(ValueText(query[i].1));
      }
      SplitJoin(items, '&');
      forall i | 0 <= i < |items| ensures ParseItem(decode, items[i]) == (query[i].0, ValueText(query[i].1)) {
        var k := encode(query[i].0);
        var v := encode(ValueText(query[i].1));
        assert items[i] == k + ['='] + v;
        SplitAround(k, '=', v);
        SplitNoSeparator(v, '=');
        assert Split(items[i], '=') == [k, v];
      }
    }
  }

  /** The two builders agree exactly when nothing would have been filtered. */
  lemma LegacyAgreesOnTruthyQueries(encode: string -> string, query: Query)
    requires forall i :: 0 <= i < |query| ==> Truthy(query[i].1)
    ensures LegacyQueryString(encode, query) == QueryString(encode, query)
  {
    FilterAll(KeepEntry, query);
  }

  /** A zero is sent as `0` here, where the newer client drops it. */
  lemma LegacySendsZero(encode: string -> string, key: string)
    ensures LegacyQueryString(encode, [(key, Num(0))]) == encode(key) + "=" + encode("0")
    ensures QueryString(encode, [(key, Num(0))]) == ""
  {
    assert IntToString(0) == "0";
  }

  /** `getPage(i)`: `per_page=200` and `page=i`, and nothing else (strava.js:125-130). */
  function GetPageQuery(i: int): Query {
    [("per_page", Num(PageSize)), ("page", Num(i))]
  }

  lemma GetPageQueryText(encode: string -> string, i: int)
    ensures LegacyQueryString(encode, GetPageQuery(i))
         == encode("per_page") + "=" + encode("200") + "&" + encode("page") + "=" + encode(IntToString(i))
  {
    assert IntToString(200) == "200" by {
      assert NatToString(200) == NatToString(20) + "0";
      assert NatToString(20) == NatToString(2) + "0";
    }
    var q := GetPageQuery(i);
    var items := RenderAll(encode, q);
    assert ValueText(q[0].1) == "200";
    assert items[0] == encode("per_page") + "=" + encode("200");
    assert items[1] == encode("page") + "=" + encode(IntToString(i));
    assert items[1..] == [items[1]];
    assert Join(items, '&') == items[0] + "&" + items[1];
  }

  /** Whether `getStravaToken()` of strava.js, called without a code,
      throws: with no truthy cached access token it logs
      `cache.stravaRefreshToken.substring(0, 6)`, a `TypeError` unless the
      refresh token (from the environment, the token file, or the last
      refresh) is a string. */
  predicate LegacyTokenThrows(accessToken: JsValue, refreshToken: JsValue) {
    !Truthy(accessToken) && !refreshToken.Str?
  }

  /** `stravaAPI` of strava.js: one request, and after a 401 one login and one
      more request to the same URL, whose body is returned whatever its
      status. `tokenThrows` says whether the `getStravaToken()` awaited by the
      first request throws; nothing catches that error. A started login is
      taken to complete. */
  function LegacyStravaApi<T>(encode: string -> string, endpoint: string, query: Query, tokenThrows: bool,
                              first: Response<T>, second: Response<T>): (run: ApiRun<T>)
    ensures tokenThrows ==> run == ApiRun([], 0, Err(NoCredentials))
    ensures run.logins == 1 <==> !tokenThrows && first.status == 401
    ensures run.logins <= 1
    ensures !tokenThrows ==>
      run.urls == if first.status == 401 then [LegacyRequestUrl(encode, endpoint, query), LegacyRequestUrl(encode, endpoint, query)]
                  else [LegacyRequestUrl(encode, endpoint, query)]
    ensures !tokenThrows ==> run.outcome == Ok(if first.status == 401 then second.body else first.body)
  {
    var url := LegacyRequestUrl(encode, endpoint, query);
    if tokenThrows then ApiRun([], 0, Err(NoCredentials))
    else if first.status == 401 then ApiRun([url, url], 1, Ok(second.body))
    else ApiRun([url], 0, Ok(first.body))
  }

  /** With no access token and no refresh token (`STRAVA_REFRESH_TOKEN`
      unset and none in the token file), a call rejects before any request
      and starts no login. */
  lemma LegacyMissingRefreshTokenThrows<T>(encode: string -> string, endpoint: string, query: Query,
                                           accessToken: JsValue, first: Response<T>, second: Response<T>)
    requires !Truthy(accessToken)
    ensures LegacyStravaApi(encode, endpoint, query, LegacyTokenThrows(accessToken, Undefined), first, second)
         == ApiRun([], 0, Err(NoCredentials))
  {
  }

  /** On an endpoint without placeholders, when both clients' first token
      fetch succeeds or fails alike, the two make the same decisions about
      retrying, and differ only in the URLs' query strings. */
  lemma LegacyRetryMatchesNewer<T>(encode: string -> string, endpoint: string, query: Query, tokenThrows: bool,
                                   athlete: JsValue, athleteAfterLogin: JsValue, firstToken: TokenOutcome,
                                   first: Response<T>, second: Response<T>)
    requires '{' !in endpoint && tokenThrows == firstToken.Crashed?
    ensures var legacy := LegacyStravaApi(encode, endpoint, query, tokenThrows, first, second);
      var newer := StravaApi(encode, endpoint, query, athlete, athleteAfterLogin, firstToken, first, second);
      legacy.logins == newer.logins && legacy.outcome == newer.outcome && |legacy.urls| == |newer.urls|
  {
    if tokenThrows {
      InterpolateWithoutBrace(endpoint, athlete);
    } else if first.status == 401 {
      RetryIsFinal(encode, endpoint, query, athlete, athleteAfterLogin, firstToken, first, second);
    } else {
      NoRetryWithoutUnauthorized(encode, endpoint, query, athlete, athleteAfterLogin, firstToken, first, second);
    }
  }

  /** `getStravaActivityPages` yields an error body (no `length`) and goes on,
      and `getStravaActivities` then fails spreading it; the newer loop stops
      at such a body and yields nothing. */
  lemma ErrorBodyHandling<T>(rest: seq<Page<T>>)
    ensures PagesUntilStop(StopOnZeroLength, [Unlisted] + rest)[0] == Unlisted
    ensures Concat(PagesUntilStop(StopOnZeroLength, [Unlisted] + rest)).Err?
    ensures PagesUntilStop(StopOnFalsyLength, [Unlisted] + rest) == []
  {
    var pages := [Unlisted] + rest;
    assert pages[0] == Unlisted;
  }

  /** On pages that are all arrays the two loops yield the same pages. */
  lemma {:induction false} StopRulesAgreeOnArrays<T>(pages: seq<Page<T>>)
    requires forall k :: 0 <= k < |pages| ==> pages[k].Items?
    ensures PagesUntilStop(StopOnZeroLength, pages) == PagesUntilStop(StopOnFalsyLength, pages)
  {
    if |pages| > 0 {
      StopRulesAgreeOnArrays(pages[1..]);
    }
  }
}

=== FILE: Summaries.dfy ===
/** The record conversions of the orchestrators: upstream activity and route
    summaries into the records sent to the browser (`server/api.ts`, with the
    earlier `server/index.ts` and `server/index.js`), the polyline choice of
    `convertActivity`, and stripping `map` from outgoing summaries.

    Dates are kept as the upstream text: `+new Date(date)` parsing and the
    locale-formatted `dateString` are not modelled. Field names `map` and
    `type` are Dafny keywords and appear here as `polyline` and `sport`. */
module Summaries {

  import opened Wrappers
  import opened JsValues

  /** The upstream `map` object; either polyline may be missing or null. */
  datatype RawMap = RawMap(polyline: JsValue, summaryPolyline: JsValue)

  /** An upstream activity; `mapField` is `None` when `map` is missing or null. */
  datatype RawActivity = RawActivity(id: int, name: string, startDateLocal: string,
                                     mapField: Option<RawMap>, sport: string)

  /** An upstream route with its numeric `type` and `sub_type` codes. */
  datatype RawRoute = RawRoute(id: int, idStr: string, name: string, createdAt: string,
                               mapField: Option<RawMap>, routeType: int, subType: int)

  datatype Activity = Activity(id: int, name: string, date: string, polyline: JsValue, sport: string)

  /** A route record; `Id` is the text `id_str` in api.ts and the number `id`
      in index.ts, and `isRoute` stands for the `route: true` field that only
      api.ts adds. */
  datatype Route<Id> = Route(isRoute: bool, id: Id, name: string, date: string, polyline: JsValue,
                             routeType: Option<string>, subType: Option<string>)

  /** The result of `convertActivity`: an id and the chosen polyline. */
  datatype ActivityMap = ActivityMap(id: int, polyline: JsValue)

  /** Destructuring `map: { summary_polyline }` out of a record whose `map`
      is missing throws a `TypeError`. */
  const MissingMapError := "TypeError: cannot destructure map"

  // ---------------------------------------------------------------------------
  // code tables (api.ts:69-70, index.ts:116-117)
  // ---------------------------------------------------------------------------

  /** `{ 1: 'Ride', 2: 'Run', 3: 'Walk' }[type]`; any other code is `undefined`. */
  function RouteTypeName(code: int): Option<string> {
    if code == 1 then Some("Ride")
    else if code == 2 then Some("Run")
    else if code == 3 then Some("Walk")
    else None
  }

  /** `{ 1: 'Road', 2: 'MountainBike', 3: 'Cross', 4: 'Trail', 5: 'Mixed' }[subType]`. */
  function SubTypeName(code: int): Option<string> {
    if code == 1 then Some("Road")
    else if code == 2 then Some("MountainBike")
    else if code == 3 then Some("Cross")
    else if code == 4 then Some("Trail")
    else if code == 5 then Some("Mixed")
    else None
  }

  /** The code a route type is sent with upstream: the reverse table. */
  function RouteTypeCode(name: string): Option<int> {
    if name == "Ride" then Some(1)
    else if name == "Run" then Some(2)
    else if name == "Walk" then Some(3)
    else None
  }

  function SubTypeCode(name: string): Option<int> {
    if name == "Road" then Some(1)
    else if name == "MountainBike" then Some(2)
    else if name == "Cross" then Some(3)
    else if name == "Trail" then Some(4)
    else if name == "Mixed" then Some(5)
    else None
  }

  /** The type table is a bijection between the codes 1-3 and its three names. */
  lemma RouteTypeTable(code: int, name: string)
    ensures RouteTypeName(code) == Some(name) <==> RouteTypeCode(name) == Some(code)
    ensures RouteTypeName(code).Some? <==> 1 <= code <= 3
  {
  }

  /** The sub-type table is a bijection between the codes 1-5 and its five names. */
  lemma SubTypeTable(code: int, name: string)
    ensures SubTypeName(code) == Some(name) <==> SubTypeCode(name) == Some(code)
    ensures SubTypeName(code).Some? <==> 1 <= code <= 5
  {
  }

  /** `[, 'Ride', 'Run'][type]`: the hole at index 0 and every index past
      the end read as `undefined`. */
  function TupleRouteTypeName(code: int): Option<string> {
    var table := [None, Some("Ride"), Some("Run")];
    if 0 <= code < |table| then table[code] else None
  }

  /** `[, 'Road', 'MountainBike', 'Cross', 'Trail', 'Mixed'][subType]`. */
  function TupleSubTypeName(code: int): Option<string> {
    var table := [None, Some("Road"), Some("MountainBike"), Some("Cross"), Some("Trail"), Some("Mixed")];
    if 0 <= code < |table| then table[code] else None
  }

  /** The tuple tables of index.ts agree with the object tables of api.ts,
      except that code 3 (Walk) has no entry in the tuple. */
  lemma TupleTablesAgree(code: int)
    ensures TupleRouteTypeName(code) == if code == 3 then None else RouteTypeName(code)
    ensures TupleSubTypeName(code) == SubTypeName(code)
  {
  }

  // ---------------------------------------------------------------------------
  // convertActivitySummary / convertRouteSummary (api.ts:45-73,
  // index.ts:93-120, index.js:121-133)
  // ---------------------------------------------------------------------------

  /** Copies `id`, `name`, the date, `map.summary_polyline` and `type`; fails
      when `map` is missing. */
  function ConvertActivitySummary(raw: RawActivity): (r: Result<Activity, string>)
    ensures r.Ok? <==> raw.mapField.Some?
    ensures r.Err? ==> r.error == MissingMapError
    ensures r.Ok? ==> && r.value.id == raw.id && r.value.name == raw.name
                      && r.value.date == raw.startDateLocal && r.value.sport == raw.sport
                      && r.value.polyline == raw.mapField.value.summaryPolyline
  {
    match raw.mapField
    case None => Err(MissingMapError)
    case Some(m) => Ok(Activity(raw.id, raw.name, raw.startDateLocal, m.summaryPolyline, raw.sport))
  }

  /** api.ts: the id is the text `id_str`, the codes go through the object
      tables and `route` is set. */
  function ConvertRouteSummary(raw: RawRoute): (r: Result<Route<string>, string>)
    ensures r.Ok? <==> raw.mapField.Some?
    ensures r.Ok? ==> && r.value.isRoute && r.value.id == raw.idStr && r.value.name == raw.name
                      && r.value.polyline == raw.mapField.value.summaryPolyline
                      && r.value.date == raw.createdAt
                      && r.value.routeType == RouteTypeName(raw.routeType)
                      && r.value.subType == SubTypeName(raw.subType)
  {
    match raw.mapField
    case None => Err(MissingMapError)
    case Some(m) =>
      Ok(Route(true, raw.idStr, raw.name, raw.createdAt, m.summaryPolyline,
               RouteTypeName(raw.routeType), SubTypeName(raw.subType)))
  }

  /** index.ts: the id is the number `id`, the codes go through the tuples
      and there is no `route` field. */
  function TupleConvertRouteSummary(raw: RawRoute): (r: Result<Route<int>, string>)
    ensures r.Ok? <==> raw.mapField.Some?
    ensures r.Ok? ==> && !r.value.isRoute && r.value.id == raw.id && r.value.name == raw.name
                      && r.value.polyline == raw.mapField.value.summaryPolyline
                      && r.value.date == raw.createdAt
                      && r.value.routeType == TupleRouteTypeName(raw.routeType)
                      && r.value.subType == TupleSubTypeName(raw.subType)
  {
    match raw.mapField
    case None => Err(MissingMapError)
    case Some(m) =>
      Ok(Route(false, raw.id, raw.name, raw.createdAt, m.summaryPolyline,
               TupleRouteTypeName(raw.routeType), TupleSubTypeName(raw.subType)))
  }

  /** The two route conversions succeed together and agree on everything but
      the id, the `route` flag, and the type of a Walk route, which the
      earlier one leaves undefined. */
  lemma RouteConversionsAgree(raw: RawRoute)
    ensures ConvertRouteSummary(raw).Ok? <==> TupleConvertRouteSummary(raw).Ok?
    ensures ConvertRouteSummary(raw).Ok? ==>
      var a := ConvertRouteSummary(raw).value;
      var b := TupleConvertRouteSummary(raw).value;
      && a.name == b.name && a.date == b.date && a.polyline == b.polyline && a.subType == b.subType
      && (a.routeType == b.routeType <==> raw.routeType != 3)
  {
    TupleTablesAgree(raw.routeType);
    TupleTablesAgree(raw.subType);
  }

  // ---------------------------------------------------------------------------
  // convertActivity (api.ts:75-85, index.ts:122-131)
  // ---------------------------------------------------------------------------

  /** The polyline for the map request: the detailed one when `highDetail`,
      the summary one otherwise, and `''` when the record has no `map` (the
      only way the property access can throw, so the rethrow is unreachable). */
  function ConvertActivity(raw: RawActivity, highDetail: bool): (r: ActivityMap)
    ensures r.id == raw.id
    ensures raw.mapField.None? ==> r.polyline == Str("")
    ensures raw.mapField.Some? && highDetail ==> r.polyline == raw.mapField.value.polyline
    ensures raw.mapField.Some? && !highDetail ==> r.polyline == raw.mapField.value.summaryPolyline
  {
    match raw.mapField
    case None => ActivityMap(raw.id, Str(""))
    case Some(m) => ActivityMap(raw.id, if highDetail then m.polyline else m.summaryPolyline)
  }

  /** Without `highDetail`, the map request yields the polyline the summary
      conversion would have carried, and a falsy one when there is no map. */
  lemma ConvertActivityMatchesSummary(raw: RawActivity)
    ensures ConvertActivitySummary(raw).Ok? ==>
      ConvertActivity(raw, false).polyline == ConvertActivitySummary(raw).value.polyline
    ensures ConvertActivitySummary(raw).Err? ==> !Truthy(ConvertActivity(raw, false).polyline)
  {
  }

  // ---------------------------------------------------------------------------
  // stripping `map` from outgoing records (api.ts:214, 236; index.ts:260, 284)
  // ---------------------------------------------------------------------------

  /** `({ map, ...activity }) => activity`. */
  datatype ActivitySummary = ActivitySummary(id: int, name: string, date: string, sport: string)

  datatype RouteSummary<Id> = RouteSummary(isRoute: bool, id: Id, name: string, date: string,
                                           routeType: Option<string>, subType: Option<string>)

  function StripActivity(a: Activity): ActivitySummary {
    ActivitySummary(a.id, a.name, a.date, a.sport)
  }

  function WithPolyline(s: ActivitySummary, polyline: JsValue): Activity {
    Activity(s.id, s.name, s.date, polyline, s.sport)
  }

  function StripRoute<Id>(r: Route<Id>): RouteSummary<Id> {
    RouteSummary(r.isRoute, r.id, r.name, r.date, r.routeType, r.subType)
  }

  function RouteWithPolyline<Id>(s: RouteSummary<Id>, polyline: JsValue): Route<Id> {
    Route(s.isRoute, s.id, s.name, s.date, polyline, s.routeType, s.subType)
  }

  /** A summary together with the polyline kept in the cache is exactly the
      record it was stripped from: stripping loses only `map`. */
  lemma StripActivityRoundTrip(a: Activity, s: ActivitySummary, p: JsValue)
    ensures WithPolyline(StripActivity(a), a.polyline) == a
    ensures StripActivity(WithPolyline(s, p)) == s
  {
  }

  lemma StripRouteRoundTrip<Id>(r: Route<Id>, s: RouteSummary<Id>, p: JsValue)
    ensures RouteWithPolyline(StripRoute(r), r.polyline) == r
    ensures StripRoute(RouteWithPolyline(s, p)) == s
  {
  }

  /** Two records with the same summary differ at most in their polylines. */
  lemma StripActivityForgetsOnlyPolyline(a: Activity, b: Activity)
    ensures StripActivity(a) == StripActivity(b) <==> a == b.(polyline := a.polyline)
  {
  }
}

=== FILE: TimeRangeLaws.dfy ===
/** The set laws of the coverage algebra in `TimeRanges`: `merge` keeps
    coverage and yields a separated, sorted normal form and is idempotent;
    `invert` is the complement; inverting twice recovers `merge` for proper
    ranges; `cap` is intersection with the window. */
module TimeRangeLaws {

  import opened Wrappers
  import opened TimeRanges

  // ---------------------------------------------------------------------------
  // Coverage of composite collections
  // ---------------------------------------------------------------------------

  lemma CoveredByAppend(a: seq<TimeRange>, b: seq<TimeRange>, t: int)
    ensures CoveredBy(a + b, t) <==> CoveredBy(a, t) || CoveredBy(b, t)
  {
    if CoveredBy(a + b, t) {
      var i :| 0 <= i < |a + b| && Covers((a + b)[i], t);
      if i >= |a| {
        assert b[i - |a|] == (a + b)[i];
      }
    }
    if CoveredBy(a, t) {
      var i :| 0 <= i < |a| && Covers(a[i], t);
      assert (a + b)[i] == a[i];
    }
    if CoveredBy(b, t) {
      var i :| 0 <= i < |b| && Covers(b[i], t);
      assert (a + b)[|a| + i] == b[i];
    }
  }

  lemma CoveredByCons(x: TimeRange, b: seq<TimeRange>, t: int)
    ensures CoveredBy([x] + b, t) <==> Covers(x, t) || CoveredBy(b, t)
  {
    CoveredByAppend([x], b, t);
    assert CoveredBy([x], t) <==> Covers(x, t) by {
      assert [x][0] == x;
    }
  }

  /** Coverage depends only on which ranges are present, not on their order. */
  lemma CoveredBySameElements(a: seq<TimeRange>, b: seq<TimeRange>, t: int)
    requires multiset(a) == multiset(b)
    ensures CoveredBy(a, t) <==> CoveredBy(b, t)
  {
    if CoveredBy(a, t) {
      var i :| 0 <= i < |a| && Covers(a[i], t);
      assert a[i] in multiset(b);
      var j :| 0 <= j < |b| && b[j] == a[i];
    }
    if CoveredBy(b, t) {
      var i :| 0 <= i < |b| && Covers(b[i], t);
      assert b[i] in multiset(a);
      var j :| 0 <= j < |a| && a[j] == b[i];
    }
  }

  // ---------------------------------------------------------------------------
  // sort
  // ---------------------------------------------------------------------------

  /** `sort` returns a permutation of its input in `StartLe` order: start-less
      ranges first, then ascending start. */
  lemma SortIsOrderedPermutation(rs: seq<TimeRange>)
    ensures multiset(Sort(rs)) == multiset(rs)
    ensures SortedByStart(Sort(rs))
    ensures |Sort(rs)| == |rs|
  {
    assert |multiset(Sort(rs))| == |multiset(rs)|;
  }

  /** Sorting input that is already in order changes nothing (the sort is stable). */
  lemma {:induction false} SortOfSorted(rs: seq<TimeRange>)
    requires SortedByStart(rs)
    ensures Sort(rs) == rs
  {
    if |rs| > 0 {
      SortOfSorted(rs[1..]);
      assert rs == [rs[0]] + rs[1..];
    }
  }

  lemma SortKeepsValidity(rs: seq<TimeRange>)
    ensures AllValid(rs) ==> AllValid(Sort(rs))
    ensures AllProper(rs) ==> AllProper(Sort(rs))
  {
    var s := Sort(rs);
    forall i | 0 <= i < |s| ensures s[i] in rs {
      assert s[i] in multiset(rs);
    }
  }

  // ---------------------------------------------------------------------------
  // The merge loop
  // ---------------------------------------------------------------------------

  /** Every range still to visit starts no earlier than the running range. */
  predicate Below(prev: TimeRange, rest: seq<TimeRange>) {
    forall i :: 0 <= i < |rest| ==> StartLe(prev.start, rest[i].start)
  }

  lemma StartLeTrans(a: Option<int>, b: Option<int>, c: Option<int>)
    requires StartLe(a, b) && StartLe(b, c)
    ensures StartLe(a, c)
  {
  }

  /** The loop emits at least the running range, keeps its start first, and
      produces separated output in `StartLe` order. */
  lemma {:induction false} FoldShape(prev: TimeRange, rest: seq<TimeRange>)
    requires Below(prev, rest) && SortedByStart(rest)
    ensures |Fold(prev, rest)| >= 1 && Fold(prev, rest)[0].start == prev.start
    ensures |Fold(prev, rest)| <= |rest| + 1
    ensures Separated(Fold(prev, rest))
    ensures SortedByStart(Fold(prev, rest))
    ensures forall i :: 0 <= i < |Fold(prev, rest)| ==> StartLe(prev.start, Fold(prev, rest)[i].start)
    decreases |rest|
  {
    if |rest| == 0 || prev.end.None? {
    } else {
      var range := rest[0];
      var rest' := rest[1..];
      assert Below(range, rest') by {
        forall i | 0 <= i < |rest'| ensures StartLe(range.start, rest'[i].start) {
          assert rest'[i] == rest[i + 1];
        }
      }
      if range.start.Some? && prev.end.value < range.start.value {
        FoldShape(range, rest');
        var f := Fold(range, rest');
        var r := [prev] + f;
        assert r == Fold(prev, rest);
        forall i | 0 <= i < |r| ensures StartLe(prev.start, r[i].start) {
          if i > 0 {
            StartLeTrans(prev.start, range.start, f[i - 1].start);
          }
        }
        forall i, j | 0 <= i < j < |r| ensures EndsBefore(r[i], r[j]) {
          if i == 0 {
            assert StartLe(range.start, f[j - 1].start);
          } else {
            assert f[i - 1] == r[i] && f[j - 1] == r[j];
          }
        }
        forall i, j | 0 <= i < j < |r| ensures StartLe(r[i].start, r[j].start) {
          if i > 0 {
            assert f[i - 1] == r[i] && f[j - 1] == r[j];
          }
        }
      } else if range.end.None? || prev.end.value < range.end.value {
        FoldShape(TimeRange(prev.start, range.end), rest');
      } else {
        FoldShape(prev, rest');
      }
    }
  }

  /** The loop loses and invents nothing: its output covers exactly what the
      running range and the ranges still to visit cover. */
  lemma {:induction false} FoldCoverage(prev: TimeRange, rest: seq<TimeRange>, t: int)
    requires Below(prev, rest) && SortedByStart(rest)
    ensures CoveredBy(Fold(prev, rest), t) <==> Covers(prev, t) || CoveredBy(rest, t)
    decreases |rest|
  {
    if |rest| == 0 {
      assert !CoveredBy(rest, t);
      CoveredByCons(prev, [], t);
    } else {
      var range := rest[0];
      var rest' := rest[1..];
      assert rest == [range] + rest';
      CoveredByCons(range, rest', t);
      if prev.end.None? {
        CoveredByCons(prev, [], t);
        if CoveredBy(rest, t) {
          var i :| 0 <= i < |rest| && Covers(rest[i], t);
          assert StartLe(prev.start, rest[i].start);
        }
      } else {
        assert Below(range, rest') by {
          forall i | 0 <= i < |rest'| ensures StartLe(range.start, rest'[i].start) {
            assert rest'[i] == rest[i + 1];
          }
        }
        assert Below(prev, rest') by {
          forall i | 0 <= i < |rest'| ensures StartLe(prev.start, rest'[i].start) {
            assert rest'[i] == rest[i + 1];
          }
        }
        assert StartLe(prev.start, range.start);
        if range.start.Some? && prev.end.value < range.start.value {
          FoldCoverage(range, rest', t);
          CoveredByCons(prev, Fold(range, rest'), t);
        } else if range.end.None? || prev.end.value < range.end.value {
          FoldCoverage(TimeRange(prev.start, range.end), rest', t);
        } else {
          FoldCoverage(prev, rest', t);
        }
      }
    }
  }

  /** The loop never reverses a range, and never empties a non-empty one. */
  lemma {:induction false} FoldKeepsValidity(prev: TimeRange, rest: seq<TimeRange>)
    ensures Valid(prev) && AllValid(rest) ==> AllValid(Fold(prev, rest))
    ensures Proper(prev) && AllProper(rest) ==> AllProper(Fold(prev, rest))
    decreases |rest|
  {
    if |rest| > 0 && prev.end.Some? {
      var range := rest[0];
      var rest' := rest[1..];
      assert AllValid(rest) ==> AllValid(rest');
      assert AllProper(rest) ==> AllProper(rest');
      if range.start.Some? && prev.end.value < range.start.value {
        FoldKeepsValidity(range, rest');
      } else if range.end.None? || prev.end.value < range.end.value {
        FoldKeepsValidity(TimeRange(prev.start, range.end), rest');
      } else {
        FoldKeepsValidity(prev, rest');
      }
    }
  }

  lemma SeparatedTail(rs: seq<TimeRange>)
    requires Separated(rs) && |rs| > 0
    ensures Separated(rs[1..])
  {
    var t := rs[1..];
    forall i, j | 0 <= i < j < |t|
      ensures EndsBefore(t[i], t[j])
    {
      assert t[i] == rs[i + 1] && t[j] == rs[j + 1];
    }
  }

  /** On input that is already separated the loop never combines anything. */
  lemma {:induction false} FoldOfSeparated(prev: TimeRange, rest: seq<TimeRange>)
    requires Separated([prev] + rest)
    ensures Fold(prev, rest) == [prev] + rest
    decreases |rest|
  {
    if |rest| > 0 {
      var all := [prev] + rest;
      assert all[0] == prev && all[1] == rest[0];
      SeparatedTail(all);
      assert all[1..] == rest;
      assert [rest[0]] + rest[1..] == rest;
      FoldOfSeparated(rest[0], rest[1..]);
    }
  }

  // ---------------------------------------------------------------------------
  // merge
  // ---------------------------------------------------------------------------

  /** `merge` preserves coverage: an instant lies in some input range iff it
      lies in some output range. */
  lemma MergeCoverage(rs: seq<TimeRange>, t: int)
    ensures CoveredBy(Merge(rs), t) <==> CoveredBy(rs, t)
  {
    var s := Sort(rs);
    CoveredBySameElements(s, rs, t);
    if |s| > 0 {
      assert Below(s[0], s[1..]) by {
        forall i | 0 <= i < |s[1..]| ensures StartLe(s[0].start, s[1..][i].start) {
          assert s[1..][i] == s[i + 1];
        }
      }
      FoldCoverage(s[0], s[1..], t);
      CoveredByCons(s[0], s[1..], t);
      assert s == [s[0]] + s[1..];
    }
  }

  /** `merge`'s output is strictly separated (touching ranges have been
      coalesced) and sorted; it is empty exactly when the input is, and never
      longer than the input. */
  lemma MergeShape(rs: seq<TimeRange>)
    ensures Separated(Merge(rs))
    ensures SortedByStart(Merge(rs))
    ensures |Merge(rs)| == 0 <==> |rs| == 0
    ensures |Merge(rs)| <= |rs|
  {
    var s := Sort(rs);
    SortIsOrderedPermutation(rs);
    if |s| > 0 {
      assert Below(s[0], s[1..]) by {
        forall i | 0 <= i < |s[1..]| ensures StartLe(s[0].start, s[1..][i].start) {
          assert s[1..][i] == s[i + 1];
        }
      }
      FoldShape(s[0], s[1..]);
    }
  }

  lemma MergeKeepsValidity(rs: seq<TimeRange>)
    ensures AllValid(rs) ==> AllValid(Merge(rs))
    ensures AllProper(rs) ==> Normal(Merge(rs))
  {
    var s := Sort(rs);
    SortKeepsValidity(rs);
    MergeShape(rs);
    if |s| > 0 {
      assert AllValid(s) ==> AllValid(s[1..]);
      assert AllProper(s) ==> AllProper(s[1..]);
      FoldKeepsValidity(s[0], s[1..]);
    }
  }

  /** Separated ranges in `StartLe` order are their own normal form. */
  lemma MergeOfNormalForm(rs: seq<TimeRange>)
    requires Separated(rs) && SortedByStart(rs)
    ensures Merge(rs) == rs
  {
    SortOfSorted(rs);
    if |rs| > 0 {
      assert [rs[0]] + rs[1..] == rs;
      FoldOfSeparated(rs[0], rs[1..]);
    }
  }

  /** `merge` is idempotent. */
  lemma MergeIdempotent(rs: seq<TimeRange>)
    ensures Merge(Merge(rs)) == Merge(rs)
  {
    MergeShape(rs);
    MergeOfNormalForm(Merge(rs));
  }

  // ---------------------------------------------------------------------------
  // The comparator as written
  // ---------------------------------------------------------------------------

  /** The comparator reports each of a start-less range and a range with a
      start as smaller than the other, so it is not an order. */
  lemma ComparatorInconsistent()
    ensures Negative(JsComparator(TimeRange(Some(10), Some(20)), TimeRange(None, Some(5))))
    ensures Negative(JsComparator(TimeRange(None, Some(5)), TimeRange(Some(10), Some(20))))
  {
  }

  /** Sorting `[{end: 5}, {start: 10, end: 20}]` with the comparator may put
      the start-less range second; the merge loop then drops it, and instant
      0, covered by the input, is lost. `Merge`, which sorts start-less ranges
      first, keeps both ranges. */
  lemma MisorderedMergeLosesCoverage()
    ensures var input := [TimeRange(None, Some(5)), TimeRange(Some(10), Some(20))];
      var swapped := [input[1], input[0]];
      && multiset(swapped) == multiset(input)
      && ComparatorAccepts(swapped)
      && CoveredBy(input, 0)
      && MergeSorted(swapped) == [TimeRange(Some(10), Some(20))]
      && !CoveredBy(MergeSorted(swapped), 0)
      && Merge(input) == input
  {
    var a, b := TimeRange(None, Some(5)), TimeRange(Some(10), Some(20));
    assert Covers(a, 0) && !Covers(b, 0);
    SwappedPairMerge(a, b);
    OrderedPairMerge(a, b);
  }

  lemma SwappedPairMerge(a: TimeRange, b: TimeRange)
    requires a == TimeRange(None, Some(5)) && b == TimeRange(Some(10), Some(20))
    ensures MergeSorted([b, a]) == [b]
  {
    assert [b, a][1..] == [a] && [a][1..] == [];
    assert Fold(b, [a]) == Fold(b, []);
  }

  lemma OrderedPairMerge(a: TimeRange, b: TimeRange)
    requires a == TimeRange(None, Some(5)) && b == TimeRange(Some(10), Some(20))
    ensures Merge([a, b]) == [a, b]
  {
    SortOfSorted([a, b]);
    assert [a, b][1..] == [b] && [b][1..] == [];
    assert Fold(a, [b]) == [a] + Fold(b, []);
  }
}

=== FILE: TimeRanges.dfy ===
/** The coverage algebra of `shared/interfaces/TimeRange.ts`: sets of time
    ranges whose ends may be missing (unbounded), with `merge` (normal form),
    `invert` (complement) and `cap` (restriction to a fetch window).

    A range denotes the half-open set of instants `[start, end)`; a missing
    `start` is the unbounded past and a missing `end` the unbounded future.
    With this reading two ranges that touch (`a.end == b.start`) leave no gap,
    which is why `merge` coalesces them. */
module TimeRanges {

  import opened Wrappers

  datatype TimeRange = TimeRange(start: Option<int>, end: Option<int>)

  /** The range contains instant `t`. */
  predicate Covers(r: TimeRange, t: int) {
    (r.start.None? || r.start.value <= t) && (r.end.None? || t < r.end.value)
  }

  /** Some range of the collection contains instant `t`. */
  predicate CoveredBy(rs: seq<TimeRange>, t: int) {
    exists i :: 0 <= i < |rs| && Covers(rs[i], t)
  }

  /** A range whose ends, when both present, are not reversed (it may be empty). */
  predicate Valid(r: TimeRange) {
    r.start.Some? && r.end.Some? ==> r.start.value <= r.end.value
  }

  /** A range that, when both ends are present, is non-empty. */
  predicate Proper(r: TimeRange) {
    r.start.Some? && r.end.Some? ==> r.start.value < r.end.value
  }

  predicate AllValid(rs: seq<TimeRange>) {
    forall i :: 0 <= i < |rs| ==> Valid(rs[i])
  }

  predicate AllProper(rs: seq<TimeRange>) {
    forall i :: 0 <= i < |rs| ==> Proper(rs[i])
  }

  /** Every range ends, strictly, before any later range starts: only the
      first range may lack a start, only the last may lack an end, and no two
      ranges touch. */
  predicate Separated(rs: seq<TimeRange>) {
    forall i, j :: 0 <= i < j < |rs| ==> EndsBefore(rs[i], rs[j])
  }

  /** `a` has an end, `b` has a start, and a gap lies strictly between them. */
  predicate EndsBefore(a: TimeRange, b: TimeRange) {
    a.end.Some? && b.start.Some? && a.end.value < b.start.value
  }

  /** The normal form `merge` produces from proper ranges. */
  predicate Normal(rs: seq<TimeRange>) {
    Separated(rs) && AllProper(rs)
  }

  // ---------------------------------------------------------------------------
  // sort (TimeRange.ts:6-10)
  // ---------------------------------------------------------------------------

  /** The order `merge` needs: a missing start (the unbounded past) comes
      before every present start, and present starts ascend. */
  predicate StartLe(a: Option<int>, b: Option<int>) {
    a.None? || (b.Some? && a.value <= b.value)
  }

  predicate SortedByStart(rs: seq<TimeRange>) {
    forall i, j :: 0 <= i < j < |rs| ==> StartLe(rs[i].start, rs[j].start)
  }

  /** Places `x` before the first element it does not start after. */
  function Insert(x: TimeRange, rs: seq<TimeRange>): (r: seq<TimeRange>)
    requires SortedByStart(rs)
    ensures SortedByStart(r)
    ensures multiset(r) == multiset(rs) + multiset{x}
  {
    if |rs| == 0 then [x]
    else if StartLe(x.start, rs[0].start) then
      InsertFrontSorted(x, rs);
      [x] + rs
    else
      var tail := Insert(x, rs[1..]);
      assert rs == [rs[0]] + rs[1..];
      InsertBehindSorted(x, rs, tail);
      [rs[0]] + tail
  }

  lemma InsertFrontSorted(x: TimeRange, rs: seq<TimeRange>)
    requires SortedByStart(rs) && |rs| > 0 && StartLe(x.start, rs[0].start)
    ensures SortedByStart([x] + rs)
  {
    var r := [x] + rs;
    forall i, j | 0 <= i < j < |r| ensures StartLe(r[i].start, r[j].start) {
      if i == 0 && j > 1 {
        assert StartLe(rs[0].start, rs[j - 1].start);
      }
    }
  }

  lemma InsertBehindSorted(x: TimeRange, rs: seq<TimeRange>, tail: seq<TimeRange>)
    requires SortedByStart(rs) && |rs| > 0 && !StartLe(x.start, rs[0].start)
    requires SortedByStart(tail) && multiset(tail) == multiset(rs[1..]) + multiset{x}
    ensures SortedByStart([rs[0]] + tail)
  {
    var r := [rs[0]] + tail;
    forall i, j | 0 <= i < j < |r| ensures StartLe(r[i].start, r[j].start) {
      if i == 0 {
        var y := tail[j - 1];
        assert y in multiset(tail);
        if y != x {
          assert y in multiset(rs[1..]);
          var k :| 0 <= k < |rs[1..]| && rs[1..][k] == y;
          assert rs[k + 1] == y;
        }
      }
    }
  }

  /** A stable insertion sort by `StartLe`. The source sorts a copy of its
      argument (`slice()` first); values are immutable here, so the argument
      is untouched by construction. */
  function Sort(rs: seq<TimeRange>): (r: seq<TimeRange>)
    ensures SortedByStart(r)
    ensures multiset(r) == multiset(rs)
  {
    if |rs| == 0 then []
    else
      assert rs == [rs[0]] + rs[1..];
      Insert(rs[0], Sort(rs[1..]))
  }

  /** The comparator the source passes to `Array.prototype.sort`, on the
      extended reals: `(a.start ?? -Infinity) - (b.start ?? +Infinity)`. */
  datatype Extended = NegInf | Finite(v: int) | PosInf

  function JsComparator(a: TimeRange, b: TimeRange): (c: Extended)
    ensures c == NegInf <==> a.start.None? || b.start.None?
    ensures a.start.Some? && b.start.Some? ==> c == Finite(a.start.value - b.start.value)
  {
    // -Infinity minus anything finite or +Infinity is -Infinity, and so is
    // a finite start minus +Infinity.
    if a.start.None? || b.start.None? then NegInf
    else Finite(a.start.value - b.start.value)
  }

  predicate Negative(c: Extended) {
    c.NegInf? || (c.Finite? && c.v < 0)
  }

  predicate Positive(c: Extended) {
    c.PosInf? || (c.Finite? && c.v > 0)
  }

  /** An order `Array.prototype.sort` may return with this comparator: no
      neighbouring pair is one the comparator reports as out of order. */
  predicate ComparatorAccepts(rs: seq<TimeRange>) {
    forall i :: 0 <= i < |rs| - 1 ==> !Positive(JsComparator(rs[i], rs[i + 1]))
  }

  // ---------------------------------------------------------------------------
  // merge (TimeRange.ts:18-34)
  // ---------------------------------------------------------------------------

  /** The loop of `merge` with `prev` as the running range and `rest` the
      ranges not yet visited. */
  function Fold(prev: TimeRange, rest: seq<TimeRange>): seq<TimeRange>
    decreases |rest|
  {
    if |rest| == 0 || prev.end.None? then [prev]
    else
      var range := rest[0];
      if range.start.Some? && prev.end.value < range.start.value then
        [prev] + Fold(range, rest[1..])
      else if range.end.None? || prev.end.value < range.end.value then
        Fold(TimeRange(prev.start, range.end), rest[1..])
      else
        Fold(prev, rest[1..])
  }

  /** `merge` applied to input that is already in `StartLe` order. */
  function MergeSorted(rs: seq<TimeRange>): seq<TimeRange> {
    if |rs| == 0 then [] else Fold(rs[0], rs[1..])
  }

  function Merge(rs: seq<TimeRange>): seq<TimeRange> {
    MergeSorted(Sort(rs))
  }

  // ---------------------------------------------------------------------------
  // pairs and invert (TimeRange.ts:11-15, 36-44)
  // ---------------------------------------------------------------------------

  /** `pairs`: for `i` in `0..|rs|`, the pair `(rs[i-1], rs[i])`, where an
      index outside the sequence reads as `undefined`. */
  function Pairs(rs: seq<TimeRange>): seq<(Option<TimeRange>, Option<TimeRange>)> {
    seq(|rs| + 1, i =>
      (if 0 < i <= |rs| then Some(rs[i - 1]) else None,
       if 0 <= i < |rs| then Some(rs[i]) else None))
  }

  /** One iteration of `invert`'s loop: the gap between `pre` and `post`, or
      nothing when either side is unbounded towards the gap. */
  function GapOf(pair: (Option<TimeRange>, Option<TimeRange>)): Option<TimeRange> {
    var (pre, post) := pair;
    if pre.Some? && pre.value.end.None? then None
    else if post.Some? && post.value.start.None? then None
    else Some(TimeRange(if pre.Some? then pre.value.end else None,
                        if post.Some? then post.value.start else None))
  }

  function Gaps(ps: seq<(Option<TimeRange>, Option<TimeRange>)>): seq<TimeRange> {
    if |ps| == 0 then []
    else (if GapOf(ps[0]).Some? then [GapOf(ps[0]).value] else []) + Gaps(ps[1..])
  }

  function Invert(rs: seq<TimeRange>): seq<TimeRange> {
    Gaps(Pairs(Merge(rs)))
  }

  // ---------------------------------------------------------------------------
  // cap (TimeRange.ts:46-54)
  // ---------------------------------------------------------------------------

  /** `cap(ranges, start, end)` with both defaults passed in explicitly:
      `start` defaults to 0, which the call sites (api.ts:204, index.ts:249)
      rely on, and `end` to `Date.now()`. The result is the parts of
      `ranges` inside the window `[start, end)`. */
  function Cap(rs: seq<TimeRange>, start: int, end: int): seq<TimeRange> {
    Invert(Invert(rs) + [TimeRange(None, Some(start)), TimeRange(Some(end), None)])
  }
}

=== FILE: Wrappers.dfy ===
/** Failure-compatible wrappers used throughout the model: a missing JavaScript
    property becomes `None`, and a thrown exception becomes an `Err`. */
module Wrappers {

  /** `None` stands for `undefined`/`null`, or for "not present". */
  datatype Option<+T> = None | Some(value: T)

  /** The outcome of an operation that the source lets throw. */
  datatype Result<+T, +E> = Ok(value: T) | Err(error: E) {

    predicate IsFailure() {
      Err?
    }

    function PropagateFailure<U>(): Result<U, E>
      requires Err?
    {
      Err(error)
    }

    function Extract(): T
      requires Ok?
    {
      value
    }
  }
}
